=== FILE: README.md ===
# Load-balancer drivers of the networking service, modelled in Dafny

This project models the core of two load-balancer back ends of the networking service (neutron), written as pure Dafny functions with proved contracts.

- **Edge driver.** The vShield Edge load-balancer driver translates the platform's vips, pools, members and health monitors into the shapes the edge appliance accepts, and back again. It keeps three binding tables (vip, pool, monitor) that map platform ids to the appliance's ids. Every create, read, update and delete goes through these tables.
- **NetScaler plugin driver.** This driver resolves which agent hosts a pool and computes the network info it sends along. It manages one shared SNAT port per (tenant, subnet): the port is created when the first pool arrives and deleted when the last pool leaves. Each entry point casts exactly one message to the agent's host. The module also has the agent callbacks that plug and unplug a vip port.
- **NetScaler REST client.** The client is built from a URI (whose host part may carry a port), credentials, plural names, extra headers and a proxy flag. It classifies reply statuses and turns a reply into a response record. The four HTTP verbs share a request shape and each has its own status handling.

Modules:

| file | module | content |
|---|---|---|
| wrappers.dfy | Wrappers | `Option`, `Result` |
| location_header.dfy | LocationHeader | backend id taken from a `Location` header |
| binding_table.dfy | BindingTable | binding rows, first-match lookups, put/delete by primary key |
| edge_translate.dfy | EdgeTranslate | `BALANCE_MAP`, `PROTOCOL_MAP`, the `_convert_*`/`_restore_*` translators |
| edge_driver.dfy | EdgeDriver | create/get/update/delete of vip, pool and monitor |
| edge_properties.dfy | EdgeProperties | properties spanning several edge operations |
| netscaler_state.dfy | NetScalerState | platform state, events, network info, agent and pool lookups |
| snat_ports.dfy | SnatPorts | the SNAT-port helpers |
| netscaler_driver.dfy | NetScalerDriver | the NetScaler entry points |
| netscaler_properties.dfy | NetScalerProperties | SNAT-port lifecycle across calls |
| lb_callbacks.dfy | LbCallbacks | `plug_vip_port`, `unplug_vip_port` |
| rest_client.dfy | RestClient | the REST client |

Modelling choices:

- **Appliance as an oracle.** The edge appliance is not modelled. Each edge operation takes the replies its appliance calls would receive, as `Ok(value)` or `ApiError(status)`. It returns the calls it actually issued, in order, together with the new binding tables and its outcome.
- **Binding tables as rows.** Each binding table is a sequence of rows, and a lookup returns the first row that matches, as the database's `.first()` does. This lets the reverse lookup by (edge, backend id) be a function. Recording a binding replaces any row with the same primary key.
- **NetScaler state and trace.** The NetScaler driver works on a `Platform` value: subnets, networks, the provider's port list in order, pool records, the vip, member and pool-monitor associations, and the pool-to-agent hosting table. Each entry point returns the new platform, a trace of its effects (port created or deleted, database record deleted, message cast to a host) and its outcome.
- **Inputs that stand in for outside code.**
  - The scheduler's choice of agent is an `Option<Agent>` input.
  - The provider's choice of id and address for a new port is an `Allocation` input.
  - The device id derived from an agent host is a string input.
  - In the REST client, the URI parser's result is an input, credentials stay symbolic (no base64), and the XML serializer and deserializer are symbolic.
  - How a connection went is an `Exchange` input: either a reply or a lookup error.

## Model

| member | source | states |
|---|---|---|
| LocationHeader.RFind | neutron/plugins/nicira/vshield/edge_loadbalancer_driver.py:149 | the index found holds the character and no later position does; -1 when absent |
| LocationHeader.IdFromLocation | neutron/plugins/nicira/vshield/edge_loadbalancer_driver.py:148-149 | the id is a slash-free suffix of the location, preceded by a slash unless it is the whole location |
| LocationHeader.IdOfBareLocation | neutron/plugins/nicira/vshield/edge_loadbalancer_driver.py:159-160 | a location without a slash is itself the id |
| LocationHeader.IdOfJoinedLocation | neutron/plugins/nicira/vshield/edge_loadbalancer_driver.py:219-220 | joining any prefix and a slash-free id with a slash, then extracting, gives the id back |
| LocationHeader.IdOfTypicalLocation | neutron/plugins/nicira/vshield/edge_loadbalancer_driver.py:281-282 | an illustration of IdOfJoinedLocation: a concrete appliance header gives its trailing id |
| BindingTable.FirstIndex | neutron/plugins/nicira/vshield/edge_loadbalancer_driver.py:49-51 | the index found is the first matching row; -1 means no row matches |
| BindingTable.First | neutron/plugins/nicira/vshield/edge_loadbalancer_driver.py:62-65 | a returned row is in the table and matches; nothing is returned exactly when no row matches |
| BindingTable.Without | neutron/plugins/nicira/vshield/edge_loadbalancer_driver.py:209 | the rows kept are exactly the rows that do not match the key |
| BindingTable.Put | neutron/plugins/nicira/vshield/edge_loadbalancer_driver.py:162-169 | the new row is what a lookup by its key returns; the other rows are the old rows with a different key |
| BindingTable.PutKeepsKeyed | neutron/plugins/nicira/vshield/edge_loadbalancer_driver.py:222-228 | recording a binding keeps at most one row per primary key |
| BindingTable.WithoutKeepsKeyed | neutron/plugins/nicira/vshield/edge_loadbalancer_driver.py:269-270 | deleting by key keeps at most one row per primary key |
| BindingTable.FirstByPrimaryKey | neutron/plugins/nicira/vshield/edge_loadbalancer_driver.py:250-252 | in a keyed table, a lookup by a row's primary key returns that row exactly when the row is stored |
| BindingTable.PutLeavesOtherKeys | neutron/plugins/nicira/vshield/edge_loadbalancer_driver.py:284-290 | recording one binding changes no lookup of a different primary key |
| BindingTable.WithoutLeavesOtherKeys | neutron/plugins/nicira/vshield/edge_loadbalancer_driver.py:260-270 | deleting by one primary key changes no lookup of a different primary key |
| BindingTable.ReverseLookupInverts | neutron/plugins/nicira/vshield/edge_loadbalancer_driver.py:61-73 | when backend ids are unique per edge, the reverse lookup of a pool's backend id returns that pool |
| BindingTable.PutKeepsInjective | neutron/plugins/nicira/vshield/edge_loadbalancer_driver.py:222-228 | recording a row whose backend id is unused on its edge keeps backend ids unique per edge |
| EdgeTranslate.Algorithm | neutron/plugins/nicira/vshield/edge_loadbalancer_driver.py:78-80 | the algorithm is always one of the table's values |
| EdgeTranslate.MonitorType | neutron/plugins/nicira/vshield/edge_loadbalancer_driver.py:108-109 | the monitor type is always one of the table's values |
| EdgeTranslate.AlgorithmTable | neutron/plugins/nicira/vshield/edge_loadbalancer_driver.py:30-34 | round robin, least connections and source IP map to round-robin, leastconn and source; any other method maps to round-robin |
| EdgeTranslate.AlgorithmInjective | neutron/plugins/nicira/vshield/edge_loadbalancer_driver.py:30-34 | distinct supported methods give distinct algorithms |
| EdgeTranslate.MonitorTypeTable | neutron/plugins/nicira/vshield/edge_loadbalancer_driver.py:35-39 | TCP and HTTPS map to tcp and HTTP maps to http; any other type maps to http |
| EdgeTranslate.ConvertVip | neutron/plugins/nicira/vshield/edge_loadbalancer_driver.py:47-59 | succeeds exactly when the vip's pool is bound on the edge; the shape carries the vip's name, address, protocol and port, the pool binding's backend id as default pool, and the profile id given |
| EdgeTranslate.RestoreVip | neutron/plugins/nicira/vshield/edge_loadbalancer_driver.py:61-73 | succeeds exactly when some row binds the vip's default pool on the edge; the vip returned carries the shape's name, address, protocol and port, and that row's platform pool id |
| EdgeTranslate.ConvertMembers | neutron/plugins/nicira/vshield/edge_loadbalancer_driver.py:84-88 | same count and order; each entry carries its member's address and port |
| EdgeTranslate.ConvertPool | neutron/plugins/nicira/vshield/edge_loadbalancer_driver.py:75-98 | the monitor list is empty without monitors, and otherwise holds exactly the first monitor's backend id; fails only when that monitor is unbound; name, algorithm and members are carried over |
| EdgeTranslate.RestorePool | neutron/plugins/nicira/vshield/edge_loadbalancer_driver.py:100-104 | the platform view keeps the name |
| EdgeTranslate.ConvertMonitor | neutron/plugins/nicira/vshield/edge_loadbalancer_driver.py:106-114 | the type is the PROTOCOL_MAP entry for the monitor type, http for a type the table does not know; the delay becomes the interval, the timeout and retries are copied and the id becomes the name |
| EdgeTranslate.RestoreMonitor | neutron/plugins/nicira/vshield/edge_loadbalancer_driver.py:116-122 | delay, timeout and retries come from the interval, timeout and maxRetries, and the id from the name |
| EdgeTranslate.ConvertAppProfile | neutron/plugins/nicira/vshield/edge_loadbalancer_driver.py:124-136 | the profile always has source-ip persistence, the HTTP template, and no SSL or forwarded-for header |
| EdgeTranslate.AppProfileIgnoresPersistence | neutron/plugins/nicira/vshield/edge_loadbalancer_driver.py:124-136 | the requested session persistence has no effect on the profile |
| EdgeTranslate.MonitorRoundTrip | neutron/plugins/nicira/vshield/edge_loadbalancer_driver.py:106-122 | restoring a converted monitor gives back its delay, timeout, retries and id |
| EdgeTranslate.MonitorProbeIsTcpExactly | neutron/plugins/nicira/vshield/edge_loadbalancer_driver.py:35-114 | a monitor is probed over tcp exactly when its type is TCP or HTTPS, and over http otherwise |
| EdgeTranslate.VipRoundTripFields | neutron/plugins/nicira/vshield/edge_loadbalancer_driver.py:47-73 | restoring a converted vip succeeds and gives back its name, address, protocol and port |
| EdgeTranslate.VipRoundTrip | neutron/plugins/nicira/vshield/edge_loadbalancer_driver.py:47-73 | with backend ids unique per edge, restoring a converted vip also gives back its pool id |
| EdgeTranslate.OnlyFirstMonitorAttached | neutron/plugins/nicira/vshield/edge_loadbalancer_driver.py:89-97 | replacing every monitor after the first changes nothing in the pool shape |
| EdgeDriver.CreateVip | neutron/plugins/nicira/vshield/edge_loadbalancer_driver.py:138-169 | the profile is created before the vip; the vip call sends exactly the converted shape, built with the profile's and the pool's backend ids; the binding is written only when both calls succeed, and on success the vip table is the new binding plus every row of another vip; an appliance error is returned unchanged and leaves the tables as they were |
| EdgeDriver.GetVip | neutron/plugins/nicira/vshield/edge_loadbalancer_driver.py:171-180 | reads under the bound edge and backend id and restores the reply; changes no table |
| EdgeDriver.UpdateVip | neutron/plugins/nicira/vshield/edge_loadbalancer_driver.py:182-194 | when the vip is bound: a pool that is not bound fails with no call, otherwise exactly one update call sends the converted shape under the stored backend id and profile id, and it succeeds exactly when the appliance accepts it; changes no table |
| EdgeDriver.DeleteVip | neutron/plugins/nicira/vshield/edge_loadbalancer_driver.py:196-209 | deletes the vip, then the profile; the binding goes exactly when both succeed, and then the vip table keeps exactly the rows of other vips; a failure returns the appliance's error and keeps the binding |
| EdgeDriver.CreatePool | neutron/plugins/nicira/vshield/edge_loadbalancer_driver.py:211-228 | one create call with the translated pool; on success the pool table is the new binding, naming the id from the location header, plus every row of another pool or edge; on failure the tables are unchanged |
| EdgeDriver.GetPool | neutron/plugins/nicira/vshield/edge_loadbalancer_driver.py:230-247 | a missing binding is not-found before any call; otherwise one read under the bound backend id, restored from the reply |
| EdgeDriver.UpdatePool | neutron/plugins/nicira/vshield/edge_loadbalancer_driver.py:249-258 | when the pool is bound: a shape that cannot be built fails with no call, otherwise exactly one update call sends the converted shape under the stored backend id, and it succeeds exactly when the appliance accepts it; changes no table |
| EdgeDriver.DeletePool | neutron/plugins/nicira/vshield/edge_loadbalancer_driver.py:260-270 | one delete under the bound backend id; the binding goes exactly when it succeeds, and then the pool table keeps exactly the rows of other pools or edges |
| EdgeDriver.CreateMonitor | neutron/plugins/nicira/vshield/edge_loadbalancer_driver.py:272-290 | one create call with the translated monitor; the binding is written exactly when it succeeds, and then the monitor table is the new binding plus every row of another monitor or edge |
| EdgeDriver.GetMonitor | neutron/plugins/nicira/vshield/edge_loadbalancer_driver.py:292-310 | a missing binding is not-found before any call; otherwise one read, restored into delay, timeout, retries and id from the reply |
| EdgeDriver.UpdateMonitor | neutron/plugins/nicira/vshield/edge_loadbalancer_driver.py:312-326 | updates under the backend id bound to the old monitor's id; changes no table |
| EdgeDriver.DeleteMonitor | neutron/plugins/nicira/vshield/edge_loadbalancer_driver.py:328-338 | one delete under the bound backend id; the binding goes exactly when it succeeds, and then the monitor table keeps exactly the rows of other monitors or edges |
| EdgeProperties.CreatedVipReadsBack | neutron/plugins/nicira/vshield/edge_loadbalancer_driver.py:138-180 | a vip that was created and is read back gives its original name, address, protocol, port and pool |
| EdgeProperties.UpdatedVipReadsBack | neutron/plugins/nicira/vshield/edge_loadbalancer_driver.py:182-194 | after an accepted update of a bound vip whose pool is bound, reading the vip back gives the new name, address, protocol, port and pool |
| EdgeProperties.UpdatedPoolReadsBack | neutron/plugins/nicira/vshield/edge_loadbalancer_driver.py:249-258 | after an accepted update of a bound pool, it is read under the same backend id and gives the new name |
| EdgeProperties.UpdatedMonitorReadsBack | neutron/plugins/nicira/vshield/edge_loadbalancer_driver.py:312-326 | after an accepted update addressed through the old monitor's binding, reading under the old id gives the new delay, timeout, retries and id |
| EdgeProperties.CreatedVipDeletes | neutron/plugins/nicira/vshield/edge_loadbalancer_driver.py:196-209 | deleting a freshly created vip addresses the ids the appliance announced, vip before profile, and forgets the binding |
| EdgeProperties.ProfileDeleteFailureKeepsBinding | neutron/plugins/nicira/vshield/edge_loadbalancer_driver.py:203-209 | a failed profile delete keeps the vip binding and returns the appliance's own error |
| EdgeProperties.CreatedPoolReadsBack | neutron/plugins/nicira/vshield/edge_loadbalancer_driver.py:211-247 | a created pool is read under the backend id from its location header and, given back its own shape, restores the pool's name |
| EdgeProperties.CreatePoolKeepsInjective | neutron/plugins/nicira/vshield/edge_loadbalancer_driver.py:222-228 | recording a pool under an unused backend id keeps backend ids unique per edge |
| EdgeProperties.DeletedVipKeepsOthers | neutron/plugins/nicira/vshield/edge_loadbalancer_driver.py:196-209 | deleting a vip leaves the binding of every other vip as it was |
| EdgeProperties.CreatedPoolKeepsOthers | neutron/plugins/nicira/vshield/edge_loadbalancer_driver.py:211-228 | creating a pool leaves the binding of every other pool as it was |
| EdgeProperties.DeletedPoolKeepsOthers | neutron/plugins/nicira/vshield/edge_loadbalancer_driver.py:260-270 | deleting a pool leaves the binding of every other pool as it was |
| EdgeProperties.CreatedMonitorReadsBack | neutron/plugins/nicira/vshield/edge_loadbalancer_driver.py:272-310 | a created monitor is read under the announced backend id and, given back its own shape, restores its delay, timeout, retries and id |
| EdgeProperties.CreatedMonitorDeletes | neutron/plugins/nicira/vshield/edge_loadbalancer_driver.py:272-338 | deleting a freshly created monitor addresses the announced backend id and forgets the binding |
| EdgeProperties.CreatedMonitorKeepsOthers | neutron/plugins/nicira/vshield/edge_loadbalancer_driver.py:272-290 | creating a monitor leaves the binding of every other monitor as it was |
| EdgeProperties.DeletedMonitorKeepsOthers | neutron/plugins/nicira/vshield/edge_loadbalancer_driver.py:328-338 | deleting a monitor leaves the binding of every other monitor as it was |
| NetScalerState.SubnetNetworkInfo | neutron/services/loadbalancer/drivers/netscaler/plugin_driver.py:297-315 | fails on an unknown subnet or network; otherwise carries the network and subnet ids, and the provider type and segment exactly when the network has them |
| NetScalerState.PoolNetworkInfo | neutron/services/loadbalancer/drivers/netscaler/plugin_driver.py:297-315 | succeeds exactly when the pool's subnet and its network are known (subnet-not-found, else network-not-found); then carries the network id, the subnet id, the provider type and segment as the network has them, and no port |
| NetScalerState.VipNetworkInfo | neutron/services/loadbalancer/drivers/netscaler/plugin_driver.py:273-295 | succeeds exactly when the vip's subnet and its network are known (subnet-not-found, else network-not-found); then carries the network id, the subnet id, the provider type and segment as the network has them, and the vip's port |
| NetScalerState.VipInfoExtendsSubnetInfo | neutron/services/loadbalancer/drivers/netscaler/plugin_driver.py:273-315 | vip info is the pool info of the same subnet with the vip's port added |
| NetScalerState.PoolAgent | neutron/services/loadbalancer/drivers/netscaler/plugin_driver.py:397-401 | the hosting agent, or no-active-agent exactly when the pool is not hosted |
| NetScalerState.PoolOf | neutron/services/loadbalancer/drivers/netscaler/plugin_driver.py:465 | the stored pool record, or pool-not-found exactly when there is none |
| SnatPorts.SnatPortName | neutron/services/loadbalancer/drivers/netscaler/plugin_driver.py:329 | the name is the fixed prefix followed by the subnet id |
| SnatPorts.SnatPortNameInjective | neutron/services/loadbalancer/drivers/netscaler/plugin_driver.py:329 | distinct subnets never share a SNAT port name |
| SnatPorts.SnatCandidates | neutron/services/loadbalancer/drivers/netscaler/plugin_driver.py:337-338 | exactly the ports on the network, of the tenant, with the subnet's SNAT name |
| SnatPorts.SnatPortsOf | neutron/services/loadbalancer/drivers/netscaler/plugin_driver.py:327-345 | exactly the ports on the subnet's network with the tenant and the subnet's SNAT name; none for an unknown subnet |
| SnatPorts.PoolsOnSubnet | neutron/services/loadbalancer/drivers/netscaler/plugin_driver.py:318-324 | exactly the pools of the tenant on the subnet |
| SnatPorts.RemovePort | neutron/services/loadbalancer/drivers/netscaler/plugin_driver.py:374 | exactly the ports with a different id remain |
| SnatPorts.CandidatesOfAppend | neutron/services/loadbalancer/drivers/netscaler/plugin_driver.py:365 | a newly created port joins the candidates exactly when it matches the filter |
| SnatPorts.CandidatesOfRemove | neutron/services/loadbalancer/drivers/netscaler/plugin_driver.py:370-374 | deleting a port by id and filtering for SNAT ports commute |
| SnatPorts.CandidatesOfConcat | neutron/services/loadbalancer/drivers/netscaler/plugin_driver.py:337-338 | the filter distributes over concatenated port lists |
| SnatPorts.RemoveOfConcat | neutron/services/loadbalancer/drivers/netscaler/plugin_driver.py:374 | deletion by id distributes over concatenated port lists |
| SnatPorts.SnatPortRequest | neutron/services/loadbalancer/drivers/netscaler/plugin_driver.py:348-363 | the request is for a down port with no owner or device, named after the subnet id, with one fixed ip on the subnet and no address |
| SnatPorts.Provision | neutron/services/loadbalancer/drivers/netscaler/plugin_driver.py:365 | the created port has the request's fields, the allocated id, and the allocated address on the requested subnet |
| SnatPorts.EnsureSnatPort | neutron/services/loadbalancer/drivers/netscaler/plugin_driver.py:377-385 | reuses an existing port and changes nothing, or creates exactly one port from the request; it succeeds exactly when the subnet is known and its first SNAT port, if any, has an address; the network info is the given one completed with the reused port and its first address, or with the allocated port and address |
| SnatPorts.ReleaseSnatPortIfUnused | neutron/services/loadbalancer/drivers/netscaler/plugin_driver.py:370-395 | changes nothing while the tenant has pools on the subnet or no port exists; an unused unknown subnet fails; otherwise deletes the first SNAT port, and nothing else |
| SnatPorts.ReleaseLastPortEmpties | neutron/services/loadbalancer/drivers/netscaler/plugin_driver.py:389-395 | releasing an unused subnet's only port leaves it with none |
| NetScalerDriver.CreatePool | neutron/services/loadbalancer/drivers/netscaler/plugin_driver.py:423-437 | succeeds exactly when an agent is scheduled, the subnet and its network resolve, and the subnet's existing SNAT port, if any, has an address; the pool is then hosted, any port creation precedes the single create cast to the agent's host, whose network info is the pool's completed with the subnet's SNAT port and its first address; with no eligible agent: an error, no port and no cast |
| NetScalerDriver.CreateHostedPool | neutron/services/loadbalancer/drivers/netscaler/plugin_driver.py:431-436 | after hosting: succeeds exactly when the subnet resolves and its SNAT port, if any, has an address; the cast's network info is the pool's completed with the SNAT port and its first address |
| NetScalerDriver.MoveSnatPort | neutron/services/loadbalancer/drivers/netscaler/plugin_driver.py:444-448 | only ports change; at most one creation, of the allocated port, and one deletion, the creation first; with both subnets known it succeeds exactly when the new subnet's SNAT port, if any, has an address, and the network info is then completed with that port or the allocated one |
| NetScalerDriver.ReleaseAfterEnsure | neutron/services/loadbalancer/drivers/netscaler/plugin_driver.py:446-448 | after the new port is ensured, releasing the old subnet's port changes only ports, adds at most one deletion after the creation, keeps the ensured network info, and cannot fail when the old subnet is known |
| NetScalerDriver.CastAfterMove | neutron/services/loadbalancer/drivers/netscaler/plugin_driver.py:444-451 | port effects come before the update cast, which is the last effect, goes to the pool's host and carries the old network info and the moved one; it succeeds exactly when the move did; a failed move casts nothing |
| NetScalerDriver.UpdatePool | neutron/services/loadbalancer/drivers/netscaler/plugin_driver.py:439-451 | succeeds exactly when the pool is hosted, both versions' subnets resolve, and, if the subnet changes, the new subnet's SNAT port, if any, has an address; port creations precede deletions, which precede the single update cast to the pool's host; the cast carries the old pool's network info and, for an unchanged subnet, the new pool's, or for a changed one the new pool's completed with the new SNAT port; an unchanged subnet touches no port |
| NetScalerDriver.DeletePool | neutron/services/loadbalancer/drivers/netscaler/plugin_driver.py:453-461 | succeeds exactly when the pool is hosted and its subnet resolves; the delete cast to the pool's host, with the pool's network info, comes first, then the pool record's deletion, which also ends the pool's agent binding, then only port deletions; a failure has no effect |
| NetScalerDriver.CreateVip | neutron/services/loadbalancer/drivers/netscaler/plugin_driver.py:403-407 | no-active-agent before any effect; on success one create cast to the pool's host with the vip's network info |
| NetScalerDriver.UpdateVip | neutron/services/loadbalancer/drivers/netscaler/plugin_driver.py:409-414 | no-active-agent before any effect; on success one update cast with both versions' network info |
| NetScalerDriver.DeleteVip | neutron/services/loadbalancer/drivers/netscaler/plugin_driver.py:416-421 | the delete cast precedes the record's deletion; a failure has no effect |
| NetScalerDriver.NetworkInfoOfPool | neutron/services/loadbalancer/drivers/netscaler/plugin_driver.py:465-466 | an unknown pool is pool-not-found; otherwise it succeeds exactly when the stored pool's subnet and network are known, and describes that subnet with no port |
| NetScalerDriver.CreateMember | neutron/services/loadbalancer/drivers/netscaler/plugin_driver.py:463-468 | no-active-agent before any effect; on success one create cast with the pool's network info |
| NetScalerDriver.UpdateMember | neutron/services/loadbalancer/drivers/netscaler/plugin_driver.py:470-477 | no-active-agent before any effect; on success one cast with the old and the new pool's network info |
| NetScalerDriver.DeleteMember | neutron/services/loadbalancer/drivers/netscaler/plugin_driver.py:479-485 | the delete cast precedes the record's deletion; a failure has no effect |
| NetScalerDriver.CreatePoolHealthMonitor | neutron/services/loadbalancer/drivers/netscaler/plugin_driver.py:487-493 | no-active-agent before any effect; on success one cast naming the pool |
| NetScalerDriver.UpdateHealthMonitor | neutron/services/loadbalancer/drivers/netscaler/plugin_driver.py:495-502 | no-active-agent before any effect; on success one cast with both monitor versions |
| NetScalerDriver.DeletePoolHealthMonitor | neutron/services/loadbalancer/drivers/netscaler/plugin_driver.py:504-511 | the delete cast precedes the association's deletion; a failure has no effect |
| NetScalerProperties.RemoveAbsentId | neutron/services/loadbalancer/drivers/netscaler/plugin_driver.py:374 | deleting an id no port carries changes nothing |
| NetScalerProperties.RemoveShrinksCandidates | neutron/services/loadbalancer/drivers/netscaler/plugin_driver.py:370-374 | deleting a port never adds SNAT candidates |
| NetScalerProperties.CreatePoolKeepsAtMostOne | neutron/services/loadbalancer/drivers/netscaler/plugin_driver.py:423-437 | creating a pool keeps every (tenant, subnet) at one SNAT port or fewer |
| NetScalerProperties.DeletePoolKeepsAtMostOne | neutron/services/loadbalancer/drivers/netscaler/plugin_driver.py:453-461 | deleting a pool keeps every (tenant, subnet) at one SNAT port or fewer |
| NetScalerProperties.SecondPoolSharesPort | neutron/services/loadbalancer/drivers/netscaler/plugin_driver.py:423-437 | a second pool created on the same subnet creates no port and names the port the first one left |
| NetScalerProperties.DeleteNonLastPoolKeepsPort | neutron/services/loadbalancer/drivers/netscaler/plugin_driver.py:453-461 | deleting a pool while another of the tenant stays on the subnet deletes no port |
| NetScalerProperties.DeleteLastPoolReleasesPort | neutron/services/loadbalancer/drivers/netscaler/plugin_driver.py:453-461 | deleting the last pool on a subnet deletes its only SNAT port, as the last effect, and removes exactly that port from the provider's list |
| NetScalerProperties.CreateOnPortlessSubnet | neutron/services/loadbalancer/drivers/netscaler/plugin_driver.py:423-437 | on a subnet without a SNAT port, a create adds exactly the allocated port, which becomes the subnet's only SNAT port; only the pool's host and the port list change |
| NetScalerProperties.CreateThenDeleteOnlyPoolRestoresPorts | neutron/services/loadbalancer/drivers/netscaler/plugin_driver.py:423-461 | creating and then deleting the only pool of a portless subnet restores the port list: the allocated port is the one deleted, last, and the delete is cast to the scheduled host |
| NetScalerProperties.CreatedVipDeletes | neutron/services/loadbalancer/drivers/netscaler/plugin_driver.py:403-421 | a vip that can be created can be deleted, with the delete cast to the same host carrying the same payload, and its record goes |
| NetScalerProperties.CreatedMemberDeletes | neutron/services/loadbalancer/drivers/netscaler/plugin_driver.py:463-485 | a member that can be created can be deleted, with the delete cast to the same host carrying the same payload, and its record goes |
| NetScalerProperties.CreatedHealthMonitorDeletes | neutron/services/loadbalancer/drivers/netscaler/plugin_driver.py:487-511 | a monitor association that can be created can be removed, with the delete cast to the same host carrying the same payload, and the association goes |
| NetScalerProperties.DeletedPoolIsUnhosted | neutron/services/loadbalancer/drivers/netscaler/plugin_driver.py:453-461 | after a successful delete the pool is no longer hosted: deleting it again, or creating a vip on it, fails with no active agent and has no effect |
| NetScalerProperties.MoveWithRemainingPoolKeepsOldPort | neutron/services/loadbalancer/drivers/netscaler/plugin_driver.py:439-451 | moving to a port-less subnet while another pool stays behind creates a port before the cast and keeps the old subnet's port |
| NetScalerProperties.ReleaseSparesOtherSubnet | neutron/services/loadbalancer/drivers/netscaler/plugin_driver.py:389-395 | with unique port ids, releasing one subnet's port leaves every other subnet's SNAT ports as they were |
| NetScalerProperties.AppendFreshKeepsUnique | neutron/services/loadbalancer/drivers/netscaler/plugin_driver.py:365 | a created port with an unused id keeps port ids unique |
| NetScalerProperties.LastPoolMoveOfPorts | neutron/services/loadbalancer/drivers/netscaler/plugin_driver.py:444-448 | moving the last pool off a subnet creates the new port, then deletes the old subnet's only port; the old subnet ends with none and the new one with one |
| NetScalerProperties.MoveOfLastPoolMovesPort | neutron/services/loadbalancer/drivers/netscaler/plugin_driver.py:439-451 | moving the last pool off a subnet creates, deletes, then casts; the old subnet has no port left and the new one has one |
| LbCallbacks.FindPort | neutron/services/loadbalancer/drivers/netscaler/plugin_driver.py:89-92 | a port is found exactly when one has the id, and it has that id |
| LbCallbacks.SetAttachment | neutron/services/loadbalancer/drivers/netscaler/plugin_driver.py:98-104 | the port with the id gets the new state, owner and device; every other port is unchanged |
| LbCallbacks.PlugVipPort | neutron/services/loadbalancer/drivers/netscaler/plugin_driver.py:82-104 | no port id, or a port that cannot be read, changes nothing; a port that vanishes before the write fails with port-not-found; a successful plug of a found port leaves it up, owned by the load balancer, on the host's device, and every other port unchanged |
| LbCallbacks.UnplugVipPort | neutron/services/loadbalancer/drivers/netscaler/plugin_driver.py:106-135 | never fails; no port id, or a port missing at either step, changes nothing; a found port that is written becomes down with no owner or device, and every other port is unchanged |
| LbCallbacks.SetAttachmentOverwrites | neutron/services/loadbalancer/drivers/netscaler/plugin_driver.py:98-131 | two attachment writes equal the last one |
| LbCallbacks.SetAttachmentKeepsIds | neutron/services/loadbalancer/drivers/netscaler/plugin_driver.py:98-104 | an attachment write keeps the port findable |
| LbCallbacks.PlugIdempotent | neutron/services/loadbalancer/drivers/netscaler/plugin_driver.py:82-104 | plugging twice for one host is plugging once |
| LbCallbacks.UnplugAfterPlug | neutron/services/loadbalancer/drivers/netscaler/plugin_driver.py:82-135 | plug then unplug equals unplug alone |
| LbCallbacks.PluggedPortIsOwned | neutron/services/loadbalancer/drivers/netscaler/plugin_driver.py:98-104 | after plugging an existing port, looking it up shows it up, owned and on the device |
| LbCallbacks.UnplugIdempotent | neutron/services/loadbalancer/drivers/netscaler/plugin_driver.py:106-135 | unplugging twice is unplugging once |
| LbCallbacks.UnpluggedPortIsReleased | neutron/services/loadbalancer/drivers/netscaler/plugin_driver.py:106-131 | after unplugging an existing port, looking it up shows it down, with no owner and no device |
| RestClient.IndexOf | neutron/services/loadbalancer/drivers/netscaler/rest_client.py:51 | the first occurrence, or -1 when there is none |
| RestClient.IndexOfFirst | neutron/services/loadbalancer/drivers/netscaler/rest_client.py:51 | a position with the character and none before it is the one found |
| RestClient.Split | neutron/services/loadbalancer/drivers/netscaler/rest_client.py:51 | at least one piece, none containing the separator; text without a separator is one piece |
| RestClient.JoinCons | neutron/services/loadbalancer/drivers/netscaler/rest_client.py:51 | joining puts a separator between the first piece and the rest |
| RestClient.SplitAtFirst | neutron/services/loadbalancer/drivers/netscaler/rest_client.py:51 | text splits at its first separator into its head and the pieces of its tail |
| RestClient.JoinSplit | neutron/services/loadbalancer/drivers/netscaler/rest_client.py:51 | joining the pieces back gives the original text |
| RestClient.SplitJoin | neutron/services/loadbalancer/drivers/netscaler/rest_client.py:51 | splitting joined separator-free pieces gives the pieces back |
| RestClient.Lower | neutron/services/loadbalancer/drivers/netscaler/rest_client.py:68-75 | same length; capital ASCII letters become small and everything else is kept |
| RestClient.AsciiOnly | neutron/services/loadbalancer/drivers/netscaler/rest_client.py:61-65 | exactly the ASCII characters remain, and the result is no longer than the input |
| RestClient.AsciiOnlyKeepsAscii | neutron/services/loadbalancer/drivers/netscaler/rest_client.py:61-65 | ASCII text survives the encoding unchanged |
| RestClient.AsciiOnlyOfChar | neutron/services/loadbalancer/drivers/netscaler/rest_client.py:61-65 | a single character is kept exactly when it is ASCII |
| RestClient.AsciiOnlyOfConcat | neutron/services/loadbalancer/drivers/netscaler/rest_client.py:61-65 | the encoding distributes over concatenation, so the kept characters stay in order |
| RestClient.Init | neutron/services/loadbalancer/drivers/netscaler/rest_client.py:33-91 | a missing or empty URI fails first; otherwise the client is built exactly when the scheme is http or https in any case, else service-unavailable; the host is the first colon-separated piece of the netloc and the port the second, narrowed to ASCII for a unicode URI; port 80 or 443 when no non-empty port is given; auth exactly when both credentials are given |
| RestClient.Build | neutron/services/loadbalancer/drivers/netscaler/rest_client.py:49-91 | builds exactly for the schemes http and https, else service-unavailable; takes host and port from the first two colon-separated pieces of the netloc |
| RestClient.HostPortRoundTrip | neutron/services/loadbalancer/drivers/netscaler/rest_client.py:51-59 | a client built from host:port gets exactly that host and port |
| RestClient.SplitAfterPiece | neutron/services/loadbalancer/drivers/netscaler/rest_client.py:51 | splitting a separator-free piece followed by a separator yields that piece first |
| RestClient.ExtraColonPiecesDropped | neutron/services/loadbalancer/drivers/netscaler/rest_client.py:51-59 | a netloc with more colons gives its first two pieces as host and port |
| RestClient.UnicodeHostNarrowed | neutron/services/loadbalancer/drivers/netscaler/rest_client.py:51-62 | a unicode URI's host keeps exactly its ASCII characters, in order |
| RestClient.DefaultPortBySchemes | neutron/services/loadbalancer/drivers/netscaler/rest_client.py:68-78 | without a port, http uses 80 and https uses 443 |
| RestClient.LowerIdempotent | neutron/services/loadbalancer/drivers/netscaler/rest_client.py:68 | lower-casing twice is lower-casing once |
| RestClient.SchemeCaseInsensitive | neutron/services/loadbalancer/drivers/netscaler/rest_client.py:68-82 | a scheme and its lower-case form build the same client |
| RestClient.UpdateHeaders | neutron/services/loadbalancer/drivers/netscaler/rest_client.py:113-115 | new headers override, old ones not overridden stay, and nothing else changes |
| RestClient.UpdateHeadersIdempotent | neutron/services/loadbalancer/drivers/netscaler/rest_client.py:113-115 | applying the same header update twice is applying it once |
| RestClient.UpdateHeadersCompose | neutron/services/loadbalancer/drivers/netscaler/rest_client.py:113-115 | two header updates in a row equal one update with the merged headers, the later values winning |
| RestClient.IsValidResponse | neutron/services/loadbalancer/drivers/netscaler/rest_client.py:107-111 | valid exactly below 400 |
| RestClient.ValidResponseClasses | neutron/services/loadbalancer/drivers/netscaler/rest_client.py:107-111 | valid statuses are the 1xx, 2xx and 3xx classes; 4xx and 5xx are not |
| RestClient.GetResponseDict | neutron/services/loadbalancer/drivers/netscaler/rest_client.py:118-136 | status, body and headers are always recorded; a parsed body exactly for valid, non-empty replies; raw without a serializer |
| RestClient.RequestPath | neutron/services/loadbalancer/drivers/netscaler/rest_client.py:159 | the path is the service path, a slash, then the resource path |
| RestClient.RequestHeaders | neutron/services/loadbalancer/drivers/netscaler/rest_client.py:142-144 | XML content type and accept, and the auth value, unless the client's own headers override them |
| RestClient.RequestBody | neutron/services/loadbalancer/drivers/netscaler/rest_client.py:147-156 | text goes as is; a non-empty structure is serialized and is the only case with a serializer; falsy data is an empty body |
| RestClient.CheckStatus | neutron/services/loadbalancer/drivers/netscaler/rest_client.py:185-196 | a proxy accepts everything; otherwise strict checks accept exactly valid statuses and lenient ones everything but 401 |
| RestClient.CreateResource | neutron/services/loadbalancer/drivers/netscaler/rest_client.py:139-201 | a POST to the request path with the body; statuses checked strictly; a lookup error becomes service-unavailable |
| RestClient.SendWithBody | neutron/services/loadbalancer/drivers/netscaler/rest_client.py:139-201 | a request with the given verb to the request path with the body; for a non-proxy client it succeeds exactly on a good status; a lookup error becomes service-unavailable |
| RestClient.RetrieveResource | neutron/services/loadbalancer/drivers/netscaler/rest_client.py:206-255 | a GET without body; only 401 fails; a lookup error while reading the reply becomes service-unavailable |
| RestClient.UpdateResourceAsWritten | neutron/services/loadbalancer/drivers/netscaler/rest_client.py:258-275 | falsy non-text data fails on the unassigned body before any request; other data behaves as the corrected PUT |
| RestClient.UpdateResource | neutron/services/loadbalancer/drivers/netscaler/rest_client.py:258-309 | the same request as POST except for the verb PUT, and the same outcome for every reply |
| RestClient.RemoveResource | neutron/services/loadbalancer/drivers/netscaler/rest_client.py:313-360 | a DELETE without body; statuses checked strictly; a lookup error is not translated |
| RestClient.VerbStatusAgreement | neutron/services/loadbalancer/drivers/netscaler/rest_client.py:185-360 | off proxy, POST, PUT and DELETE succeed exactly on valid statuses and GET on everything but 401 |
| RestClient.ProxyPassesThrough | neutron/services/loadbalancer/drivers/netscaler/rest_client.py:185-349 | a proxy client returns every reply with its status |
| RestClient.UpdateWithoutDataDiverges | neutron/services/loadbalancer/drivers/netscaler/rest_client.py:264-275 | PUT without data fails as written, while the corrected PUT sends an empty body |
| RestClient.UpdateBodyMatchesCreate | neutron/services/loadbalancer/drivers/netscaler/rest_client.py:147-271 | the corrected PUT sends the same body POST does |

## Findings

| source | as written | input that shows it | evidently intended | confidence | as-written member | corrected member |
|---|---|---|---|---|---|---|
| neutron/services/loadbalancer/drivers/netscaler/rest_client.py:264-275 | `update_resource` assigns `request_body` only for text or truthy data, then reads it in a log line | `object_data=None` or `{}` raises an unbound-local error before any request is sent | an empty body, as `create_resource` sends | not executed | RestClient.UpdateResourceAsWritten | RestClient.UpdateResource |

The lemma `RestClient.UpdateWithoutDataDiverges` exhibits the difference on `NoData`. The rest of the model uses the corrected `RestClient.UpdateResource`.

## Left out

- NetScalerDriver.MoveSnatPort: does not state that the new subnet keeps its port after the release. NetScalerProperties.LastPoolMoveOfPorts proves this under unique port ids.
- NetScalerDriver.DeletePool: the record deletion's cascade is modelled only for the pool's agent binding. The member and monitor associations stay in the state, because members are kept as bare ids and the database's cascade rules are not part of this model.
- Logging and the re-raise wrappers: only "the original error propagates unchanged" is modelled.
- Edge database and appliance client are not part of this model. Binding reads are first-match lookups over rows. An unchecked read of a missing binding, which fails in the source when it subscripts `None`, is the error `BindingMissing`.
- EdgeDriver.CreateVip: when the pool binding is missing, the app profile already created on the appliance is not deleted. The model records the call and returns the error, as the source does; it does not model the leaked profile.
- Recording a binding whose key already exists replaces the old row. The source's insert would instead fail on the database's key constraint.
- RPC wiring: the agent API's message construction, topics and connections are out of scope. A cast is the event `Cast(rpc, host, payload)`.
- The callbacks `pool_destroyed` (a no-op) and `update_pool_stats` (a pass-through to the plugin) are left out.
- Configuration and the dynamic import of the scheduler are left out. The scheduler's answer is an input.
- The device id that `uuid5` derives from the host is an input, because the hash is a library call.
- The SNAT check-then-act race between concurrent pool creates and deletes is not modelled, since every call here runs alone. Two concurrent creates could both find no port and create two.
- NetScalerProperties.MoveOfLastPoolMovesPort and NetScalerProperties.ReleaseSparesOtherSubnet assume unique port ids and a fresh id for the new port; NetScalerProperties.CreateThenDeleteOnlyPoolRestoresPorts assumes the fresh id. The source relies on the provider for this.
- The provider's failures inside port create and delete are not modelled; both calls always succeed here.
- HTTP transport, the XML serializer, `urlparse` and base64 encoding are left out. Their results are inputs or symbolic values.
  - Lookup errors are modelled only while reading a reply.
  - In `retrieve_resource` and `remove_resource` a lookup error while sending escapes untranslated; that case is not separated.
- RestClient.Lower lowers ASCII letters only. Python's `lower` also maps other letters, but none of them lowers to a letter of `http` or `https`, so the scheme check is the same.
- Base64 of long credentials would contain inner line breaks, and only the final one is stripped. Credentials stay symbolic, so this is not modelled.
- `_get_connection` is left out. Its unknown-protocol branch cannot be reached after a successful constructor.

=== FILE: binding_table.dfy ===
/**
 The persisted bindings between platform object ids and edge-appliance object ids.
 Each kind (vip, pool, monitor) is one table of rows; a lookup returns the first row that
 matches, as the database query does. The pool table is read through two indexes: by
 (pool id, edge) and, for the reverse direction, by (edge, backend id).
 */
module BindingTable {
  import opened Wrappers

  /** One row: platform id, edge, backend id, and the app profile id (vip rows only, "" otherwise). */
  datatype Binding = Binding(logicalId: string, edgeId: string, vseId: string, appProfileId: string)

  /** The ways a row can be looked up. */
  datatype Key =
    | Logical(id: string)                          // vip rows, keyed by vip id alone
    | LogicalOnEdge(id: string, edge: string)      // pool and monitor rows
    | BackendOnEdge(edge: string, vseId: string)   // reverse index of pool rows

  /** The primary key of a table: vips are keyed by id, pools and monitors by (id, edge). */
  datatype KeyKind = ById | ByIdOnEdge

  type Table = seq<Binding>

  predicate Matches(b: Binding, k: Key) {
    match k
    case Logical(id) => b.logicalId == id
    case LogicalOnEdge(id, edge) => b.logicalId == id && b.edgeId == edge
    case BackendOnEdge(edge, vseId) => b.edgeId == edge && b.vseId == vseId
  }

  function KeyOf(b: Binding, kind: KeyKind): Key {
    match kind
    case ById => Logical(b.logicalId)
    case ByIdOnEdge => LogicalOnEdge(b.logicalId, b.edgeId)
  }

  /** Position of the first row matching `k`, or -1. */
  function FirstIndex(t: Table, k: Key): (i: int)
    ensures -1 <= i < |t|
    ensures 0 <= i ==> Matches(t[i], k)
    ensures forall j :: 0 <= j < |t| && (i < 0 || j < i) ==> !Matches(t[j], k)
  {
    if |t| == 0 then -1
    else if Matches(t[0], k) then 0
    else
      var i := FirstIndex(t[1..], k);
      if i < 0 then -1 else i + 1
  }

  /** The row a lookup by `k` returns, if any. */
  function First(t: Table, k: Key): (r: Option<Binding>)
    ensures r.Some? ==> r.value in t && Matches(r.value, k)
    ensures r.None? <==> forall b :: b in t ==> !Matches(b, k)
  {
    var i := FirstIndex(t, k);
    if i < 0 then None else Some(t[i])
  }

  /** The table after deleting every row that matches `k`. */
  function Without(t: Table, k: Key): (r: Table)
    ensures forall b :: b in r <==> b in t && !Matches(b, k)
    ensures |r| <= |t|
  {
    if |t| == 0 then []
    else (if Matches(t[0], k) then [] else [t[0]]) + Without(t[1..], k)
  }

  /** The table after recording `b`, replacing any row with the same primary key. */
  function Put(t: Table, b: Binding, kind: KeyKind): (r: Table)
    ensures First(r, KeyOf(b, kind)) == Some(b)
    ensures forall x :: x in r <==> x == b || (x in t && !Matches(x, KeyOf(b, kind)))
  {
    var rest := Without(t, KeyOf(b, kind));
    assert FirstIndex(rest + [b], KeyOf(b, kind)) == |rest| by {
      assert Matches(b, KeyOf(b, kind));
      assert (rest + [b])[|rest|] == b;
      assert forall j :: 0 <= j < |rest| ==> (rest + [b])[j] == rest[j] && rest[j] in rest;
    }
    rest + [b]
  }

  /** At most one row per primary key. */
  ghost predicate Keyed(t: Table, kind: KeyKind) {
    forall b1, b2 :: b1 in t && b2 in t && KeyOf(b1, kind) == KeyOf(b2, kind) ==> b1 == b2
  }

  /** No two platform ids share one backend id on the same edge. */
  ghost predicate InjectivePerEdge(t: Table) {
    forall b1, b2 :: b1 in t && b2 in t && b1.edgeId == b2.edgeId && b1.vseId == b2.vseId
      ==> b1.logicalId == b2.logicalId
  }

  /** Recording a binding keeps the primary key unique. */
  lemma PutKeepsKeyed(t: Table, b: Binding, kind: KeyKind)
    ensures Keyed(t, kind) ==> Keyed(Put(t, b, kind), kind)
  {
  }

  /** Deleting by primary key keeps it unique. */
  lemma WithoutKeepsKeyed(t: Table, k: Key, kind: KeyKind)
    ensures Keyed(t, kind) ==> Keyed(Without(t, k), kind)
  {
  }

  /** In a keyed table, a lookup by primary key finds exactly the row that has that key. */
  lemma FirstByPrimaryKey(t: Table, b: Binding, kind: KeyKind)
    requires Keyed(t, kind)
    ensures First(t, KeyOf(b, kind)) == Some(b) <==> b in t
  {
  }

  /** Recording `b` leaves the lookup of every other primary key as it was. */
  lemma PutLeavesOtherKeys(t: Table, b: Binding, other: Binding, kind: KeyKind)
    requires Keyed(t, kind)
    requires KeyOf(other, kind) != KeyOf(b, kind)
    ensures First(Put(t, b, kind), KeyOf(other, kind)) == First(t, KeyOf(other, kind))
  {
    var r := Put(t, b, kind);
    var k := KeyOf(other, kind);
    MatchesKeyOf(b, other, kind);
    match First(t, k)
    case None =>
      assert forall y :: y in r ==> !Matches(y, k);
    case Some(x) =>
      assert x in r;
      var y := First(r, k).value;
      MatchesKeyOf(x, other, kind);
      MatchesKeyOf(y, other, kind);
      assert y in t;
  }

  /** Deleting by the primary key of `b` leaves the lookup of every other primary key as it was. */
  lemma WithoutLeavesOtherKeys(t: Table, b: Binding, other: Binding, kind: KeyKind)
    requires Keyed(t, kind)
    requires KeyOf(other, kind) != KeyOf(b, kind)
    ensures First(Without(t, KeyOf(b, kind)), KeyOf(other, kind)) == First(t, KeyOf(other, kind))
  {
    var r := Without(t, KeyOf(b, kind));
    var k := KeyOf(other, kind);
    match First(t, k)
    case None =>
      assert forall y :: y in r ==> !Matches(y, k);
    case Some(x) =>
      MatchesKeyOf(x, other, kind);
      MatchesKeyOf(x, b, kind);
      assert x in r;
      var y := First(r, k).value;
      MatchesKeyOf(y, other, kind);
      assert y in t;
  }

  /** A row matches another row's primary key exactly when the two share that key. */
  lemma MatchesKeyOf(b: Binding, x: Binding, kind: KeyKind)
    ensures Matches(b, KeyOf(x, kind)) <==> KeyOf(b, kind) == KeyOf(x, kind)
  {
  }

  /** Recording a row whose backend id is unused on its edge keeps backend ids unique per edge. */
  lemma PutKeepsInjective(t: Table, b: Binding, kind: KeyKind)
    requires InjectivePerEdge(t)
    requires First(t, BackendOnEdge(b.edgeId, b.vseId)).None?
    ensures InjectivePerEdge(Put(t, b, kind))
  {
    forall x | x in t
      ensures !(x.edgeId == b.edgeId && x.vseId == b.vseId)
    {
      assert !Matches(x, BackendOnEdge(b.edgeId, b.vseId));
    }
  }

  /**
   The reverse index inverts the forward one: when no two pools of an edge share a
   backend id, looking up the backend id of pool `id` gives back `id`.
   */
  lemma ReverseLookupInverts(t: Table, id: string, edge: string)
    requires InjectivePerEdge(t)
    requires First(t, LogicalOnEdge(id, edge)).Some?
    ensures var b := First(t, LogicalOnEdge(id, edge)).value;
      First(t, BackendOnEdge(edge, b.vseId)).Some? &&
      First(t, BackendOnEdge(edge, b.vseId)).value.logicalId == id
  {
  }
}

=== FILE: edge_driver.dfy ===
/**
 The edge load-balancer driver: create, read, update and delete of vips, pools and health
 monitors on an edge appliance, keeping the binding tables in step with the appliance.

 The appliance is an oracle: every operation takes, as inputs, the replies its appliance
 calls would receive, and reports which calls it actually issued, in order. A failing call
 aborts the operation and its error is returned unchanged; nothing is rolled back.
 */
module EdgeDriver {
  import opened Wrappers
  import opened BindingTable
  import opened LocationHeader
  import opened EdgeTranslate

  /** The appliance's answer to one call: a value, or an API error with its HTTP status. */
  datatype ApiReply<+T> = Ok(value: T) | ApiError(status: int)

  /** The three binding tables the driver maintains. */
  datatype EdgeDb = EdgeDb(vips: Table, pools: Table, monitors: Table)

  /** One call to the appliance's management API. */
  datatype VcnsCall =
    | CreateAppProfileCall(edge: string, profile: AppProfile)
    | CreateVipCall(edge: string, vip: VseVip)
    | GetVipCall(edge: string, vseId: string)
    | UpdateVipCall(edge: string, vseId: string, vip: VseVip)
    | DeleteVipCall(edge: string, vseId: string)
    | DeleteAppProfileCall(edge: string, profileId: string)
    | CreatePoolCall(edge: string, pool: VsePool)
    | GetPoolCall(edge: string, vseId: string)
    | UpdatePoolCall(edge: string, vseId: string, pool: VsePool)
    | DeletePoolCall(edge: string, vseId: string)
    | CreateMonitorCall(edge: string, monitor: VseMonitor)
    | GetMonitorCall(edge: string, vseId: string)
    | UpdateMonitorCall(edge: string, vseId: string, monitor: VseMonitor)
    | DeleteMonitorCall(edge: string, vseId: string)

  /** One driver operation: the tables afterwards, the calls issued in order, and the outcome. */
  datatype Step<+T> = Step(db: EdgeDb, calls: seq<VcnsCall>, result: Result<T, EdgeError>)

  /** Every table has at most one row per primary key. */
  ghost predicate WellFormed(db: EdgeDb) {
    Keyed(db.vips, ById) && Keyed(db.pools, ByIdOnEdge) && Keyed(db.monitors, ByIdOnEdge)
  }

  /** The binding of a pool on an edge, as the pool-binding query returns it. */
  function PoolBinding(db: EdgeDb, poolId: string, edge: string): Option<Binding> {
    First(db.pools, LogicalOnEdge(poolId, edge))
  }

  // ---------------------------------------------------------------- vips

  /**
   Creates the app profile, then the vip that uses it, then records the vip binding.
   The binding is written only when both appliance calls succeed.
   */
  function CreateVip(db: EdgeDb, edge: string, vip: Vip,
                     profileReply: ApiReply<string>, vipReply: ApiReply<string>): (r: Step<()>)
    ensures 1 <= |r.calls| <= 2
    ensures r.calls[0] == CreateAppProfileCall(edge, ConvertAppProfile(vip.name, vip.sessionPersistence))
    ensures |r.calls| == 2 <==> profileReply.Ok? && PoolBinding(db, vip.poolId, edge).Some?
    ensures |r.calls| == 2 ==>
      && r.calls[1].CreateVipCall? && r.calls[1].edge == edge
      && r.calls[1].vip.applicationProfileId == IdFromLocation(profileReply.value)
      && r.calls[1].vip.defaultPoolId == PoolBinding(db, vip.poolId, edge).value.vseId
      && r.calls[1].vip == ConvertVip(db.pools, edge, vip, IdFromLocation(profileReply.value)).value
    ensures r.result.Success? <==> |r.calls| == 2 && vipReply.Ok?
    ensures profileReply.ApiError? ==> r.result == Failure(VcnsApiError(profileReply.status))
    ensures |r.calls| == 2 && vipReply.ApiError? ==> r.result == Failure(VcnsApiError(vipReply.status))
    ensures r.result.Failure? ==> r.db == db
    ensures r.result.Success? ==>
      First(r.db.vips, Logical(vip.id)) == Some(Binding(vip.id, edge, IdFromLocation(vipReply.value),
                                                        IdFromLocation(profileReply.value)))
    ensures r.result.Success? ==> forall x :: x in r.db.vips <==>
      x == Binding(vip.id, edge, IdFromLocation(vipReply.value), IdFromLocation(profileReply.value))
      || (x in db.vips && !Matches(x, Logical(vip.id)))
    ensures r.db.pools == db.pools && r.db.monitors == db.monitors
    ensures WellFormed(db) ==> WellFormed(r.db)
  {
    var profileCall := CreateAppProfileCall(edge, ConvertAppProfile(vip.name, vip.sessionPersistence));
    match profileReply
    case ApiError(s) => Step(db, [profileCall], Failure(VcnsApiError(s)))
    case Ok(profileLocation) =>
      var profileId := IdFromLocation(profileLocation);
      match ConvertVip(db.pools, edge, vip, profileId)
      case Failure(e) => Step(db, [profileCall], Failure(e))
      case Success(shape) =>
        var calls := [profileCall, CreateVipCall(edge, shape)];
        match vipReply
        case ApiError(s) => Step(db, calls, Failure(VcnsApiError(s)))
        case Ok(vipLocation) =>
          var binding := Binding(vip.id, edge, IdFromLocation(vipLocation), profileId);
          PutKeepsKeyed(db.vips, binding, ById);
          Step(db.(vips := Put(db.vips, binding, ById)), calls, Success(()))
  }

  /** Reads a vip through its binding and translates it back. */
  function GetVip(db: EdgeDb, id: string, reply: ApiReply<VseVip>): (r: Step<RestoredVip>)
    ensures r.db == db
    ensures First(db.vips, Logical(id)).None? ==> r.calls == [] && r.result == Failure(BindingMissing(id))
    ensures First(db.vips, Logical(id)).Some? ==>
      var b := First(db.vips, Logical(id)).value;
      && r.calls == [GetVipCall(b.edgeId, b.vseId)]
      && (reply.ApiError? ==> r.result == Failure(VcnsApiError(reply.status)))
      && (reply.Ok? ==> r.result == RestoreVip(db.pools, b.edgeId, reply.value))
  {
    match First(db.vips, Logical(id))
    case None => Step(db, [], Failure(BindingMissing(id)))
    case Some(b) =>
      var call := GetVipCall(b.edgeId, b.vseId);
      match reply
      case ApiError(s) => Step(db, [call], Failure(VcnsApiError(s)))
      case Ok(body) => Step(db, [call], RestoreVip(db.pools, b.edgeId, body))
  }

  /** Updates a vip in place, reusing its stored backend id, edge and app profile. */
  function UpdateVip(db: EdgeDb, vip: Vip, reply: ApiReply<()>): (r: Step<()>)
    ensures r.db == db
    ensures |r.calls| <= 1
    ensures r.result.Success? <==> |r.calls| == 1 && reply.Ok?
    ensures First(db.vips, Logical(vip.id)).None? ==> r.result == Failure(BindingMissing(vip.id))
    ensures |r.calls| == 1 ==> First(db.vips, Logical(vip.id)).Some?
    ensures |r.calls| == 1 ==>
      var b := First(db.vips, Logical(vip.id)).value;
      && r.calls[0].UpdateVipCall? && r.calls[0].edge == b.edgeId && r.calls[0].vseId == b.vseId
      && r.calls[0].vip.applicationProfileId == b.appProfileId
      && (reply.ApiError? ==> r.result == Failure(VcnsApiError(reply.status)))
    ensures First(db.vips, Logical(vip.id)).Some? ==>
      var b := First(db.vips, Logical(vip.id)).value;
      var shape := ConvertVip(db.pools, b.edgeId, vip, b.appProfileId);
      && (shape.Failure? ==> r.calls == [] && r.result == Failure(shape.error))
      && (shape.Success? ==> r.calls == [UpdateVipCall(b.edgeId, b.vseId, shape.value)]
                             && (r.result.Success? <==> reply.Ok?))
  {
    match First(db.vips, Logical(vip.id))
    case None => Step(db, [], Failure(BindingMissing(vip.id)))
    case Some(b) =>
      match ConvertVip(db.pools, b.edgeId, vip, b.appProfileId)
      case Failure(e) => Step(db, [], Failure(e))
      case Success(shape) =>
        var call := UpdateVipCall(b.edgeId, b.vseId, shape);
        match reply
        case ApiError(s) => Step(db, [call], Failure(VcnsApiError(s)))
        case Ok(_) => Step(db, [call], Success(()))
  }

  /**
   Deletes the vip, then its app profile; the binding goes only after both succeed.
   A failed delete leaves the binding for a retry and returns the appliance's error.
   */
  function DeleteVip(db: EdgeDb, id: string, vipReply: ApiReply<()>, profileReply: ApiReply<()>): (r: Step<()>)
    ensures First(db.vips, Logical(id)).None? ==>
      r.calls == [] && r.db == db && r.result == Failure(BindingMissing(id))
    ensures First(db.vips, Logical(id)).Some? ==>
      var b := First(db.vips, Logical(id)).value;
      && r.calls == (if vipReply.Ok? then [DeleteVipCall(b.edgeId, b.vseId), DeleteAppProfileCall(b.edgeId, b.appProfileId)]
                     else [DeleteVipCall(b.edgeId, b.vseId)])
      && (vipReply.ApiError? ==> r.result == Failure(VcnsApiError(vipReply.status)))
      && (vipReply.Ok? && profileReply.ApiError? ==> r.result == Failure(VcnsApiError(profileReply.status)))
    ensures r.result.Success? <==> First(db.vips, Logical(id)).Some? && vipReply.Ok? && profileReply.Ok?
    ensures r.result.Failure? ==> r.db == db
    ensures r.result.Success? ==> First(r.db.vips, Logical(id)).None?
    ensures r.result.Success? ==> forall x :: x in r.db.vips <==> x in db.vips && !Matches(x, Logical(id))
    ensures r.db.pools == db.pools && r.db.monitors == db.monitors
    ensures WellFormed(db) ==> WellFormed(r.db)
  {
    match First(db.vips, Logical(id))
    case None => Step(db, [], Failure(BindingMissing(id)))
    case Some(b) =>
      var vipCall := DeleteVipCall(b.edgeId, b.vseId);
      match vipReply
      case ApiError(s) => Step(db, [vipCall], Failure(VcnsApiError(s)))
      case Ok(_) =>
        var calls := [vipCall, DeleteAppProfileCall(b.edgeId, b.appProfileId)];
        match profileReply
        case ApiError(s) => Step(db, calls, Failure(VcnsApiError(s)))
        case Ok(_) =>
          WithoutKeepsKeyed(db.vips, Logical(id), ById);
          Step(db.(vips := Without(db.vips, Logical(id))), calls, Success(()))
  }

  // ---------------------------------------------------------------- pools

  /** Creates a pool on the edge and records its binding once the appliance accepts it. */
  function CreatePool(db: EdgeDb, edge: string, pool: Pool, members: seq<Member>,
                      reply: ApiReply<string>): (r: Step<()>)
    ensures var shape := ConvertPool(db.monitors, edge, pool, members);
      && (shape.Failure? ==> r.calls == [] && r.result == Failure(shape.error))
      && (shape.Success? ==> r.calls == [CreatePoolCall(edge, shape.value)])
      && (r.result.Success? <==> shape.Success? && reply.Ok?)
    ensures |r.calls| == 1 && reply.ApiError? ==> r.result == Failure(VcnsApiError(reply.status))
    ensures r.result.Failure? ==> r.db == db
    ensures r.result.Success? ==>
      PoolBinding(r.db, pool.id, edge) == Some(Binding(pool.id, edge, IdFromLocation(reply.value), ""))
    ensures r.result.Success? ==> forall x :: x in r.db.pools <==>
      x == Binding(pool.id, edge, IdFromLocation(reply.value), "")
      || (x in db.pools && !Matches(x, LogicalOnEdge(pool.id, edge)))
    ensures r.db.vips == db.vips && r.db.monitors == db.monitors
    ensures WellFormed(db) ==> WellFormed(r.db)
  {
    match ConvertPool(db.monitors, edge, pool, members)
    case Failure(e) => Step(db, [], Failure(e))
    case Success(shape) =>
      var call := CreatePoolCall(edge, shape);
      match reply
      case ApiError(s) => Step(db, [call], Failure(VcnsApiError(s)))
      case Ok(location) =>
        var binding := Binding(pool.id, edge, IdFromLocation(location), "");
        PutKeepsKeyed(db.pools, binding, ByIdOnEdge);
        Step(db.(pools := Put(db.pools, binding, ByIdOnEdge)), [call], Success(()))
  }

  /** Reads a pool; a missing binding is reported as not found before any appliance call. */
  function GetPool(db: EdgeDb, id: string, edge: string, reply: ApiReply<VsePool>): (r: Step<RestoredPool>)
    ensures r.db == db
    ensures PoolBinding(db, id, edge).None? ==> r.calls == [] && r.result == Failure(VcnsNotFound(id, edge))
    ensures PoolBinding(db, id, edge).Some? ==>
      && r.calls == [GetPoolCall(edge, PoolBinding(db, id, edge).value.vseId)]
      && (reply.ApiError? ==> r.result == Failure(VcnsApiError(reply.status)))
      && (reply.Ok? ==> r.result == Success(RestorePool(reply.value)))
  {
    match PoolBinding(db, id, edge)
    case None => Step(db, [], Failure(VcnsNotFound(id, edge)))
    case Some(b) =>
      var call := GetPoolCall(edge, b.vseId);
      match reply
      case ApiError(s) => Step(db, [call], Failure(VcnsApiError(s)))
      case Ok(body) => Step(db, [call], Success(RestorePool(body)))
  }

  /** Updates a pool in place under its stored backend id. */
  function UpdatePool(db: EdgeDb, edge: string, pool: Pool, members: seq<Member>,
                      reply: ApiReply<()>): (r: Step<()>)
    ensures r.db == db
    ensures |r.calls| <= 1
    ensures PoolBinding(db, pool.id, edge).None? ==> r.result == Failure(BindingMissing(pool.id))
    ensures r.result.Success? <==> |r.calls| == 1 && reply.Ok?
    ensures |r.calls| == 1 ==> PoolBinding(db, pool.id, edge).Some?
    ensures |r.calls| == 1 ==>
      && r.calls[0].UpdatePoolCall? && r.calls[0].edge == edge
      && r.calls[0].vseId == PoolBinding(db, pool.id, edge).value.vseId
      && (reply.ApiError? ==> r.result == Failure(VcnsApiError(reply.status)))
    ensures PoolBinding(db, pool.id, edge).Some? ==>
      var shape := ConvertPool(db.monitors, edge, pool, members);
      && (shape.Failure? ==> r.calls == [] && r.result == Failure(shape.error))
      && (shape.Success? ==> r.calls == [UpdatePoolCall(edge, PoolBinding(db, pool.id, edge).value.vseId, shape.value)]
                             && (r.result.Success? <==> reply.Ok?))
  {
    match PoolBinding(db, pool.id, edge)
    case None => Step(db, [], Failure(BindingMissing(pool.id)))
    case Some(b) =>
      match ConvertPool(db.monitors, edge, pool, members)
      case Failure(e) => Step(db, [], Failure(e))
      case Success(shape) =>
        var call := UpdatePoolCall(edge, b.vseId, shape);
        match reply
        case ApiError(s) => Step(db, [call], Failure(VcnsApiError(s)))
        case Ok(_) => Step(db, [call], Success(()))
  }

  /** Deletes a pool on the edge; the binding goes only if the appliance call succeeds. */
  function DeletePool(db: EdgeDb, id: string, edge: string, reply: ApiReply<()>): (r: Step<()>)
    ensures PoolBinding(db, id, edge).None? ==> r.calls == [] && r.result == Failure(BindingMissing(id))
    ensures PoolBinding(db, id, edge).Some? ==> r.calls == [DeletePoolCall(edge, PoolBinding(db, id, edge).value.vseId)]
    ensures r.result.Success? <==> PoolBinding(db, id, edge).Some? && reply.Ok?
    ensures PoolBinding(db, id, edge).Some? && reply.ApiError? ==> r.result == Failure(VcnsApiError(reply.status))
    ensures r.result.Failure? ==> r.db == db
    ensures r.result.Success? ==> PoolBinding(r.db, id, edge).None?
    ensures r.result.Success? ==> forall x :: x in r.db.pools <==> x in db.pools && !Matches(x, LogicalOnEdge(id, edge))
    ensures r.db.vips == db.vips && r.db.monitors == db.monitors
    ensures WellFormed(db) ==> WellFormed(r.db)
  {
    match PoolBinding(db, id, edge)
    case None => Step(db, [], Failure(BindingMissing(id)))
    case Some(b) =>
      var call := DeletePoolCall(edge, b.vseId);
      match reply
      case ApiError(s) => Step(db, [call], Failure(VcnsApiError(s)))
      case Ok(_) =>
        WithoutKeepsKeyed(db.pools, LogicalOnEdge(id, edge), ByIdOnEdge);
        Step(db.(pools := Without(db.pools, LogicalOnEdge(id, edge))), [call], Success(()))
  }

  // ---------------------------------------------------------------- health monitors

  /** The binding of a health monitor on an edge, as the monitor-binding query returns it. */
  function MonitorBinding(db: EdgeDb, monitorId: string, edge: string): Option<Binding> {
    First(db.monitors, LogicalOnEdge(monitorId, edge))
  }

  /** Creates a monitor on the edge and records its binding once the appliance accepts it. */
  function CreateMonitor(db: EdgeDb, edge: string, monitor: HealthMonitor, reply: ApiReply<string>): (r: Step<()>)
    ensures r.calls == [CreateMonitorCall(edge, ConvertMonitor(monitor))]
    ensures r.result.Success? <==> reply.Ok?
    ensures reply.ApiError? ==> r.result == Failure(VcnsApiError(reply.status)) && r.db == db
    ensures reply.Ok? ==>
      MonitorBinding(r.db, monitor.id, edge) == Some(Binding(monitor.id, edge, IdFromLocation(reply.value), ""))
    ensures reply.Ok? ==> forall x :: x in r.db.monitors <==>
      x == Binding(monitor.id, edge, IdFromLocation(reply.value), "")
      || (x in db.monitors && !Matches(x, LogicalOnEdge(monitor.id, edge)))
    ensures r.db.vips == db.vips && r.db.pools == db.pools
    ensures WellFormed(db) ==> WellFormed(r.db)
  {
    var call := CreateMonitorCall(edge, ConvertMonitor(monitor));
    match reply
    case ApiError(s) => Step(db, [call], Failure(VcnsApiError(s)))
    case Ok(location) =>
      var binding := Binding(monitor.id, edge, IdFromLocation(location), "");
      PutKeepsKeyed(db.monitors, binding, ByIdOnEdge);
      Step(db.(monitors := Put(db.monitors, binding, ByIdOnEdge)), [call], Success(()))
  }

  /** Reads a monitor; a missing binding is reported as not found before any appliance call. */
  function GetMonitor(db: EdgeDb, id: string, edge: string, reply: ApiReply<VseMonitor>): (r: Step<RestoredMonitor>)
    ensures r.db == db
    ensures MonitorBinding(db, id, edge).None? ==> r.calls == [] && r.result == Failure(VcnsNotFound(id, edge))
    ensures MonitorBinding(db, id, edge).Some? ==>
      && r.calls == [GetMonitorCall(edge, MonitorBinding(db, id, edge).value.vseId)]
      && (reply.ApiError? ==> r.result == Failure(VcnsApiError(reply.status)))
      && (reply.Ok? ==> r.result == Success(RestoreMonitor(reply.value)))
  {
    match MonitorBinding(db, id, edge)
    case None => Step(db, [], Failure(VcnsNotFound(id, edge)))
    case Some(b) =>
      var call := GetMonitorCall(edge, b.vseId);
      match reply
      case ApiError(s) => Step(db, [call], Failure(VcnsApiError(s)))
      case Ok(body) => Step(db, [call], Success(RestoreMonitor(body)))
  }

  /** Updates a monitor under the backend id bound to the OLD monitor's id. */
  function UpdateMonitor(db: EdgeDb, edge: string, oldMonitor: HealthMonitor, monitor: HealthMonitor,
                         reply: ApiReply<()>): (r: Step<()>)
    ensures r.db == db
    ensures MonitorBinding(db, oldMonitor.id, edge).None? ==>
      r.calls == [] && r.result == Failure(BindingMissing(oldMonitor.id))
    ensures MonitorBinding(db, oldMonitor.id, edge).Some? ==>
      && r.calls == [UpdateMonitorCall(edge, MonitorBinding(db, oldMonitor.id, edge).value.vseId, ConvertMonitor(monitor))]
      && (r.result.Success? <==> reply.Ok?)
      && (reply.ApiError? ==> r.result == Failure(VcnsApiError(reply.status)))
  {
    match MonitorBinding(db, oldMonitor.id, edge)
    case None => Step(db, [], Failure(BindingMissing(oldMonitor.id)))
    case Some(b) =>
      var call := UpdateMonitorCall(edge, b.vseId, ConvertMonitor(monitor));
      match reply
      case ApiError(s) => Step(db, [call], Failure(VcnsApiError(s)))
      case Ok(_) => Step(db, [call], Success(()))
  }

  /** Deletes a monitor on the edge; the binding goes only if the appliance call succeeds. */
  function DeleteMonitor(db: EdgeDb, id: string, edge: string, reply: ApiReply<()>): (r: Step<()>)
    ensures MonitorBinding(db, id, edge).None? ==> r.calls == [] && r.result == Failure(BindingMissing(id))
    ensures MonitorBinding(db, id, edge).Some? ==>
      r.calls == [DeleteMonitorCall(edge, MonitorBinding(db, id, edge).value.vseId)]
    ensures r.result.Success? <==> MonitorBinding(db, id, edge).Some? && reply.Ok?
    ensures MonitorBinding(db, id, edge).Some? && reply.ApiError? ==> r.result == Failure(VcnsApiError(reply.status))
    ensures r.result.Failure? ==> r.db == db
    ensures r.result.Success? ==> MonitorBinding(r.db, id, edge).None?
    ensures r.result.Success? ==>
      forall x :: x in r.db.monitors <==> x in db.monitors && !Matches(x, LogicalOnEdge(id, edge))
    ensures r.db.vips == db.vips && r.db.pools == db.pools
    ensures WellFormed(db) ==> WellFormed(r.db)
  {
    match MonitorBinding(db, id, edge)
    case None => Step(db, [], Failure(BindingMissing(id)))
    case Some(b) =>
      var call := DeleteMonitorCall(edge, b.vseId);
      match reply
      case ApiError(s) => Step(db, [call], Failure(VcnsApiError(s)))
      case Ok(_) =>
        WithoutKeepsKeyed(db.monitors, LogicalOnEdge(id, edge), ByIdOnEdge);
        Step(db.(monitors := Without(db.monitors, LogicalOnEdge(id, edge))), [call], Success(()))
  }
}

=== FILE: edge_properties.dfy ===
/** Properties of the edge driver that span several operations. */
module EdgeProperties {
  import opened Wrappers
  import opened BindingTable
  import opened LocationHeader
  import opened EdgeTranslate
  import opened EdgeDriver

  /**
   What is created can be read back: if the appliance returns the vip shape it was given,
   reading the new vip yields the original name, address, protocol, port and pool.
   */
  lemma CreatedVipReadsBack(db: EdgeDb, edge: string, vip: Vip,
                            profileReply: ApiReply<string>, vipReply: ApiReply<string>)
    requires WellFormed(db) && InjectivePerEdge(db.pools)
    requires profileReply.Ok? && vipReply.Ok? && PoolBinding(db, vip.poolId, edge).Some?
    ensures var r := CreateVip(db, edge, vip, profileReply, vipReply);
      GetVip(r.db, vip.id, Ok(r.calls[1].vip)).result
        == Success(RestoredVip(vip.name, vip.address, vip.protocol, vip.protocolPort, vip.poolId))
  {
    var r := CreateVip(db, edge, vip, profileReply, vipReply);
    var profileId := IdFromLocation(profileReply.value);
    assert r.calls[1].vip == ConvertVip(db.pools, edge, vip, profileId).value;
    VipRoundTrip(db.pools, edge, vip, profileId);
  }

  /**
   Deleting a freshly created vip addresses the backend ids the appliance announced,
   vip first and profile second, and then forgets the binding.
   */
  lemma CreatedVipDeletes(db: EdgeDb, edge: string, vip: Vip,
                          profileReply: ApiReply<string>, vipReply: ApiReply<string>)
    requires CreateVip(db, edge, vip, profileReply, vipReply).result.Success?
    ensures var c := CreateVip(db, edge, vip, profileReply, vipReply);
      var d := DeleteVip(c.db, vip.id, Ok(()), Ok(()));
      && d.calls == [DeleteVipCall(edge, IdFromLocation(vipReply.value)),
                     DeleteAppProfileCall(edge, IdFromLocation(profileReply.value))]
      && d.result.Success?
      && First(d.db.vips, Logical(vip.id)).None?
      && d.db.pools == db.pools
  {
  }

  /** A failed app-profile delete keeps the vip binding and surfaces the appliance's own error. */
  lemma ProfileDeleteFailureKeepsBinding(db: EdgeDb, id: string, status: int)
    requires First(db.vips, Logical(id)).Some?
    ensures var d := DeleteVip(db, id, Ok(()), ApiError(status));
      && d.result == Failure(VcnsApiError(status))
      && First(d.db.vips, Logical(id)) == First(db.vips, Logical(id))
      && |d.calls| == 2
  {
  }

  /**
   A created pool is read back from the backend id in the location header; given back its
   own shape, the read restores the pool's name.
   */
  lemma CreatedPoolReadsBack(db: EdgeDb, edge: string, pool: Pool, members: seq<Member>,
                             reply: ApiReply<string>, readReply: ApiReply<VsePool>)
    requires CreatePool(db, edge, pool, members, reply).result.Success?
    ensures var c := CreatePool(db, edge, pool, members, reply);
      && GetPool(c.db, pool.id, edge, readReply).calls == [GetPoolCall(edge, IdFromLocation(reply.value))]
      && GetPool(c.db, pool.id, edge, Ok(c.calls[0].pool)).result == Success(RestoredPool(pool.name))
  {
  }

  /**
   The reverse index stays usable: when the appliance hands out a backend id not yet
   bound on that edge, recording a created pool keeps the table injective per edge.
   */
  lemma CreatePoolKeepsInjective(db: EdgeDb, edge: string, pool: Pool, members: seq<Member>,
                                 location: string)
    requires InjectivePerEdge(db.pools)
    requires First(db.pools, BackendOnEdge(edge, IdFromLocation(location))).None?
    ensures InjectivePerEdge(CreatePool(db, edge, pool, members, Ok(location)).db.pools)
  {
    if ConvertPool(db.monitors, edge, pool, members).Success? {
      PutKeepsInjective(db.pools, Binding(pool.id, edge, IdFromLocation(location), ""), ByIdOnEdge);
    }
  }

  /** Deleting a vip leaves the binding of every other vip as it was. */
  lemma DeletedVipKeepsOthers(db: EdgeDb, id: string, vipReply: ApiReply<()>, profileReply: ApiReply<()>,
                              otherId: string)
    requires WellFormed(db)
    requires otherId != id
    ensures First(DeleteVip(db, id, vipReply, profileReply).db.vips, Logical(otherId)) == First(db.vips, Logical(otherId))
  {
    if DeleteVip(db, id, vipReply, profileReply).result.Success? {
      WithoutLeavesOtherKeys(db.vips, Binding(id, "", "", ""), Binding(otherId, "", "", ""), ById);
    }
  }

  /** Creating a pool leaves the binding of every other pool as it was. */
  lemma CreatedPoolKeepsOthers(db: EdgeDb, edge: string, pool: Pool, members: seq<Member>,
                               reply: ApiReply<string>, otherId: string, otherEdge: string)
    requires WellFormed(db)
    requires otherId != pool.id || otherEdge != edge
    ensures PoolBinding(CreatePool(db, edge, pool, members, reply).db, otherId, otherEdge)
      == PoolBinding(db, otherId, otherEdge)
  {
    if CreatePool(db, edge, pool, members, reply).result.Success? {
      PutLeavesOtherKeys(db.pools, Binding(pool.id, edge, IdFromLocation(reply.value), ""),
                         Binding(otherId, otherEdge, "", ""), ByIdOnEdge);
    }
  }

  /** Deleting a pool leaves the binding of every other pool as it was. */
  lemma DeletedPoolKeepsOthers(db: EdgeDb, id: string, edge: string, reply: ApiReply<()>,
                               otherId: string, otherEdge: string)
    requires WellFormed(db)
    requires otherId != id || otherEdge != edge
    ensures PoolBinding(DeletePool(db, id, edge, reply).db, otherId, otherEdge) == PoolBinding(db, otherId, otherEdge)
  {
    if DeletePool(db, id, edge, reply).result.Success? {
      WithoutLeavesOtherKeys(db.pools, Binding(id, edge, "", ""), Binding(otherId, otherEdge, "", ""), ByIdOnEdge);
    }
  }

  /**
   A created monitor is read back from the backend id in the location header, and when the
   appliance returns the shape it was given, the read yields the monitor's own settings.
   */
  lemma CreatedMonitorReadsBack(db: EdgeDb, edge: string, monitor: HealthMonitor, location: string)
    ensures var c := CreateMonitor(db, edge, monitor, Ok(location));
      var g := GetMonitor(c.db, monitor.id, edge, Ok(c.calls[0].monitor));
      && g.calls == [GetMonitorCall(edge, IdFromLocation(location))]
      && g.result == Success(RestoredMonitor(monitor.delay, monitor.timeout, monitor.maxRetries, monitor.id))
  {
    MonitorRoundTrip(monitor);
  }

  /** Deleting a freshly created monitor addresses the announced backend id and forgets the binding. */
  lemma CreatedMonitorDeletes(db: EdgeDb, edge: string, monitor: HealthMonitor, location: string)
    ensures var c := CreateMonitor(db, edge, monitor, Ok(location));
      var d := DeleteMonitor(c.db, monitor.id, edge, Ok(()));
      && d.calls == [DeleteMonitorCall(edge, IdFromLocation(location))]
      && d.result.Success?
      && MonitorBinding(d.db, monitor.id, edge).None?
      && d.db.pools == db.pools && d.db.vips == db.vips
  {
  }

  /** Creating a monitor leaves the binding of every other monitor as it was. */
  lemma CreatedMonitorKeepsOthers(db: EdgeDb, edge: string, monitor: HealthMonitor, reply: ApiReply<string>,
                                  otherId: string, otherEdge: string)
    requires WellFormed(db)
    requires otherId != monitor.id || otherEdge != edge
    ensures MonitorBinding(CreateMonitor(db, edge, monitor, reply).db, otherId, otherEdge)
      == MonitorBinding(db, otherId, otherEdge)
  {
    if reply.Ok? {
      PutLeavesOtherKeys(db.monitors, Binding(monitor.id, edge, IdFromLocation(reply.value), ""),
                         Binding(otherId, otherEdge, "", ""), ByIdOnEdge);
    }
  }

  /** Deleting a monitor leaves the binding of every other monitor as it was. */
  lemma DeletedMonitorKeepsOthers(db: EdgeDb, id: string, edge: string, reply: ApiReply<()>,
                                  otherId: string, otherEdge: string)
    requires WellFormed(db)
    requires otherId != id || otherEdge != edge
    ensures MonitorBinding(DeleteMonitor(db, id, edge, reply).db, otherId, otherEdge)
      == MonitorBinding(db, otherId, otherEdge)
  {
    if DeleteMonitor(db, id, edge, reply).result.Success? {
      WithoutLeavesOtherKeys(db.monitors, Binding(id, edge, "", ""), Binding(otherId, otherEdge, "", ""), ByIdOnEdge);
    }
  }

  /**
   What is updated can be read back: if the appliance returns the shape the update sent,
   reading the vip yields the new name, address, protocol, port and pool.
   */
  lemma UpdatedVipReadsBack(db: EdgeDb, vip: Vip)
    requires InjectivePerEdge(db.pools)
    requires First(db.vips, Logical(vip.id)).Some?
    requires PoolBinding(db, vip.poolId, First(db.vips, Logical(vip.id)).value.edgeId).Some?
    ensures var u := UpdateVip(db, vip, Ok(()));
      && u.result.Success?
      && GetVip(u.db, vip.id, Ok(u.calls[0].vip)).result
         == Success(RestoredVip(vip.name, vip.address, vip.protocol, vip.protocolPort, vip.poolId))
  {
    var b := First(db.vips, Logical(vip.id)).value;
    VipRoundTrip(db.pools, b.edgeId, vip, b.appProfileId);
  }

  /** An updated pool is read back under the same backend id, with the new name. */
  lemma UpdatedPoolReadsBack(db: EdgeDb, edge: string, pool: Pool, members: seq<Member>)
    requires PoolBinding(db, pool.id, edge).Some?
    requires ConvertPool(db.monitors, edge, pool, members).Success?
    ensures var u := UpdatePool(db, edge, pool, members, Ok(()));
      var g := GetPool(u.db, pool.id, edge, Ok(u.calls[0].pool));
      && u.result.Success?
      && g.calls == [GetPoolCall(edge, u.calls[0].vseId)]
      && g.result == Success(RestoredPool(pool.name))
  {
  }

  /**
   An update is addressed through the old monitor's binding, so reading under the old id
   afterwards yields the new monitor's delay, timeout, retries and id.
   */
  lemma UpdatedMonitorReadsBack(db: EdgeDb, edge: string, oldMonitor: HealthMonitor, monitor: HealthMonitor)
    requires MonitorBinding(db, oldMonitor.id, edge).Some?
    ensures var u := UpdateMonitor(db, edge, oldMonitor, monitor, Ok(()));
      var g := GetMonitor(u.db, oldMonitor.id, edge, Ok(u.calls[0].monitor));
      && u.result.Success?
      && g.calls == [GetMonitorCall(edge, u.calls[0].vseId)]
      && g.result == Success(RestoredMonitor(monitor.delay, monitor.timeout, monitor.maxRetries, monitor.id))
  {
    MonitorRoundTrip(monitor);
  }
}

=== FILE: edge_translate.dfy ===
/**
 Translation between the platform's load-balancer records and the shapes the edge
 appliance accepts, and back again. Lookups of related objects go through the binding
 tables; a missing row is an error, as subscripting an absent binding is in the driver.
 */
module EdgeTranslate {
  import opened Wrappers
  import opened BindingTable

  // Platform constants for balancing methods and protocols.
  const LbMethodRoundRobin := "ROUND_ROBIN"
  const LbMethodLeastConnections := "LEAST_CONNECTIONS"
  const LbMethodSourceIp := "SOURCE_IP"
  const ProtocolTcp := "TCP"
  const ProtocolHttp := "HTTP"
  const ProtocolHttps := "HTTPS"

  /** Platform balancing method to edge algorithm. */
  const BalanceMap: map<string, string> := map[
    LbMethodRoundRobin := "round-robin",
    LbMethodLeastConnections := "leastconn",
    LbMethodSourceIp := "source"
  ]

  /** Platform monitor type to edge monitor type; note that HTTPS is probed as plain TCP. */
  const ProtocolMap: map<string, string> := map[
    ProtocolTcp := "tcp",
    ProtocolHttp := "http",
    ProtocolHttps := "tcp"
  ]

  /** Errors raised by the edge driver. */
  datatype EdgeError =
    | VcnsApiError(status: int)                  // the appliance call failed; propagated unchanged
    | VcnsNotFound(id: string, edgeId: string)   // explicit "binding not found" of the get operations
    | BindingMissing(id: string)                 // an unchecked binding read found no row

  // Platform-side records, restricted to the fields the driver reads.
  datatype Vip = Vip(id: string, name: string, address: string, protocol: string,
                     protocolPort: int, poolId: string, sessionPersistence: Option<string>)
  datatype Pool = Pool(id: string, name: string, lbMethod: string, healthMonitors: seq<string>)
  datatype Member = Member(address: string, protocolPort: int)
  datatype HealthMonitor = HealthMonitor(id: string, monitorType: string, delay: int,
                                         timeout: int, maxRetries: int)

  // Edge-side shapes.
  datatype VseVip = VseVip(name: string, ipAddress: string, protocol: string, port: int,
                           defaultPoolId: string, applicationProfileId: string)
  datatype VseMember = VseMember(ipAddress: string, port: int)
  datatype VsePool = VsePool(name: string, algorithm: string, member: seq<VseMember>,
                             monitorId: seq<string>)
  datatype VseMonitor = VseMonitor(monitorType: string, interval: int, timeout: int,
                                   maxRetries: int, name: string)
  datatype AppProfile = AppProfile(insertXForwardedFor: bool, name: string,
                                   persistenceMethod: string, serverSslEnabled: bool,
                                   sslPassthrough: bool, template: string)

  // What the driver reports back after reading an edge object.
  datatype RestoredVip = RestoredVip(name: string, address: string, protocol: string,
                                     protocolPort: int, poolId: string)
  datatype RestoredPool = RestoredPool(name: string)
  datatype RestoredMonitor = RestoredMonitor(delay: int, timeout: int, maxRetries: int, id: string)

  /** The edge algorithm for a balancing method; unknown methods fall back to round-robin. */
  function Algorithm(lbMethod: string): (a: string)
    ensures a in BalanceMap.Values
  {
    if lbMethod in BalanceMap then BalanceMap[lbMethod]
    else assert BalanceMap[LbMethodRoundRobin] == "round-robin"; "round-robin"
  }

  /** The edge monitor type for a platform type; unknown types fall back to http. */
  function MonitorType(platformType: string): (t: string)
    ensures t in ProtocolMap.Values
  {
    if platformType in ProtocolMap then ProtocolMap[platformType]
    else assert ProtocolMap[ProtocolHttp] == "http"; "http"
  }

  /** Every supported method maps to its own algorithm, and anything else to round-robin. */
  lemma AlgorithmTable(lbMethod: string)
    ensures Algorithm(LbMethodRoundRobin) == "round-robin"
    ensures Algorithm(LbMethodLeastConnections) == "leastconn"
    ensures Algorithm(LbMethodSourceIp) == "source"
    ensures lbMethod !in {LbMethodRoundRobin, LbMethodLeastConnections, LbMethodSourceIp}
      ==> Algorithm(lbMethod) == "round-robin"
  {
  }

  /** Distinct supported methods stay distinct on the edge, so the method is recoverable. */
  lemma AlgorithmInjective(m1: string, m2: string)
    requires m1 in BalanceMap && m2 in BalanceMap
    requires Algorithm(m1) == Algorithm(m2)
    ensures m1 == m2
  {
  }

  /** Every supported monitor type maps as tabled; HTTPS and TCP collide; anything else is http. */
  lemma MonitorTypeTable(platformType: string)
    ensures MonitorType(ProtocolTcp) == "tcp"
    ensures MonitorType(ProtocolHttp) == "http"
    ensures MonitorType(ProtocolHttps) == "tcp" == MonitorType(ProtocolTcp)
    ensures platformType !in {ProtocolTcp, ProtocolHttp, ProtocolHttps}
      ==> MonitorType(platformType) == "http"
  {
  }

  /** The vip shape: the pool is named by its backend id on this edge. */
  function ConvertVip(pools: Table, edge: string, vip: Vip, appProfileId: string): (r: Result<VseVip, EdgeError>)
    ensures r.Success? <==> First(pools, LogicalOnEdge(vip.poolId, edge)).Some?
    ensures r.Failure? ==> r.error == BindingMissing(vip.poolId)
    ensures r.Success? ==>
      var b := First(pools, LogicalOnEdge(vip.poolId, edge)).value;
      && r.value.defaultPoolId == b.vseId
      && b.logicalId == vip.poolId && b.edgeId == edge
      && r.value.applicationProfileId == appProfileId
    ensures r.Success? ==>
      && r.value.name == vip.name && r.value.ipAddress == vip.address
      && r.value.protocol == vip.protocol && r.value.port == vip.protocolPort
  {
    match First(pools, LogicalOnEdge(vip.poolId, edge))
    case None => Failure(BindingMissing(vip.poolId))
    case Some(b) =>
      Success(VseVip(vip.name, vip.address, vip.protocol, vip.protocolPort, b.vseId, appProfileId))
  }

  /** The platform view of an edge vip; its pool is found through the reverse index. */
  function RestoreVip(pools: Table, edge: string, vse: VseVip): (r: Result<RestoredVip, EdgeError>)
    ensures r.Success? <==> First(pools, BackendOnEdge(edge, vse.defaultPoolId)).Some?
    ensures r.Success? ==>
      exists b :: (b in pools && b.edgeId == edge && b.vseId == vse.defaultPoolId
                   && b.logicalId == r.value.poolId)
    ensures r.Success? ==>
      && r.value.name == vse.name && r.value.address == vse.ipAddress
      && r.value.protocol == vse.protocol && r.value.protocolPort == vse.port
  {
    match First(pools, BackendOnEdge(edge, vse.defaultPoolId))
    case None => Failure(BindingMissing(vse.defaultPoolId))
    case Some(b) => Success(RestoredVip(vse.name, vse.ipAddress, vse.protocol, vse.port, b.logicalId))
  }

  /** Members as edge entries, in order. */
  function ConvertMembers(members: seq<Member>): (r: seq<VseMember>)
    ensures |r| == |members|
    ensures forall i :: 0 <= i < |members| ==>
      r[i].ipAddress == members[i].address && r[i].port == members[i].protocolPort
  {
    if |members| == 0 then []
    else [VseMember(members[0].address, members[0].protocolPort)] + ConvertMembers(members[1..])
  }

  /** The pool shape; the edge accepts one monitor, so only the first bound monitor is attached. */
  function ConvertPool(monitors: Table, edge: string, pool: Pool, members: seq<Member>): (r: Result<VsePool, EdgeError>)
    ensures |pool.healthMonitors| == 0 ==> r.Success? && r.value.monitorId == []
    ensures |pool.healthMonitors| > 0 ==>
      (r.Success? <==> First(monitors, LogicalOnEdge(pool.healthMonitors[0], edge)).Some?)
    ensures r.Failure? ==> r.error == BindingMissing(pool.healthMonitors[0])
    ensures r.Success? && |pool.healthMonitors| > 0 ==>
      r.value.monitorId == [First(monitors, LogicalOnEdge(pool.healthMonitors[0], edge)).value.vseId]
    ensures r.Success? ==> r.value.name == pool.name && r.value.algorithm == Algorithm(pool.lbMethod)
    ensures r.Success? ==> |r.value.member| == |members| && forall i :: 0 <= i < |members| ==>
      r.value.member[i] == VseMember(members[i].address, members[i].protocolPort)
  {
    var shape := VsePool(pool.name, Algorithm(pool.lbMethod), ConvertMembers(members), []);
    if |pool.healthMonitors| == 0 then Success(shape)
    else
      match First(monitors, LogicalOnEdge(pool.healthMonitors[0], edge))
      case None => Failure(BindingMissing(pool.healthMonitors[0]))
      case Some(b) => Success(shape.(monitorId := [b.vseId]))
  }

  /** The platform view of an edge pool carries only its name. */
  function RestorePool(vse: VsePool): (r: RestoredPool)
    ensures r.name == vse.name
  {
    RestoredPool(vse.name)
  }

  /** The monitor shape: delay becomes the interval and the platform id becomes the name. */
  function ConvertMonitor(m: HealthMonitor): (r: VseMonitor)
    ensures m.monitorType in ProtocolMap ==> r.monitorType == ProtocolMap[m.monitorType]
    ensures m.monitorType !in ProtocolMap ==> r.monitorType == "http"
    ensures r.interval == m.delay && r.timeout == m.timeout && r.maxRetries == m.maxRetries
    ensures r.name == m.id
  {
    VseMonitor(MonitorType(m.monitorType), m.delay, m.timeout, m.maxRetries, m.id)
  }

  function RestoreMonitor(vse: VseMonitor): (r: RestoredMonitor)
    ensures r.id == vse.name && r.delay == vse.interval
    ensures r.timeout == vse.timeout && r.maxRetries == vse.maxRetries
  {
    RestoredMonitor(vse.interval, vse.timeout, vse.maxRetries, vse.name)
  }

  /** The application profile: persistence is always source-ip over the HTTP template. */
  function ConvertAppProfile(name: string, sessionPersistence: Option<string>): (r: AppProfile)
    ensures r.name == name && r.persistenceMethod == "sourceip" && r.template == "HTTP"
    ensures !r.insertXForwardedFor && !r.serverSslEnabled && !r.sslPassthrough
  {
    AppProfile(false, name, "sourceip", false, false, "HTTP")
  }

  /** The requested session persistence has no effect on the profile. */
  lemma AppProfileIgnoresPersistence(name: string, p1: Option<string>, p2: Option<string>)
    ensures ConvertAppProfile(name, p1) == ConvertAppProfile(name, p2)
  {
  }

  /** Restoring a converted monitor gives back its delay, timeout, retries and id. */
  lemma MonitorRoundTrip(m: HealthMonitor)
    ensures RestoreMonitor(ConvertMonitor(m)) == RestoredMonitor(m.delay, m.timeout, m.maxRetries, m.id)
  {
  }

  /** The edge probes a monitor over TCP exactly for the TCP and HTTPS types, and over HTTP otherwise. */
  lemma MonitorProbeIsTcpExactly(m: HealthMonitor)
    ensures ConvertMonitor(m).monitorType == "tcp" <==> m.monitorType == ProtocolTcp || m.monitorType == ProtocolHttps
    ensures ConvertMonitor(m).monitorType != "tcp" ==> ConvertMonitor(m).monitorType == "http"
  {
  }

  /**
   Restoring a converted vip always succeeds and returns its name, address, protocol and
   port; the pool it names is one bound to the same backend id on that edge.
   */
  lemma VipRoundTripFields(pools: Table, edge: string, vip: Vip, appProfileId: string)
    requires ConvertVip(pools, edge, vip, appProfileId).Success?
    ensures var r := RestoreVip(pools, edge, ConvertVip(pools, edge, vip, appProfileId).value);
      && r.Success?
      && r.value.name == vip.name && r.value.address == vip.address
      && r.value.protocol == vip.protocol && r.value.protocolPort == vip.protocolPort
  {
    var b := First(pools, LogicalOnEdge(vip.poolId, edge)).value;
    assert Matches(b, BackendOnEdge(edge, b.vseId));
  }

  /** When the pool table is injective per edge, the round trip also recovers the pool id. */
  lemma VipRoundTrip(pools: Table, edge: string, vip: Vip, appProfileId: string)
    requires InjectivePerEdge(pools)
    requires ConvertVip(pools, edge, vip, appProfileId).Success?
    ensures RestoreVip(pools, edge, ConvertVip(pools, edge, vip, appProfileId).value)
      == Success(RestoredVip(vip.name, vip.address, vip.protocol, vip.protocolPort, vip.poolId))
  {
    ReverseLookupInverts(pools, vip.poolId, edge);
  }

  /** A second monitor on a pool never reaches the edge: the shape depends on the first only. */
  lemma OnlyFirstMonitorAttached(monitors: Table, edge: string, pool: Pool, members: seq<Member>, extra: seq<string>)
    requires |pool.healthMonitors| > 0
    ensures ConvertPool(monitors, edge, pool, members)
      == ConvertPool(monitors, edge, pool.(healthMonitors := pool.healthMonitors[..1] + extra), members)
  {
  }
}

=== FILE: lb_callbacks.dfy ===
/**
 The callbacks the NetScaler agent calls back into the plugin with: plugging a vip port
 marks it up and owned by the load balancer on the agent's host; unplugging clears the
 ownership. A missing port is not an error, except when it vanishes between the read and
 the write of a plug.
 */
module LbCallbacks {
  import opened Wrappers
  import opened NetScalerState

  /** The device owner of a plugged vip port: the platform prefix and the load-balancer service name. */
  const LoadBalancerOwner := "neutron:" + "LOADBALANCER"

  /** The first port with the given id, as the provider's port lookup returns it. */
  function FindPort(ports: seq<Port>, portId: string): (r: Option<Port>)
    ensures r.Some? <==> exists i :: 0 <= i < |ports| && ports[i].id == portId
    ensures r.Some? ==> r.value in ports && r.value.id == portId
  {
    if |ports| == 0 then None
    else if ports[0].id == portId then Some(ports[0])
    else
      var rest := FindPort(ports[1..], portId);
      assert forall i :: 1 <= i < |ports| ==> ports[i] == ports[1..][i - 1];
      rest
  }

  /** The port list after writing the attachment fields of the port with the given id. */
  function SetAttachment(ports: seq<Port>, portId: string, up: bool, owner: string, device: string): (r: seq<Port>)
    ensures |r| == |ports|
    ensures forall i :: 0 <= i < |ports| ==>
      r[i] == if ports[i].id == portId then ports[i].(adminStateUp := up, deviceOwner := owner, deviceId := device)
              else ports[i]
  {
    if |ports| == 0 then []
    else
      var head := if ports[0].id == portId
                  then ports[0].(adminStateUp := up, deviceOwner := owner, deviceId := device)
                  else ports[0];
      [head] + SetAttachment(ports[1..], portId, up, owner, device)
  }

  /**
   Plugs a vip port for an agent host. `device` is the device id derived from the host;
   `updateFound` says whether the port still existed when it was written back. An absent or
   empty port id, or a port that cannot be read, is ignored.
   */
  function PlugVipPort(st: Platform, portId: Option<string>, device: string, updateFound: bool): (r: Result<Platform, DriverError>)
    ensures portId.None? || portId == Some("") ==> r == Success(st)
    ensures portId.Some? && FindPort(st.ports, portId.value).None? ==> r == Success(st)
    ensures r.Failure? <==>
      (portId.Some? && portId.value != "" && FindPort(st.ports, portId.value).Some? && !updateFound)
    ensures r.Failure? ==> r.error == PortNotFound(portId.value)
    ensures r.Success? ==> SameExceptPorts(r.value, st) && |r.value.ports| == |st.ports|
    ensures r.Success? && portId.Some? && portId.value != "" && FindPort(st.ports, portId.value).Some? ==>
      forall i :: 0 <= i < |st.ports| ==>
         if st.ports[i].id == portId.value
         then r.value.ports[i].adminStateUp && r.value.ports[i].deviceOwner == LoadBalancerOwner
              && r.value.ports[i].deviceId == device
         else r.value.ports[i] == st.ports[i]
  {
    if portId.None? || portId.value == "" then Success(st)
    else if FindPort(st.ports, portId.value).None? then Success(st)
    else if !updateFound then Failure(PortNotFound(portId.value))
    else Success(st.(ports := SetAttachment(st.ports, portId.value, true, LoadBalancerOwner, device)))
  }

  /**
   Unplugs a vip port: it goes down and loses its owner and device. Never fails: a port
   that is missing, or vanishes before the write, is ignored.
   */
  function UnplugVipPort(st: Platform, portId: Option<string>, updateFound: bool): (r: Platform)
    ensures SameExceptPorts(r, st) && |r.ports| == |st.ports|
    ensures portId.None? || portId == Some("") || !updateFound ==> r == st
    ensures portId.Some? && FindPort(st.ports, portId.value).None? ==> r == st
    ensures portId.Some? && portId.value != "" && FindPort(st.ports, portId.value).Some? && updateFound ==>
      forall i :: 0 <= i < |st.ports| ==>
         if st.ports[i].id == portId.value
         then !r.ports[i].adminStateUp && r.ports[i].deviceOwner == "" && r.ports[i].deviceId == ""
         else r.ports[i] == st.ports[i]
  {
    if portId.None? || portId.value == "" then st
    else if FindPort(st.ports, portId.value).None? then st
    else if !updateFound then st
    else st.(ports := SetAttachment(st.ports, portId.value, false, "", ""))
  }

  /** Writing the attachment of a port twice is writing it once; the last write wins. */
  lemma {:induction false} SetAttachmentOverwrites(ports: seq<Port>, portId: string, up1: bool, owner1: string,
                                                   device1: string, up2: bool, owner2: string, device2: string)
    ensures SetAttachment(SetAttachment(ports, portId, up1, owner1, device1), portId, up2, owner2, device2)
      == SetAttachment(ports, portId, up2, owner2, device2)
  {
    if |ports| > 0 {
      var once := SetAttachment(ports, portId, up1, owner1, device1);
      assert once[1..] == SetAttachment(ports[1..], portId, up1, owner1, device1);
      SetAttachmentOverwrites(ports[1..], portId, up1, owner1, device1, up2, owner2, device2);
    }
  }

  /** Attachment writes keep every port id, so the port stays findable. */
  lemma {:induction false} SetAttachmentKeepsIds(ports: seq<Port>, portId: string, up: bool, owner: string, device: string)
    ensures FindPort(SetAttachment(ports, portId, up, owner, device), portId).Some?
      <==> FindPort(ports, portId).Some?
  {
    var r := SetAttachment(ports, portId, up, owner, device);
    assert forall i :: 0 <= i < |ports| ==> r[i].id == ports[i].id;
  }

  /** Plugging a vip port twice for the same host is plugging it once. */
  lemma PlugIdempotent(st: Platform, portId: Option<string>, device: string)
    requires PlugVipPort(st, portId, device, true).Success?
    ensures var once := PlugVipPort(st, portId, device, true).value;
      PlugVipPort(once, portId, device, true) == Success(once)
  {
    if portId.Some? && portId.value != "" && FindPort(st.ports, portId.value).Some? {
      SetAttachmentKeepsIds(st.ports, portId.value, true, LoadBalancerOwner, device);
      SetAttachmentOverwrites(st.ports, portId.value, true, LoadBalancerOwner, device, true, LoadBalancerOwner, device);
    }
  }

  /** Unplugging undoes a plug: plug then unplug is the same as unplug alone. */
  lemma UnplugAfterPlug(st: Platform, portId: Option<string>, device: string)
    requires PlugVipPort(st, portId, device, true).Success?
    ensures UnplugVipPort(PlugVipPort(st, portId, device, true).value, portId, true) == UnplugVipPort(st, portId, true)
  {
    if portId.Some? && portId.value != "" && FindPort(st.ports, portId.value).Some? {
      SetAttachmentKeepsIds(st.ports, portId.value, true, LoadBalancerOwner, device);
      SetAttachmentOverwrites(st.ports, portId.value, true, LoadBalancerOwner, device, false, "", "");
    }
  }

  /** Unplugging a vip port twice is unplugging it once. */
  lemma UnplugIdempotent(st: Platform, portId: Option<string>)
    ensures var once := UnplugVipPort(st, portId, true);
      UnplugVipPort(once, portId, true) == once
  {
    if portId.Some? && portId.value != "" && FindPort(st.ports, portId.value).Some? {
      SetAttachmentKeepsIds(st.ports, portId.value, false, "", "");
      SetAttachmentOverwrites(st.ports, portId.value, false, "", "", false, "", "");
    }
  }

  /** An unplugged existing port is down, with no owner and no device, and it is still there. */
  lemma UnpluggedPortIsReleased(st: Platform, portId: string)
    requires portId != ""
    requires FindPort(st.ports, portId).Some?
    ensures var r := UnplugVipPort(st, Some(portId), true);
      var p := FindPort(r.ports, portId);
      p.Some? && !p.value.adminStateUp && p.value.deviceOwner == "" && p.value.deviceId == ""
  {
    var r := SetAttachment(st.ports, portId, false, "", "");
    SetAttachmentKeepsIds(st.ports, portId, false, "", "");
    var p := FindPort(r, portId).value;
    assert p in r;
  }

  /** A successful plug of an existing port leaves it up, owned by the load balancer, on the device. */
  lemma PluggedPortIsOwned(st: Platform, portId: string, device: string)
    requires portId != ""
    requires FindPort(st.ports, portId).Some?
    ensures var r := PlugVipPort(st, Some(portId), device, true);
      && r.Success?
      && var p := FindPort(r.value.ports, portId);
         p.Some? && p.value.adminStateUp && p.value.deviceOwner == LoadBalancerOwner && p.value.deviceId == device
  {
    var r := SetAttachment(st.ports, portId, true, LoadBalancerOwner, device);
    SetAttachmentKeepsIds(st.ports, portId, true, LoadBalancerOwner, device);
    var p := FindPort(r, portId).value;
    assert p in r;
  }
}

=== FILE: location_header.dfy ===
/**
 The edge appliance answers every creation request with a `Location` header whose
 trailing path segment is the identifier of the new object. This module is the single
 place where that parsing rule lives.
 */
module LocationHeader {

  /** Index of the last occurrence of `c` in `s`, or -1 when there is none (`str.rfind`). */
  function RFind(s: string, c: char): (i: int)
    ensures -1 <= i < |s|
    ensures 0 <= i ==> s[i] == c
    ensures forall j :: i < j < |s| ==> s[j] != c
  {
    if |s| == 0 then -1
    else if s[|s| - 1] == c then |s| - 1
    else RFind(s[..|s| - 1], c)
  }

  /** The backend id named by a location reference: everything after its last '/'. */
  function IdFromLocation(location: string): (id: string)
    ensures '/' !in id
    ensures |id| <= |location| && location[|location| - |id|..] == id
    ensures |id| < |location| ==> location[|location| - |id| - 1] == '/'
  {
    location[RFind(location, '/') + 1..]
  }

  /** A location without any separator is itself the id. */
  lemma IdOfBareLocation(location: string)
    requires '/' !in location
    ensures IdFromLocation(location) == location
  {
  }

  /** Whatever precedes the final separator is irrelevant to the extracted id. */
  lemma IdOfJoinedLocation(prefix: string, id: string)
    requires '/' !in id
    ensures IdFromLocation(prefix + "/" + id) == id
  {
    var location := prefix + "/" + id;
    assert location[|prefix|] == '/';
    assert forall j :: |prefix| < j < |location| ==> location[j] == id[j - |prefix| - 1];
    assert RFind(location, '/') == |prefix|;
    assert location[|prefix| + 1..] == id;
  }

  /** An illustration of IdOfJoinedLocation on a typical appliance header: `.../abc123` yields `abc123`. */
  lemma IdOfTypicalLocation()
    ensures IdFromLocation("/api/4.0/edges/edge-1/loadbalancer/config/pools/abc123") == "abc123"
  {
    IdOfJoinedLocation("/api/4.0/edges/edge-1/loadbalancer/config/pools", "abc123");
  }
}

=== FILE: netscaler_driver.dfy ===
/**
 The NetScaler plugin driver's entry points. Each resolves the agent that hosts the pool,
 computes network info, manages the SNAT port where pools come and go, and casts one
 fire-and-forget message to the agent's host. Deletes cast first and then remove the
 platform's own record.
 */
module NetScalerDriver {
  import opened Wrappers
  import opened NetScalerState
  import opened SnatPorts

  /** Position of an effect in the fixed order port create, then port delete, then everything else. */
  function Phase(e: Event): nat {
    match e
    case PortCreated(_, _) => 0
    case PortDeleted(_) => 1
    case _ => 2
  }

  // ---------------------------------------------------------------- pools

  /**
   Creates a pool: the scheduler's choice of agent (`None` when no agent is eligible) is
   recorded as the pool's host, the subnet's SNAT port is ensured, and the pool is cast.
   */
  function CreatePool(st: Platform, pool: PoolRecord, scheduled: Option<Agent>, alloc: Allocation): (r: Outcome)
    ensures scheduled.None? ==> r == Outcome(st, [], Failure(NoEligibleLbaasAgent(pool.id)))
    ensures scheduled.Some? ==> pool.id in r.st.hosting && r.st.hosting[pool.id] == scheduled.value
    ensures r.st.pools == st.pools && r.st.subnets == st.subnets && r.st.networks == st.networks
    ensures r.result.Failure? ==> r.events == []
    ensures r.result.Success? ==>
      && scheduled.Some?
      && 1 <= |r.events| <= 2
      && (forall i :: 0 <= i < |r.events| - 1 ==> r.events[i].PortCreated?)
      && var last := r.events[|r.events| - 1];
         && last.Cast? && last.rpc == "create_pool" && last.host == scheduled.value.host
         && last.payload.PoolPayload? && last.payload.pool == pool
         && |SnatPortsOf(r.st, pool.tenantId, pool.subnetId)| > 0
         && last.payload.netinfo.portId == Some(SnatPortsOf(r.st, pool.tenantId, pool.subnetId)[0].id)
    ensures r.result.Success? && |SnatPortsOf(st, pool.tenantId, pool.subnetId)| > 0 ==> r.st.ports == st.ports
    ensures r.result.Success? <==>
      scheduled.Some? && Resolvable(st, pool.subnetId) && !SnatPortLacksAddress(st, pool.tenantId, pool.subnetId)
    ensures r.result.Success? ==>
      && scheduled.Some? && PoolNetworkInfo(st, pool).Success? && |r.events| >= 1
      && var ports := SnatPortsOf(r.st, pool.tenantId, pool.subnetId);
         && |ports| > 0 && |ports[0].fixedIps| > 0
         && r.events[|r.events| - 1] == Cast("create_pool", scheduled.value.host, PoolPayload(pool,
              PoolNetworkInfo(st, pool).value.(portId := Some(ports[0].id), snatIp := Some(ports[0].fixedIps[0].ipAddress))))
         && CompletedWithSnatPort(st, pool.tenantId, pool.subnetId, PoolNetworkInfo(st, pool).value, alloc,
                                  r.events[|r.events| - 1].payload.netinfo)
  {
    match scheduled
    case None => Outcome(st, [], Failure(NoEligibleLbaasAgent(pool.id)))
    case Some(agent) =>
      var hosted := st.(hosting := st.hosting[pool.id := agent]);
      assert SnatPortsOf(hosted, pool.tenantId, pool.subnetId) == SnatPortsOf(st, pool.tenantId, pool.subnetId);
      CreateHostedPool(hosted, pool, agent.host, alloc)
  }

  /** The part of a pool create after its host is recorded: ensure the SNAT port, then cast to `host`. */
  function CreateHostedPool(st: Platform, pool: PoolRecord, host: string, alloc: Allocation): (r: Outcome)
    ensures r.st.pools == st.pools && r.st.subnets == st.subnets && r.st.networks == st.networks
    ensures r.st.hosting == st.hosting
    ensures r.result.Failure? ==> r.events == []
    ensures r.result.Success? <==> Resolvable(st, pool.subnetId) && !SnatPortLacksAddress(st, pool.tenantId, pool.subnetId)
    ensures r.result.Success? && |SnatPortsOf(st, pool.tenantId, pool.subnetId)| > 0 ==> r.st.ports == st.ports
    ensures r.result.Success? ==>
      && PoolNetworkInfo(st, pool).Success?
      && 1 <= |r.events| <= 2
      && (forall i :: 0 <= i < |r.events| - 1 ==> r.events[i].PortCreated?)
      && var ports := SnatPortsOf(r.st, pool.tenantId, pool.subnetId);
         && |ports| > 0 && |ports[0].fixedIps| > 0
         && r.events[|r.events| - 1] == Cast("create_pool", host, PoolPayload(pool,
              PoolNetworkInfo(st, pool).value.(portId := Some(ports[0].id), snatIp := Some(ports[0].fixedIps[0].ipAddress))))
         && CompletedWithSnatPort(st, pool.tenantId, pool.subnetId, PoolNetworkInfo(st, pool).value, alloc,
                                  r.events[|r.events| - 1].payload.netinfo)
  {
    match PoolNetworkInfo(st, pool)
    case Failure(e) => Outcome(st, [], Failure(e))
    case Success(net) =>
      match EnsureSnatPort(st, pool.tenantId, pool.subnetId, net, alloc)
      case Failure(e) => Outcome(st, [], Failure(e))
      case Success(ensured) =>
        var cast := Cast("create_pool", host, PoolPayload(pool, ensured.netinfo));
        Outcome(ensured.st, ensured.events + [cast], Success(()))
  }

  /** The SNAT side of moving a pool between subnets; `error` is set when a step failed. */
  datatype Moved = Moved(st: Platform, events: seq<Event>, netinfo: NetworkInfo, error: Option<DriverError>)

  /**
   What a move of SNAT ports may do: change only the port list, with at most one creation
   (of the allocated port) followed by at most one deletion.
   */
  predicate PortsMoved(m: Moved, st: Platform, alloc: Allocation) {
    && SameExceptPorts(m.st, st)
    && |m.events| <= 2
    && (forall i :: 0 <= i < |m.events| ==> m.events[i].PortCreated? || m.events[i].PortDeleted?)
    && (forall i :: 0 <= i < |m.events| ==> !m.events[i].PortCreated? || m.events[i].port.id == alloc.portId)
    && (|m.events| == 2 ==> m.events[0].PortCreated? && m.events[1].PortDeleted?)
  }

  /**
   Ensures the SNAT port of the pool's new subnet, then releases the old subnet's port if
   the old subnet is now unused. Only ports change, and creation precedes deletion.
   */
  function MoveSnatPort(st: Platform, oldPool: PoolRecord, pool: PoolRecord, net: NetworkInfo,
                        alloc: Allocation): (r: Moved)
    ensures PortsMoved(r, st, alloc)
    ensures pool.subnetId in st.subnets && oldPool.subnetId in st.subnets ==>
      (r.error.None? <==> !SnatPortLacksAddress(st, pool.tenantId, pool.subnetId))
    ensures r.error.None? ==> CompletedWithSnatPort(st, pool.tenantId, pool.subnetId, net, alloc, r.netinfo)
  {
    match EnsureSnatPort(st, pool.tenantId, pool.subnetId, net, alloc)
    case Failure(e) => Moved(st, [], net, Some(e))
    case Success(ensured) => ReleaseAfterEnsure(st, ensured, oldPool, alloc)
  }

  /** The second half of a move: the old subnet's port is released once the new one is ensured. */
  function ReleaseAfterEnsure(st: Platform, ensured: Ensured, oldPool: PoolRecord, alloc: Allocation): (r: Moved)
    requires SameExceptPorts(ensured.st, st)
    requires ensured.events == [] || (|ensured.events| == 1 && ensured.events[0].PortCreated?
                                      && ensured.events[0].port.id == alloc.portId)
    ensures PortsMoved(r, st, alloc)
    ensures r.netinfo == ensured.netinfo
    ensures oldPool.subnetId in st.subnets ==> r.error.None?
  {
    match ReleaseSnatPortIfUnused(ensured.st, oldPool.tenantId, oldPool.subnetId)
    case Failure(e) => Moved(ensured.st, ensured.events, ensured.netinfo, Some(e))
    case Success(released) => Moved(released.st, ensured.events + released.events, ensured.netinfo, None)
  }

  /** The subnet-changing half of a pool update: after the SNAT ports moved, the update is cast to `host`. */
  function CastAfterMove(st: Platform, moved: Moved, host: string, oldPool: PoolRecord, pool: PoolRecord,
                         oldNet: NetworkInfo, alloc: Allocation): (r: Outcome)
    requires PortsMoved(moved, st, alloc)
    ensures SameExceptPorts(r.st, st)
    ensures forall i :: 0 <= i < |r.events| - 1 ==> Phase(r.events[i]) <= Phase(r.events[i + 1])
    ensures forall i :: 0 <= i < |r.events| ==> !r.events[i].PortCreated? || r.events[i].port.id == alloc.portId
    ensures r.result.Success? ==>
      && |r.events| >= 1
      && var last := r.events[|r.events| - 1];
         && last.Cast? && last.host == host
         && last.rpc == "update_pool" && last.payload.PoolUpdatePayload?
         && last.payload.oldPool == oldPool && last.payload.pool == pool
         && (forall i :: 0 <= i < |r.events| - 1 ==> !r.events[i].Cast?)
    ensures r.result.Failure? ==> forall i :: 0 <= i < |r.events| ==> !r.events[i].Cast?
    ensures r.result.Success? <==> moved.error.None?
    ensures r.result.Success? ==>
      r.events[|r.events| - 1].payload == PoolUpdatePayload(oldPool, pool, oldNet, moved.netinfo)
  {
    match moved.error
    case Some(e) => Outcome(moved.st, moved.events, Failure(e))
    case None =>
      var cast := Cast("update_pool", host, PoolUpdatePayload(oldPool, pool, oldNet, moved.netinfo));
      Outcome(moved.st, moved.events + [cast], Success(()))
  }

  /**
   Updates a pool. When its subnet changes, the new subnet's SNAT port is ensured before
   the old one is released, and both happen before the update is cast; otherwise no
   SNAT port is touched.
   */
  function UpdatePool(st: Platform, oldPool: PoolRecord, pool: PoolRecord, alloc: Allocation): (r: Outcome)
    ensures pool.id !in st.hosting ==> r == Outcome(st, [], Failure(NoActiveLbaasAgent(pool.id)))
    ensures SameExceptPorts(r.st, st)
    ensures pool.subnetId == oldPool.subnetId ==> r.st == st && |r.events| <= 1
    ensures forall i :: 0 <= i < |r.events| - 1 ==> Phase(r.events[i]) <= Phase(r.events[i + 1])
    ensures forall i :: 0 <= i < |r.events| ==> !r.events[i].PortCreated? || r.events[i].port.id == alloc.portId
    ensures r.result.Success? ==>
      && pool.id in st.hosting
      && |r.events| >= 1
      && var last := r.events[|r.events| - 1];
         && last.Cast? && last.host == st.hosting[pool.id].host
         && last.rpc == "update_pool" && last.payload.PoolUpdatePayload?
         && last.payload.oldPool == oldPool && last.payload.pool == pool
         && (forall i :: 0 <= i < |r.events| - 1 ==> !r.events[i].Cast?)
    ensures r.result.Failure? ==> forall i :: 0 <= i < |r.events| ==> !r.events[i].Cast?
    ensures r.result.Success? <==>
      && pool.id in st.hosting && PoolNetworkInfo(st, oldPool).Success? && PoolNetworkInfo(st, pool).Success?
      && (pool.subnetId != oldPool.subnetId ==> !SnatPortLacksAddress(st, pool.tenantId, pool.subnetId))
    ensures r.result.Success? ==>
      && PoolNetworkInfo(st, oldPool).Success? && PoolNetworkInfo(st, pool).Success? && |r.events| >= 1
      && var payload := r.events[|r.events| - 1].payload;
         && payload.PoolUpdatePayload? && payload.oldNetinfo == PoolNetworkInfo(st, oldPool).value
         && (pool.subnetId == oldPool.subnetId ==> payload.netinfo == PoolNetworkInfo(st, pool).value)
         && (pool.subnetId != oldPool.subnetId ==>
               CompletedWithSnatPort(st, pool.tenantId, pool.subnetId, PoolNetworkInfo(st, pool).value, alloc,
                                     payload.netinfo))
  {
    match PoolAgent(st, pool.id)
    case Failure(e) => Outcome(st, [], Failure(e))
    case Success(agent) =>
      match PoolNetworkInfo(st, oldPool)
      case Failure(e) => Outcome(st, [], Failure(e))
      case Success(oldNet) =>
        match PoolNetworkInfo(st, pool)
        case Failure(e) => Outcome(st, [], Failure(e))
        case Success(net) =>
          if pool.subnetId != oldPool.subnetId then
            CastAfterMove(st, MoveSnatPort(st, oldPool, pool, net, alloc), agent.host, oldPool, pool, oldNet, alloc)
          else
            var cast := Cast("update_pool", agent.host, PoolUpdatePayload(oldPool, pool, oldNet, net));
            Outcome(st, [cast], Success(()))
  }

  /**
   Deletes a pool: cast first, then the pool record goes, taking the pool's agent binding
   with it, then the subnet's SNAT port is released if no pool of the tenant is left on it.
   */
  function DeletePool(st: Platform, pool: PoolRecord): (r: Outcome)
    ensures pool.id !in st.hosting ==> r == Outcome(st, [], Failure(NoActiveLbaasAgent(pool.id)))
    ensures r.events != [] ==>
      && pool.id in st.hosting
      && |r.events| >= 2
      && r.events[0].Cast? && r.events[0].rpc == "delete_pool"
      && r.events[0].host == st.hosting[pool.id].host
      && r.events[0].payload.PoolPayload? && r.events[0].payload.pool == pool
      && r.events[1] == PoolRecordDeleted(pool.id)
      && (forall i :: 2 <= i < |r.events| ==> r.events[i].PortDeleted?)
      && r.st.pools == st.pools - {pool.id}
    ensures r.result.Success? ==> r.events != []
    ensures r.events == [] ==> r.st == st
    ensures r.st.subnets == st.subnets && r.st.networks == st.networks
    ensures r.result.Success? <==> pool.id in st.hosting && PoolNetworkInfo(st, pool).Success?
    ensures r.result.Success? ==> r.st.hosting == st.hosting - {pool.id}
    ensures r.result.Failure? ==> r.events == [] && r.st == st
    ensures r.events != [] ==>
      r.events[0] == Cast("delete_pool", st.hosting[pool.id].host, PoolPayload(pool, PoolNetworkInfo(st, pool).value))
  {
    match PoolAgent(st, pool.id)
    case Failure(e) => Outcome(st, [], Failure(e))
    case Success(agent) =>
      match PoolNetworkInfo(st, pool)
      case Failure(e) => Outcome(st, [], Failure(e))
      case Success(net) =>
        var sent := [Cast("delete_pool", agent.host, PoolPayload(pool, net)), PoolRecordDeleted(pool.id)];
        var removed := st.(pools := st.pools - {pool.id}, hosting := st.hosting - {pool.id});
        match ReleaseSnatPortIfUnused(removed, pool.tenantId, pool.subnetId)
        case Failure(e) => Outcome(removed, sent, Failure(e))
        case Success(released) => Outcome(released.st, sent + released.events, Success(()))
  }

  // ---------------------------------------------------------------- vips

  /** Casts a vip create to the host of the vip's pool. */
  function CreateVip(st: Platform, vip: VipRecord): (r: Outcome)
    ensures r.st == st
    ensures vip.poolId !in st.hosting ==> r == Outcome(st, [], Failure(NoActiveLbaasAgent(vip.poolId)))
    ensures r.result.Failure? ==> r.events == []
    ensures r.result.Success? <==> vip.poolId in st.hosting && VipNetworkInfo(st, vip).Success?
    ensures r.result.Success? ==>
      r.events == [Cast("create_vip", st.hosting[vip.poolId].host, VipPayload(vip, VipNetworkInfo(st, vip).value))]
  {
    match PoolAgent(st, vip.poolId)
    case Failure(e) => Outcome(st, [], Failure(e))
    case Success(agent) =>
      match VipNetworkInfo(st, vip)
      case Failure(e) => Outcome(st, [], Failure(e))
      case Success(net) => Outcome(st, [Cast("create_vip", agent.host, VipPayload(vip, net))], Success(()))
  }

  /** Casts a vip update, with the network info of both versions, to the host of the new pool. */
  function UpdateVip(st: Platform, oldVip: VipRecord, vip: VipRecord): (r: Outcome)
    ensures r.st == st
    ensures vip.poolId !in st.hosting ==> r == Outcome(st, [], Failure(NoActiveLbaasAgent(vip.poolId)))
    ensures r.result.Failure? ==> r.events == []
    ensures r.result.Success? <==>
      vip.poolId in st.hosting && VipNetworkInfo(st, oldVip).Success? && VipNetworkInfo(st, vip).Success?
    ensures r.result.Success? ==>
      r.events == [Cast("update_vip", st.hosting[vip.poolId].host,
                        VipUpdatePayload(oldVip, vip, VipNetworkInfo(st, oldVip).value, VipNetworkInfo(st, vip).value))]
  {
    match PoolAgent(st, vip.poolId)
    case Failure(e) => Outcome(st, [], Failure(e))
    case Success(agent) =>
      match VipNetworkInfo(st, oldVip)
      case Failure(e) => Outcome(st, [], Failure(e))
      case Success(oldNet) =>
        match VipNetworkInfo(st, vip)
        case Failure(e) => Outcome(st, [], Failure(e))
        case Success(net) =>
          Outcome(st, [Cast("update_vip", agent.host, VipUpdatePayload(oldVip, vip, oldNet, net))], Success(()))
  }

  /** Casts a vip delete, then removes the vip record. */
  function DeleteVip(st: Platform, vip: VipRecord): (r: Outcome)
    ensures vip.poolId !in st.hosting ==> r == Outcome(st, [], Failure(NoActiveLbaasAgent(vip.poolId)))
    ensures r.result.Failure? ==> r.events == [] && r.st == st
    ensures r.result.Success? <==> vip.poolId in st.hosting && VipNetworkInfo(st, vip).Success?
    ensures r.result.Success? ==>
      && r.events == [Cast("delete_vip", st.hosting[vip.poolId].host, VipPayload(vip, VipNetworkInfo(st, vip).value)),
                      VipRecordDeleted(vip.id)]
      && r.st == st.(vips := st.vips - {vip.id})
  {
    match PoolAgent(st, vip.poolId)
    case Failure(e) => Outcome(st, [], Failure(e))
    case Success(agent) =>
      match VipNetworkInfo(st, vip)
      case Failure(e) => Outcome(st, [], Failure(e))
      case Success(net) =>
        Outcome(st.(vips := st.vips - {vip.id}),
                [Cast("delete_vip", agent.host, VipPayload(vip, net)), VipRecordDeleted(vip.id)], Success(()))
  }

  // ---------------------------------------------------------------- members

  /** The network info of the pool with the given id. */
  function NetworkInfoOfPool(st: Platform, poolId: string): (r: Result<NetworkInfo, DriverError>)
    ensures poolId !in st.pools ==> r == Failure(PoolNotFound(poolId))
    ensures r.Success? <==> poolId in st.pools && Resolvable(st, st.pools[poolId].subnetId)
    ensures r.Success? ==> DescribesSubnet(st, st.pools[poolId].subnetId, None, r.value)
  {
    match PoolOf(st, poolId)
    case Failure(e) => Failure(e)
    case Success(pool) => PoolNetworkInfo(st, pool)
  }

  /** Casts a member create with its pool's network info. */
  function CreateMember(st: Platform, member: MemberRecord): (r: Outcome)
    ensures r.st == st
    ensures member.poolId !in st.hosting ==> r == Outcome(st, [], Failure(NoActiveLbaasAgent(member.poolId)))
    ensures r.result.Failure? ==> r.events == []
    ensures r.result.Success? <==> member.poolId in st.hosting && NetworkInfoOfPool(st, member.poolId).Success?
    ensures r.result.Success? ==>
      r.events == [Cast("create_member", st.hosting[member.poolId].host,
                        MemberPayload(member, NetworkInfoOfPool(st, member.poolId).value))]
  {
    match PoolAgent(st, member.poolId)
    case Failure(e) => Outcome(st, [], Failure(e))
    case Success(agent) =>
      match NetworkInfoOfPool(st, member.poolId)
      case Failure(e) => Outcome(st, [], Failure(e))
      case Success(net) => Outcome(st, [Cast("create_member", agent.host, MemberPayload(member, net))], Success(()))
  }

  /** Casts a member update with the network info of the old and the new pool. */
  function UpdateMember(st: Platform, oldMember: MemberRecord, member: MemberRecord): (r: Outcome)
    ensures r.st == st
    ensures member.poolId !in st.hosting ==> r == Outcome(st, [], Failure(NoActiveLbaasAgent(member.poolId)))
    ensures r.result.Failure? ==> r.events == []
    ensures r.result.Success? <==>
      (member.poolId in st.hosting && NetworkInfoOfPool(st, oldMember.poolId).Success?
       && NetworkInfoOfPool(st, member.poolId).Success?)
    ensures r.result.Success? ==>
      r.events == [Cast("update_member", st.hosting[member.poolId].host,
                        MemberUpdatePayload(oldMember, member, NetworkInfoOfPool(st, oldMember.poolId).value,
                                            NetworkInfoOfPool(st, member.poolId).value))]
  {
    match PoolAgent(st, member.poolId)
    case Failure(e) => Outcome(st, [], Failure(e))
    case Success(agent) =>
      match PoolOf(st, oldMember.poolId)
      case Failure(e) => Outcome(st, [], Failure(e))
      case Success(oldPool) =>
        match PoolOf(st, member.poolId)
        case Failure(e) => Outcome(st, [], Failure(e))
        case Success(pool) =>
          match PoolNetworkInfo(st, oldPool)
          case Failure(e) => Outcome(st, [], Failure(e))
          case Success(oldNet) =>
            match PoolNetworkInfo(st, pool)
            case Failure(e) => Outcome(st, [], Failure(e))
            case Success(net) =>
              Outcome(st, [Cast("update_member", agent.host, MemberUpdatePayload(oldMember, member, oldNet, net))], Success(()))
  }

  /** Casts a member delete, then removes the member record. */
  function DeleteMember(st: Platform, member: MemberRecord): (r: Outcome)
    ensures member.poolId !in st.hosting ==> r == Outcome(st, [], Failure(NoActiveLbaasAgent(member.poolId)))
    ensures r.result.Failure? ==> r.events == [] && r.st == st
    ensures r.result.Success? <==> member.poolId in st.hosting && NetworkInfoOfPool(st, member.poolId).Success?
    ensures r.result.Success? ==>
      && r.events == [Cast("delete_member", st.hosting[member.poolId].host,
                           MemberPayload(member, NetworkInfoOfPool(st, member.poolId).value)),
                      MemberRecordDeleted(member.id)]
      && r.st == st.(members := st.members - {member.id})
  {
    match PoolAgent(st, member.poolId)
    case Failure(e) => Outcome(st, [], Failure(e))
    case Success(agent) =>
      match NetworkInfoOfPool(st, member.poolId)
      case Failure(e) => Outcome(st, [], Failure(e))
      case Success(net) =>
        Outcome(st.(members := st.members - {member.id}),
                [Cast("delete_member", agent.host, MemberPayload(member, net)), MemberRecordDeleted(member.id)],
                Success(()))
  }

  // ---------------------------------------------------------------- health monitors

  /** Casts the association of a monitor with a pool. */
  function CreatePoolHealthMonitor(st: Platform, monitor: MonitorRecord, poolId: string): (r: Outcome)
    ensures r.st == st
    ensures poolId !in st.hosting ==> r == Outcome(st, [], Failure(NoActiveLbaasAgent(poolId)))
    ensures r.result.Failure? ==> r.events == []
    ensures r.result.Success? <==> poolId in st.hosting && NetworkInfoOfPool(st, poolId).Success?
    ensures r.result.Success? ==>
      r.events == [Cast("create_pool_health_monitor", st.hosting[poolId].host,
                        MonitorPayload(monitor, poolId, NetworkInfoOfPool(st, poolId).value))]
  {
    match PoolAgent(st, poolId)
    case Failure(e) => Outcome(st, [], Failure(e))
    case Success(agent) =>
      match NetworkInfoOfPool(st, poolId)
      case Failure(e) => Outcome(st, [], Failure(e))
      case Success(net) =>
        Outcome(st, [Cast("create_pool_health_monitor", agent.host, MonitorPayload(monitor, poolId, net))], Success(()))
  }

  /** Casts a monitor update for one pool. */
  function UpdateHealthMonitor(st: Platform, oldMonitor: MonitorRecord, monitor: MonitorRecord, poolId: string): (r: Outcome)
    ensures r.st == st
    ensures poolId !in st.hosting ==> r == Outcome(st, [], Failure(NoActiveLbaasAgent(poolId)))
    ensures r.result.Failure? ==> r.events == []
    ensures r.result.Success? <==> poolId in st.hosting && NetworkInfoOfPool(st, poolId).Success?
    ensures r.result.Success? ==>
      r.events == [Cast("update_health_monitor", st.hosting[poolId].host,
                        MonitorUpdatePayload(oldMonitor, monitor, poolId, NetworkInfoOfPool(st, poolId).value))]
  {
    match PoolAgent(st, poolId)
    case Failure(e) => Outcome(st, [], Failure(e))
    case Success(agent) =>
      match NetworkInfoOfPool(st, poolId)
      case Failure(e) => Outcome(st, [], Failure(e))
      case Success(net) =>
        Outcome(st, [Cast("update_health_monitor", agent.host, MonitorUpdatePayload(oldMonitor, monitor, poolId, net))],
                Success(()))
  }

  /** Casts the removal of a monitor from a pool, then removes the association record. */
  function DeletePoolHealthMonitor(st: Platform, monitor: MonitorRecord, poolId: string): (r: Outcome)
    ensures poolId !in st.hosting ==> r == Outcome(st, [], Failure(NoActiveLbaasAgent(poolId)))
    ensures r.result.Failure? ==> r.events == [] && r.st == st
    ensures r.result.Success? <==> poolId in st.hosting && NetworkInfoOfPool(st, poolId).Success?
    ensures r.result.Success? ==>
      && r.events == [Cast("delete_pool_health_monitor", st.hosting[poolId].host,
                           MonitorPayload(monitor, poolId, NetworkInfoOfPool(st, poolId).value)),
                      MonitorAssociationDeleted(monitor.id, poolId)]
      && r.st == st.(poolMonitors := st.poolMonitors - {(monitor.id, poolId)})
  {
    match PoolAgent(st, poolId)
    case Failure(e) => Outcome(st, [], Failure(e))
    case Success(agent) =>
      match NetworkInfoOfPool(st, poolId)
      case Failure(e) => Outcome(st, [], Failure(e))
      case Success(net) =>
        Outcome(st.(poolMonitors := st.poolMonitors - {(monitor.id, poolId)}),
                [Cast("delete_pool_health_monitor", agent.host, MonitorPayload(monitor, poolId, net)),
                 MonitorAssociationDeleted(monitor.id, poolId)],
                Success(()))
  }
}

=== FILE: netscaler_properties.dfy ===
/**
 The SNAT-port lifecycle across several driver calls: pools on one subnet share one port,
 the port outlives every pool but the last, and a pool moving between subnets takes a port
 along to its new subnet without stealing another subnet's.
 */
module NetScalerProperties {
  import opened Wrappers
  import opened NetScalerState
  import opened SnatPorts
  import opened NetScalerDriver

  /** Port ids are unique in the provider's port list. */
  ghost predicate UniquePortIds(ports: seq<Port>) {
    forall p, q :: p in ports && q in ports && p.id == q.id ==> p == q
  }

  /** Deleting a port whose id nothing carries changes nothing. */
  lemma {:induction false} RemoveAbsentId(ports: seq<Port>, portId: string)
    requires forall p :: p in ports ==> p.id != portId
    ensures RemovePort(ports, portId) == ports
  {
    if |ports| > 0 {
      assert ports == [ports[0]] + ports[1..];
      RemoveAbsentId(ports[1..], portId);
    }
  }

  /** Deleting a port never adds SNAT candidates. */
  lemma RemoveShrinksCandidates(ports: seq<Port>, portId: string, networkId: string, tenantId: string, subnetId: string)
    ensures |SnatCandidates(RemovePort(ports, portId), networkId, tenantId, subnetId)|
      <= |SnatCandidates(ports, networkId, tenantId, subnetId)|
  {
    CandidatesOfRemove(ports, portId, networkId, tenantId, subnetId);
  }

  // ---------------------------------------------------------------- at most one port per subnet

  /**
   Creating a pool keeps every (tenant, subnet) at no more than one SNAT port: the port it
   may add is named after the pool's own subnet and belongs to the pool's tenant.
   */
  lemma CreatePoolKeepsAtMostOne(st: Platform, pool: PoolRecord, scheduled: Option<Agent>, alloc: Allocation,
                                 tenantId: string, subnetId: string)
    requires |SnatPortsOf(st, tenantId, subnetId)| <= 1
    ensures |SnatPortsOf(CreatePool(st, pool, scheduled, alloc).st, tenantId, subnetId)| <= 1
  {
    var r := CreatePool(st, pool, scheduled, alloc);
    if r.st.ports != st.ports {
      // A port was created: the pool's subnet had none and now has exactly one.
      var hosted := st.(hosting := st.hosting[pool.id := scheduled.value]);
      var net := PoolNetworkInfo(hosted, pool).value;
      var ensured := EnsureSnatPort(hosted, pool.tenantId, pool.subnetId, net, alloc).value;
      var added := ensured.events[0].port;
      assert r.st.ports == st.ports + [added];
      if subnetId in st.subnets {
        var networkId := st.subnets[subnetId].networkId;
        CandidatesOfAppend(st.ports, added, networkId, tenantId, subnetId);
        if IsSnatPort(added, networkId, tenantId, subnetId) {
          SnatPortNameInjective(subnetId, pool.subnetId);
          assert |SnatPortsOf(r.st, tenantId, subnetId)| == 1;
        }
      }
    }
  }

  /** Deleting a pool keeps every (tenant, subnet) at no more than one SNAT port. */
  lemma DeletePoolKeepsAtMostOne(st: Platform, pool: PoolRecord, tenantId: string, subnetId: string)
    requires |SnatPortsOf(st, tenantId, subnetId)| <= 1
    ensures |SnatPortsOf(DeletePool(st, pool).st, tenantId, subnetId)| <= 1
  {
    var r := DeletePool(st, pool);
    if r.st.ports != st.ports && subnetId in st.subnets {
      var removed := st.(pools := st.pools - {pool.id}, hosting := st.hosting - {pool.id});
      var victim := SnatPortsOf(removed, pool.tenantId, pool.subnetId)[0];
      assert r.st.ports == RemovePort(st.ports, victim.id);
      RemoveShrinksCandidates(st.ports, victim.id, st.subnets[subnetId].networkId, tenantId, subnetId);
    }
  }

  // ---------------------------------------------------------------- two pools on one subnet

  /**
   Two pools created one after the other on the same subnet share its SNAT port: the second
   create leaves the ports alone and names the port the first one made or found.
   */
  lemma SecondPoolSharesPort(st: Platform, first: PoolRecord, second: PoolRecord, agent1: Agent, agent2: Agent,
                             alloc1: Allocation, alloc2: Allocation)
    requires second.tenantId == first.tenantId && second.subnetId == first.subnetId
    requires CreatePool(st, first, Some(agent1), alloc1).result.Success?
    ensures var mid := CreatePool(st, first, Some(agent1), alloc1).st;
      var r := CreatePool(mid, second, Some(agent2), alloc2);
      && r.result.Success?
      && r.st.ports == mid.ports
      && r.events == [Cast("create_pool", agent2.host, r.events[0].payload)]
      && r.events[0].payload.netinfo.portId == Some(SnatPortsOf(mid, first.tenantId, first.subnetId)[0].id)
  {
    var mid := CreatePool(st, first, Some(agent1), alloc1).st;
    var hosted := mid.(hosting := mid.hosting[second.id := agent2]);
    assert SnatPortsOf(hosted, second.tenantId, second.subnetId) == SnatPortsOf(mid, first.tenantId, first.subnetId);
    assert PoolNetworkInfo(hosted, second).Success?;
    var port := SnatPortsOf(mid, first.tenantId, first.subnetId)[0];
    assert |port.fixedIps| > 0 by {
      var hosted1 := st.(hosting := st.hosting[first.id := agent1]);
      var net1 := PoolNetworkInfo(hosted1, first).value;
      assert EnsureSnatPort(hosted1, first.tenantId, first.subnetId, net1, alloc1).Success?;
    }
  }

  /** Deleting one of two pools on a subnet leaves the subnet's SNAT port in place. */
  lemma DeleteNonLastPoolKeepsPort(st: Platform, pool: PoolRecord, other: string)
    requires other != pool.id && other in st.pools
    requires st.pools[other].tenantId == pool.tenantId && st.pools[other].subnetId == pool.subnetId
    ensures var r := DeletePool(st, pool);
      && r.st.ports == st.ports
      && forall i :: 0 <= i < |r.events| ==> !r.events[i].PortDeleted?
  {
    var removed := st.(pools := st.pools - {pool.id}, hosting := st.hosting - {pool.id});
    assert other in PoolsOnSubnet(removed, pool.tenantId, pool.subnetId);
  }

  /** Deleting the last pool on a subnet deletes its only SNAT port, as the final effect. */
  lemma DeleteLastPoolReleasesPort(st: Platform, pool: PoolRecord)
    requires pool.id in st.hosting && PoolNetworkInfo(st, pool).Success?
    requires PoolsOnSubnet(st, pool.tenantId, pool.subnetId) <= {pool.id}
    requires |SnatPortsOf(st, pool.tenantId, pool.subnetId)| == 1
    ensures var r := DeletePool(st, pool);
      && r.result.Success?
      && SnatPortsOf(r.st, pool.tenantId, pool.subnetId) == []
      && r.events[|r.events| - 1] == PortDeleted(SnatPortsOf(st, pool.tenantId, pool.subnetId)[0].id)
      && r.st.ports == RemovePort(st.ports, SnatPortsOf(st, pool.tenantId, pool.subnetId)[0].id)
  {
    var removed := st.(pools := st.pools - {pool.id}, hosting := st.hosting - {pool.id});
    assert PoolsOnSubnet(removed, pool.tenantId, pool.subnetId) == {};
    assert SnatPortsOf(removed, pool.tenantId, pool.subnetId) == SnatPortsOf(st, pool.tenantId, pool.subnetId);
    ReleaseLastPortEmpties(removed, pool.tenantId, pool.subnetId);
  }

  // ---------------------------------------------------------------- a pool changing subnet

  /**
   A pool moving to a subnet that has no SNAT port yet, while another pool of the tenant
   stays on the old subnet: a port is created on the new subnet before the update is cast,
   and the old subnet keeps its port.
   */
  lemma MoveWithRemainingPoolKeepsOldPort(st: Platform, oldPool: PoolRecord, pool: PoolRecord,
                                          alloc: Allocation, other: string)
    requires pool.id in st.hosting
    requires PoolNetworkInfo(st, oldPool).Success? && PoolNetworkInfo(st, pool).Success?
    requires pool.subnetId != oldPool.subnetId
    requires |SnatPortsOf(st, pool.tenantId, pool.subnetId)| == 0
    requires other in PoolsOnSubnet(st, oldPool.tenantId, oldPool.subnetId)
    ensures var r := UpdatePool(st, oldPool, pool, alloc);
      && r.result.Success?
      && |r.events| == 2
      && r.events[0].PortCreated? && r.events[0].port.name == SnatPortName(pool.subnetId)
      && r.events[1].Cast? && r.events[1].rpc == "update_pool"
      && r.events[1].payload.netinfo.portId == Some(alloc.portId)
      && SnatPortsOf(r.st, oldPool.tenantId, oldPool.subnetId) == SnatPortsOf(st, oldPool.tenantId, oldPool.subnetId)
      && |SnatPortsOf(r.st, pool.tenantId, pool.subnetId)| == 1
  {
    var net := PoolNetworkInfo(st, pool).value;
    var ensured := EnsureSnatPort(st, pool.tenantId, pool.subnetId, net, alloc).value;
    assert PoolsOnSubnet(ensured.st, oldPool.tenantId, oldPool.subnetId) != {};
    var added := ensured.events[0].port;
    var oldNetwork := st.subnets[oldPool.subnetId].networkId;
    CandidatesOfAppend(st.ports, added, oldNetwork, oldPool.tenantId, oldPool.subnetId);
    if IsSnatPort(added, oldNetwork, oldPool.tenantId, oldPool.subnetId) {
      SnatPortNameInjective(oldPool.subnetId, pool.subnetId);
    }
  }

  /**
   Releasing one subnet's SNAT port leaves every other subnet's SNAT ports as they were,
   provided port ids are unique.
   */
  lemma ReleaseSparesOtherSubnet(st: Platform, tenantId: string, subnetId: string,
                                 otherTenant: string, otherSubnet: string)
    requires otherSubnet != subnetId
    requires UniquePortIds(st.ports)
    requires ReleaseSnatPortIfUnused(st, tenantId, subnetId).Success?
    ensures var released := ReleaseSnatPortIfUnused(st, tenantId, subnetId).value;
      SnatPortsOf(released.st, otherTenant, otherSubnet) == SnatPortsOf(st, otherTenant, otherSubnet)
  {
    var released := ReleaseSnatPortIfUnused(st, tenantId, subnetId).value;
    if released.st.ports != st.ports && otherSubnet in st.subnets {
      var victim := SnatPortsOf(st, tenantId, subnetId)[0];
      assert released.st.ports == RemovePort(st.ports, victim.id);
      var otherNetwork := st.subnets[otherSubnet].networkId;
      var others := SnatPortsOf(st, otherTenant, otherSubnet);
      CandidatesOfRemove(st.ports, victim.id, otherNetwork, otherTenant, otherSubnet);
      forall q | q in others
        ensures q.id != victim.id
      {
        if q.name == victim.name {
          SnatPortNameInjective(otherSubnet, subnetId);
        }
      }
      RemoveAbsentId(others, victim.id);
    }
  }

  /** Appending a port with an unused id keeps port ids unique. */
  lemma AppendFreshKeepsUnique(ports: seq<Port>, added: Port)
    requires UniquePortIds(ports)
    requires forall p :: p in ports ==> p.id != added.id
    ensures UniquePortIds(ports + [added])
  {
  }

  /**
   The port side of moving the tenant's last pool off a subnet, for one without a SNAT
   port: one port is created on the new subnet, then the old subnet's only port is deleted.
   */
  lemma LastPoolMoveOfPorts(st: Platform, oldPool: PoolRecord, pool: PoolRecord, net: NetworkInfo,
                            alloc: Allocation)
    requires pool.subnetId != oldPool.subnetId && pool.subnetId in st.subnets && oldPool.subnetId in st.subnets
    requires PoolsOnSubnet(st, oldPool.tenantId, oldPool.subnetId) == {}
    requires |SnatPortsOf(st, oldPool.tenantId, oldPool.subnetId)| == 1
    requires |SnatPortsOf(st, pool.tenantId, pool.subnetId)| == 0
    requires UniquePortIds(st.ports) && forall p :: p in st.ports ==> p.id != alloc.portId
    ensures var m := MoveSnatPort(st, oldPool, pool, net, alloc);
      && m.error.None?
      && |m.events| == 2 && m.events[0].PortCreated? && m.events[1].PortDeleted?
      && SnatPortsOf(m.st, oldPool.tenantId, oldPool.subnetId) == []
      && |SnatPortsOf(m.st, pool.tenantId, pool.subnetId)| == 1
  {
    var ensured := EnsureSnatPort(st, pool.tenantId, pool.subnetId, net, alloc).value;
    var added := ensured.events[0].port;
    var mid := ensured.st;
    assert mid.ports == st.ports + [added];
    var oldNetwork := st.subnets[oldPool.subnetId].networkId;
    // The new port is no candidate on the old subnet.
    CandidatesOfAppend(st.ports, added, oldNetwork, oldPool.tenantId, oldPool.subnetId);
    if IsSnatPort(added, oldNetwork, oldPool.tenantId, oldPool.subnetId) {
      SnatPortNameInjective(oldPool.subnetId, pool.subnetId);
    }
    assert SnatPortsOf(mid, oldPool.tenantId, oldPool.subnetId) == SnatPortsOf(st, oldPool.tenantId, oldPool.subnetId);
    assert PoolsOnSubnet(mid, oldPool.tenantId, oldPool.subnetId) == {};
    ReleaseLastPortEmpties(mid, oldPool.tenantId, oldPool.subnetId);
    AppendFreshKeepsUnique(st.ports, added);
    ReleaseSparesOtherSubnet(mid, oldPool.tenantId, oldPool.subnetId, pool.tenantId, pool.subnetId);
    assert MoveSnatPort(st, oldPool, pool, net, alloc) == ReleaseAfterEnsure(st, ensured, oldPool, alloc);
  }

  /**
   A pool leaving a subnet where it was the tenant's last pool, for one without a SNAT port:
   the new subnet gains a port and the old one loses its only port, before the update is
   cast. Port ids must be unique and the provider's new id unused, or deleting by id could
   take the new port as well.
   */
  lemma MoveOfLastPoolMovesPort(st: Platform, oldPool: PoolRecord, pool: PoolRecord, alloc: Allocation)
    requires pool.id in st.hosting
    requires PoolNetworkInfo(st, oldPool).Success? && PoolNetworkInfo(st, pool).Success?
    requires pool.subnetId != oldPool.subnetId
    requires PoolsOnSubnet(st, oldPool.tenantId, oldPool.subnetId) == {}
    requires |SnatPortsOf(st, oldPool.tenantId, oldPool.subnetId)| == 1
    requires |SnatPortsOf(st, pool.tenantId, pool.subnetId)| == 0
    requires UniquePortIds(st.ports) && forall p :: p in st.ports ==> p.id != alloc.portId
    ensures var r := UpdatePool(st, oldPool, pool, alloc);
      && r.result.Success?
      && |r.events| == 3
      && r.events[0].PortCreated? && r.events[1].PortDeleted? && r.events[2].Cast?
      && SnatPortsOf(r.st, oldPool.tenantId, oldPool.subnetId) == []
      && |SnatPortsOf(r.st, pool.tenantId, pool.subnetId)| == 1
  {
    var net := PoolNetworkInfo(st, pool).value;
    LastPoolMoveOfPorts(st, oldPool, pool, net, alloc);
    var moved := MoveSnatPort(st, oldPool, pool, net, alloc);
    var host := st.hosting[pool.id].host;
    var oldNet := PoolNetworkInfo(st, oldPool).value;
    assert UpdatePool(st, oldPool, pool, alloc) == CastAfterMove(st, moved, host, oldPool, pool, oldNet, alloc);
  }

  // ---------------------------------------------------------------- create and delete as a pair

  /**
   On a subnet without a SNAT port, a successful pool create adds exactly the allocated
   port, which becomes the subnet's only SNAT port; nothing else but the pool's host changes.
   */
  lemma CreateOnPortlessSubnet(st: Platform, pool: PoolRecord, agent: Agent, alloc: Allocation)
    requires Resolvable(st, pool.subnetId)
    requires SnatPortsOf(st, pool.tenantId, pool.subnetId) == []
    ensures var c := CreatePool(st, pool, Some(agent), alloc);
      && c.result.Success?
      && |c.events| == 2 && c.events[0].PortCreated? && c.events[0].port.id == alloc.portId
      && c.st == st.(hosting := st.hosting[pool.id := agent], ports := st.ports + [c.events[0].port])
      && SnatPortsOf(c.st, pool.tenantId, pool.subnetId) == [c.events[0].port]
  {
    var c := CreatePool(st, pool, Some(agent), alloc);
    var created := c.events[0].port;
    var ports := SnatPortsOf(c.st, pool.tenantId, pool.subnetId);
    assert ports[0] == created by {
      assert ports[0] in c.st.ports;
      assert ports[0] !in st.ports;
    }
  }

  /**
   Creating the only pool of a subnet that has no SNAT port, then deleting it, gives the
   provider its port list back: the port created for the pool (see CreateOnPortlessSubnet)
   is the one deleted, and the delete is cast to the host the create scheduled.
   */
  lemma CreateThenDeleteOnlyPoolRestoresPorts(st: Platform, pool: PoolRecord, agent: Agent, alloc: Allocation)
    requires Resolvable(st, pool.subnetId)
    requires SnatPortsOf(st, pool.tenantId, pool.subnetId) == []
    requires PoolsOnSubnet(st, pool.tenantId, pool.subnetId) <= {pool.id}
    requires forall p :: p in st.ports ==> p.id != alloc.portId
    ensures var c := CreatePool(st, pool, Some(agent), alloc);
      var d := DeletePool(c.st, pool);
      && c.result.Success? && d.result.Success?
      && d.events[0].host == agent.host
      && d.events[|d.events| - 1] == PortDeleted(alloc.portId)
      && d.st.ports == st.ports
  {
    CreateOnPortlessSubnet(st, pool, agent, alloc);
    var c := CreatePool(st, pool, Some(agent), alloc);
    var created := c.events[0].port;
    assert PoolsOnSubnet(c.st, pool.tenantId, pool.subnetId) == PoolsOnSubnet(st, pool.tenantId, pool.subnetId);
    DeleteLastPoolReleasesPort(c.st, pool);
    RemoveOfConcat(st.ports, [created], alloc.portId);
    RemoveAbsentId(st.ports, alloc.portId);
    assert RemovePort([created], alloc.portId) == [] by {
      assert [created][1..] == [];
    }
  }

  /** A vip that could be created can be deleted, on the same host and with the same network info. */
  lemma CreatedVipDeletes(st: Platform, vip: VipRecord)
    requires CreateVip(st, vip).result.Success?
    ensures var c := CreateVip(st, vip);
      var d := DeleteVip(c.st, vip);
      && d.result.Success?
      && d.events[0].host == c.events[0].host && d.events[0].payload == c.events[0].payload
      && d.st.vips == st.vips - {vip.id}
  {
  }

  /** A member that could be created can be deleted, on the same host and with the same network info. */
  lemma CreatedMemberDeletes(st: Platform, member: MemberRecord)
    requires CreateMember(st, member).result.Success?
    ensures var c := CreateMember(st, member);
      var d := DeleteMember(c.st, member);
      && d.result.Success?
      && d.events[0].host == c.events[0].host && d.events[0].payload == c.events[0].payload
      && d.st.members == st.members - {member.id}
  {
  }

  /**
   A monitor association that could be created can be removed, on the same host and with
   the same network info.
   */
  lemma CreatedHealthMonitorDeletes(st: Platform, monitor: MonitorRecord, poolId: string)
    requires CreatePoolHealthMonitor(st, monitor, poolId).result.Success?
    ensures var c := CreatePoolHealthMonitor(st, monitor, poolId);
      var d := DeletePoolHealthMonitor(c.st, monitor, poolId);
      && d.result.Success?
      && d.events[0].host == c.events[0].host && d.events[0].payload == c.events[0].payload
      && d.st.poolMonitors == st.poolMonitors - {(monitor.id, poolId)}
  {
  }

  /**
   A deleted pool is no longer hosted: deleting it again, or casting a vip for it, fails
   with no active agent and has no effect.
   */
  lemma DeletedPoolIsUnhosted(st: Platform, pool: PoolRecord, vip: VipRecord)
    requires DeletePool(st, pool).result.Success?
    requires vip.poolId == pool.id
    ensures var d := DeletePool(st, pool);
      && pool.id in st.hosting && pool.id !in d.st.hosting
      && DeletePool(d.st, pool) == Outcome(d.st, [], Failure(NoActiveLbaasAgent(pool.id)))
      && CreateVip(d.st, vip) == Outcome(d.st, [], Failure(NoActiveLbaasAgent(pool.id)))
  {
  }
}

=== FILE: netscaler_state.dfy ===
/**
 The platform state the NetScaler plugin driver reads and changes, the messages it casts
 to its agent, and the network-info records those messages carry.
 */
module NetScalerState {
  import opened Wrappers

  datatype Subnet = Subnet(id: string, networkId: string)
  /** A network; the provider attributes are present only on provider networks. */
  datatype Network = Network(id: string, networkType: Option<string>, segmentationId: Option<string>)
  datatype FixedIp = FixedIp(subnetId: string, ipAddress: string)
  datatype Port = Port(id: string, tenantId: string, name: string, networkId: string,
                       adminStateUp: bool, deviceOwner: string, deviceId: string,
                       fixedIps: seq<FixedIp>)

  // Platform records, restricted to the fields the driver reads.
  datatype PoolRecord = PoolRecord(id: string, tenantId: string, subnetId: string)
  datatype VipRecord = VipRecord(id: string, poolId: string, subnetId: string, portId: string)
  datatype MemberRecord = MemberRecord(id: string, poolId: string)
  datatype MonitorRecord = MonitorRecord(id: string)
  datatype Agent = Agent(host: string)

  /**
   The platform as the driver sees it: the network provider (subnets, networks and the port
   list in provider order), the load-balancer database, and the pool-to-agent hosting table.
   */
  datatype Platform = Platform(
    subnets: map<string, Subnet>,
    networks: map<string, Network>,
    ports: seq<Port>,
    pools: map<string, PoolRecord>,
    vips: set<string>,
    members: set<string>,
    poolMonitors: set<(string, string)>,
    hosting: map<string, Agent>)

  /** What the agent is told about the network a vip or pool lives on. */
  datatype NetworkInfo = NetworkInfo(portId: Option<string>, networkId: string, subnetId: string,
                                     networkType: Option<string>, segmentationId: Option<string>,
                                     snatIp: Option<string>)

  datatype DriverError =
    | NoEligibleLbaasAgent(poolId: string)
    | NoActiveLbaasAgent(poolId: string)
    | SubnetNotFound(subnetId: string)
    | NetworkNotFound(networkId: string)
    | PoolNotFound(poolId: string)
    | PortNotFound(portId: string)
    | NoFixedIp(portId: string)        // indexing the fixed ips of a port that has none

  /** A port-creation request, and the provider's choice of id and address for it. */
  datatype FixedIpRequest = FixedIpRequest(subnetId: string, ipAddress: Option<string>)
  datatype PortRequest = PortRequest(tenantId: string, name: string, networkId: string,
                                     adminStateUp: bool, deviceId: string, deviceOwner: string,
                                     fixedIps: seq<FixedIpRequest>)
  datatype Allocation = Allocation(portId: string, ipAddress: string)

  /** The body of a cast to the agent. */
  datatype Payload =
    | PoolPayload(pool: PoolRecord, netinfo: NetworkInfo)
    | PoolUpdatePayload(oldPool: PoolRecord, pool: PoolRecord, oldNetinfo: NetworkInfo, netinfo: NetworkInfo)
    | VipPayload(vip: VipRecord, netinfo: NetworkInfo)
    | VipUpdatePayload(oldVip: VipRecord, vip: VipRecord, oldNetinfo: NetworkInfo, netinfo: NetworkInfo)
    | MemberPayload(member: MemberRecord, netinfo: NetworkInfo)
    | MemberUpdatePayload(oldMember: MemberRecord, member: MemberRecord, oldNetinfo: NetworkInfo, netinfo: NetworkInfo)
    | MonitorPayload(monitor: MonitorRecord, poolId: string, netinfo: NetworkInfo)
    | MonitorUpdatePayload(oldMonitor: MonitorRecord, monitor: MonitorRecord, poolId: string, netinfo: NetworkInfo)

  /** One externally visible effect of the driver, in the order it happens. */
  datatype Event =
    | PortCreated(request: PortRequest, port: Port)
    | PortDeleted(portId: string)
    | PoolRecordDeleted(poolId: string)
    | VipRecordDeleted(vipId: string)
    | MemberRecordDeleted(memberId: string)
    | MonitorAssociationDeleted(monitorId: string, poolId: string)
    | Cast(rpc: string, host: string, payload: Payload)

  /** A driver entry point's result: the platform afterwards, its effects, and the outcome. */
  datatype Outcome = Outcome(st: Platform, events: seq<Event>, result: Result<(), DriverError>)

  /** The two platforms differ at most in their port lists. */
  predicate SameExceptPorts(a: Platform, b: Platform) {
    a.(ports := b.ports) == b
  }

  /** The provider knows the subnet and the subnet's network. */
  predicate Resolvable(st: Platform, subnetId: string) {
    subnetId in st.subnets && st.subnets[subnetId].networkId in st.networks
  }

  /**
   `info` describes the subnet: its network id, the subnet id, the given port, the network's
   provider attributes as the network carries them, and no SNAT address yet.
   */
  predicate DescribesSubnet(st: Platform, subnetId: string, portId: Option<string>, info: NetworkInfo)
    requires Resolvable(st, subnetId)
  {
    var network := st.networks[st.subnets[subnetId].networkId];
    && info.networkId == st.subnets[subnetId].networkId
    && info.subnetId == subnetId
    && info.portId == portId
    && info.networkType == network.networkType
    && info.segmentationId == network.segmentationId
    && info.snatIp.None?
  }

  /**
   Network info for a subnet: the subnet's network, plus the provider attributes when the
   network has them.
   */
  function SubnetNetworkInfo(st: Platform, subnetId: string, portId: Option<string>): (r: Result<NetworkInfo, DriverError>)
    ensures subnetId !in st.subnets ==> r == Failure(SubnetNotFound(subnetId))
    ensures r.Success? <==> Resolvable(st, subnetId)
    ensures subnetId in st.subnets && r.Failure? ==>
      r.error == NetworkNotFound(st.subnets[subnetId].networkId)
    ensures r.Success? ==> DescribesSubnet(st, subnetId, portId, r.value)
  {
    if subnetId !in st.subnets then Failure(SubnetNotFound(subnetId))
    else
      var networkId := st.subnets[subnetId].networkId;
      if networkId !in st.networks then Failure(NetworkNotFound(networkId))
      else
        var network := st.networks[networkId];
        Success(NetworkInfo(portId, networkId, subnetId, network.networkType, network.segmentationId, None))
  }

  /** Network info for a pool carries no port. */
  function PoolNetworkInfo(st: Platform, pool: PoolRecord): (r: Result<NetworkInfo, DriverError>)
    ensures r.Success? <==> Resolvable(st, pool.subnetId)
    ensures r.Success? ==> DescribesSubnet(st, pool.subnetId, None, r.value)
    ensures pool.subnetId !in st.subnets ==> r == Failure(SubnetNotFound(pool.subnetId))
    ensures pool.subnetId in st.subnets && r.Failure? ==>
      r.error == NetworkNotFound(st.subnets[pool.subnetId].networkId)
  {
    SubnetNetworkInfo(st, pool.subnetId, None)
  }

  /** Network info for a vip also names the vip's port. */
  function VipNetworkInfo(st: Platform, vip: VipRecord): (r: Result<NetworkInfo, DriverError>)
    ensures r.Success? <==> Resolvable(st, vip.subnetId)
    ensures r.Success? ==> DescribesSubnet(st, vip.subnetId, Some(vip.portId), r.value)
    ensures vip.subnetId !in st.subnets ==> r == Failure(SubnetNotFound(vip.subnetId))
    ensures vip.subnetId in st.subnets && r.Failure? ==>
      r.error == NetworkNotFound(st.subnets[vip.subnetId].networkId)
  {
    SubnetNetworkInfo(st, vip.subnetId, Some(vip.portId))
  }

  /** The network info of a vip is that of its subnet with the vip's port added. */
  lemma VipInfoExtendsSubnetInfo(st: Platform, vip: VipRecord, pool: PoolRecord)
    requires pool.subnetId == vip.subnetId
    ensures VipNetworkInfo(st, vip).Success? <==> PoolNetworkInfo(st, pool).Success?
    ensures VipNetworkInfo(st, vip).Success? ==>
      VipNetworkInfo(st, vip).value == PoolNetworkInfo(st, pool).value.(portId := Some(vip.portId))
  {
  }

  /** The agent hosting a pool (`get_pool_agent`). */
  function PoolAgent(st: Platform, poolId: string): (r: Result<Agent, DriverError>)
    ensures r.Success? <==> poolId in st.hosting
    ensures r.Success? ==> r.value == st.hosting[poolId]
    ensures r.Failure? ==> r.error == NoActiveLbaasAgent(poolId)
  {
    if poolId in st.hosting then Success(st.hosting[poolId]) else Failure(NoActiveLbaasAgent(poolId))
  }

  /** A pool record from the database (`plugin.get_pool`). */
  function PoolOf(st: Platform, poolId: string): (r: Result<PoolRecord, DriverError>)
    ensures r.Success? <==> poolId in st.pools
    ensures r.Success? ==> r.value == st.pools[poolId]
    ensures r.Failure? ==> r.error == PoolNotFound(poolId)
  {
    if poolId in st.pools then Success(st.pools[poolId]) else Failure(PoolNotFound(poolId))
  }
}

=== FILE: rest_client.dfy ===
/**
 The NetScaler REST client: building a client from a URI and credentials, deciding whether a
 reply status is good, turning a reply into a response record, and the four verbs' request
 shapes and status handling. The URI parser, the base64 encoder, the XML serializer and the
 connection are outside the model: their results are inputs or symbolic values.
 */
module RestClient {
  import opened Wrappers

  // ---------------------------------------------------------------- text helpers

  /** The index of the first `c` in `s`, or -1. */
  function IndexOf(s: string, c: char): (i: int)
    ensures -1 <= i < |s|
    ensures i >= 0 ==> s[i] == c && c !in s[..i]
    ensures i < 0 ==> c !in s
  {
    if |s| == 0 then -1
    else if s[0] == c then 0
    else
      var j := IndexOf(s[1..], c);
      if j < 0 then -1
      else
        assert s[..j + 1] == [s[0]] + s[1..][..j];
        j + 1
  }

  /** A position holding `c` with no `c` before it is the one found. */
  lemma {:induction false} IndexOfFirst(s: string, c: char, k: int)
    requires 0 <= k < |s| && s[k] == c && c !in s[..k]
    ensures IndexOf(s, c) == k
  {
    if k > 0 {
      assert s[..k][0] == s[0];
      assert s[1..][..k - 1] == s[..k][1..];
      IndexOfFirst(s[1..], c, k - 1);
    }
  }

  /** `s.split(sep)`: the pieces between separators, at least one. */
  function Split(s: string, sep: char): (parts: seq<string>)
    ensures |parts| >= 1
    ensures forall i :: 0 <= i < |parts| ==> sep !in parts[i]
    ensures sep !in s ==> parts == [s]
    decreases |s|
  {
    var i := IndexOf(s, sep);
    if i < 0 then [s]
    else
      var rest := Split(s[i + 1..], sep);
      var parts := [s[..i]] + rest;
      assert forall j :: 1 <= j < |parts| ==> parts[j] == rest[j - 1];
      parts
  }

  /** `sep.join(parts)`. */
  function Join(parts: seq<string>, sep: char): string
    requires |parts| >= 1
  {
    if |parts| == 1 then parts[0] else parts[0] + [sep] + Join(parts[1..], sep)
  }

  /** Joining a piece in front of others puts a separator between. */
  lemma JoinCons(first: string, rest: seq<string>, sep: char)
    requires |rest| >= 1
    ensures Join([first] + rest, sep) == first + [sep] + Join(rest, sep)
  {
    assert ([first] + rest)[1..] == rest;
  }

  /** Text is what precedes a position, the character there, and what follows. */
  lemma AroundIndex(s: string, i: int)
    requires 0 <= i < |s|
    ensures s == s[..i] + [s[i]] + s[i + 1..]
  {
    assert s[i..] == [s[i]] + s[i + 1..];
    assert s == s[..i] + s[i..];
  }

  /** Text around its first separator. */
  lemma SplitAtFirst(s: string, sep: char, i: int)
    requires i == IndexOf(s, sep) && i >= 0
    ensures s == s[..i] + [sep] + s[i + 1..]
    ensures Split(s, sep) == [s[..i]] + Split(s[i + 1..], sep)
  {
    AroundIndex(s, i);
  }

  /** Splitting and joining back gives the original text. */
  lemma {:induction false} JoinSplit(s: string, sep: char)
    ensures Join(Split(s, sep), sep) == s
    decreases |s|
  {
    var i := IndexOf(s, sep);
    if i >= 0 {
      var rest := s[i + 1..];
      SplitAtFirst(s, sep, i);
      JoinSplit(rest, sep);
      JoinCons(s[..i], Split(rest, sep), sep);
    }
  }

  /** Joining separator-free pieces and splitting again gives the pieces back. */
  lemma {:induction false} SplitJoin(parts: seq<string>, sep: char)
    requires |parts| >= 1
    requires forall i :: 0 <= i < |parts| ==> sep !in parts[i]
    ensures Split(Join(parts, sep), sep) == parts
  {
    if |parts| > 1 {
      var first := parts[0];
      var tail := parts[1..];
      assert parts == [first] + tail;
      JoinCons(first, tail, sep);
      var s := Join(parts, sep);
      var rest := Join(tail, sep);
      assert s[..|first|] == first && s[|first|] == sep && s[|first| + 1..] == rest;
      IndexOfFirst(s, sep, |first|);
      SplitAtFirst(s, sep, |first|);
      SplitJoin(tail, sep);
    }
  }

  /** ASCII lower case; the only schemes compared against are ASCII. */
  function Lower(s: string): (r: string)
    ensures |r| == |s|
    ensures forall i :: 0 <= i < |s| ==> ('A' <= s[i] <= 'Z' ==> r[i] as int == s[i] as int + 32)
    ensures forall i :: 0 <= i < |s| ==> (!('A' <= s[i] <= 'Z') ==> r[i] == s[i])
  {
    if |s| == 0 then []
    else [if 'A' <= s[0] <= 'Z' then (s[0] as int + 32) as char else s[0]] + Lower(s[1..])
  }

  /** Encoding to ASCII, dropping what does not fit. */
  function AsciiOnly(s: string): (r: string)
    ensures forall c :: c in r <==> c in s && c as int < 128
    ensures |r| <= |s|
  {
    if |s| == 0 then []
    else (if s[0] as int < 128 then [s[0]] else []) + AsciiOnly(s[1..])
  }

  /** The encoding works character by character: a character is kept exactly when it is ASCII. */
  lemma AsciiOnlyOfChar(c: char)
    ensures AsciiOnly([c]) == (if c as int < 128 then [c] else [])
  {
    assert [c][1..] == [];
  }

  /** The encoding distributes over concatenation, so it keeps the order and multiplicity of what it keeps. */
  lemma {:induction false} AsciiOnlyOfConcat(s: string, t: string)
    ensures AsciiOnly(s + t) == AsciiOnly(s) + AsciiOnly(t)
  {
    if |s| > 0 {
      assert (s + t)[0] == s[0];
      assert (s + t)[1..] == s[1..] + t;
      AsciiOnlyOfConcat(s[1..], t);
    } else {
      assert s + t == t;
    }
  }

  /** Text that is already ASCII survives the encoding. */
  lemma {:induction false} AsciiOnlyKeepsAscii(s: string)
    requires forall i :: 0 <= i < |s| ==> s[i] as int < 128
    ensures AsciiOnly(s) == s
  {
    if |s| > 0 {
      AsciiOnlyKeepsAscii(s[1..]);
    }
  }

  // ---------------------------------------------------------------- the client

  datatype Protocol = Http | Https
  /** The port as written in the URI, or the scheme's default. */
  datatype PortSetting = Given(text: string) | DefaultPort(number: nat)
  /** Basic credentials; the header carries their base64 form, which is left symbolic. */
  datatype Credentials = Basic(username: string, password: string)

  /** What the URI parser returns for the three parts the client reads. */
  datatype UriParts = UriParts(scheme: string, netloc: string, path: string)

  datatype Client = Client(uri: string, host: string, port: PortSetting, protocol: Protocol,
                           servicePath: string, auth: Option<Credentials>,
                           headers: map<string, string>, plurals: map<string, string>, isProxy: bool)

  datatype RestError =
    | NoUri                 // the constructor's plain exception for a missing URI
    | ServiceUnavailable
    | LookupFailure         // a lookup error that escapes the verb untranslated
    | UnboundRequestBody    // reading a request body that was never assigned

  const HttpDefaultPort: nat := 80
  const HttpsDefaultPort: nat := 443

  /**
   Builds a client. `parts` is the parse of `uri`; `unicodeUri` says whether the URI was a
   unicode string, whose host and port are then narrowed to ASCII. A URI that is absent or
   empty fails before anything else; an unknown scheme fails after the host is taken apart.
   */
  function Init(uri: Option<string>, parts: UriParts, unicodeUri: bool, username: Option<string>,
                password: Option<string>, plurals: Option<map<string, string>>,
                headers: Option<map<string, string>>, isProxy: bool): (r: Result<Client, RestError>)
    ensures uri.None? || uri == Some("") ==> r == Failure(NoUri)
    ensures r.Success? <==> uri.Some? && uri.value != "" && Lower(parts.scheme) in {"http", "https"}
    ensures r.Failure? && uri.Some? && uri.value != "" ==> r.error == ServiceUnavailable
    ensures r.Success? ==>
      && r.value.uri == uri.value
      && r.value.servicePath == parts.path
      && r.value.isProxy == isProxy
      && (r.value.protocol == Http <==> Lower(parts.scheme) == "http")
      && (r.value.auth.Some? <==> username.Some? && password.Some?)
      && (r.value.auth.Some? ==> r.value.auth.value == Basic(username.value, password.value))
      && r.value.plurals == (if plurals.Some? then plurals.value else map[])
      && r.value.headers == (if headers.Some? then headers.value else map[])
      && ':' !in r.value.host
      && (r.value.port.Given? ==> r.value.port.text != "" && ':' !in r.value.port.text)
      && (r.value.port.DefaultPort? ==>
            r.value.port.number == (if r.value.protocol == Http then HttpDefaultPort else HttpsDefaultPort))
    ensures r.Success? ==> TakesHostPort(r.value, parts.netloc, unicodeUri)
  {
    if uri.None? || uri.value == "" then Failure(NoUri)
    else Build(uri.value, Lower(parts.scheme), parts.netloc, parts.path, unicodeUri, username, password,
               plurals, headers, isProxy)
  }

  /** Unicode text is narrowed to ASCII; a byte string is kept as it is. */
  function Narrow(s: string, unicodeUri: bool): string {
    if unicodeUri then AsciiOnly(s) else s
  }

  /**
   The host is the netloc's first colon-separated piece and the port its second, each
   narrowed for a unicode URI; later pieces are ignored, and a missing or empty port
   falls back to the scheme's default.
   */
  predicate TakesHostPort(c: Client, netloc: string, unicodeUri: bool) {
    var pieces := Split(netloc, ':');
    && |pieces| >= 1
    && c.host == Narrow(pieces[0], unicodeUri)
    && (c.port.Given? <==> |pieces| > 1 && Narrow(pieces[1], unicodeUri) != "")
    && (c.port.Given? ==> c.port.text == Narrow(pieces[1], unicodeUri))
  }

  /** The constructor past its URI check, given the lower-cased scheme. */
  function Build(uri: string, scheme: string, netloc: string, path: string, unicodeUri: bool,
                 username: Option<string>, password: Option<string>, plurals: Option<map<string, string>>,
                 headers: Option<map<string, string>>, isProxy: bool): (r: Result<Client, RestError>)
    ensures r.Success? <==> scheme == "http" || scheme == "https"
    ensures r.Failure? ==> r.error == ServiceUnavailable
    ensures r.Success? ==> (r.value.protocol == Http <==> scheme == "http") && r.value.uri == uri
    ensures r.Success? ==> TakesHostPort(r.value, netloc, unicodeUri)
  {
    var hostPort := Split(netloc, ':');
    var host := if unicodeUri then AsciiOnly(hostPort[0]) else hostPort[0];
    var portText := if |hostPort| > 1 then (if unicodeUri then AsciiOnly(hostPort[1]) else hostPort[1]) else "";
    if scheme != "http" && scheme != "https" then Failure(ServiceUnavailable)
    else
      var protocol := if scheme == "http" then Http else Https;
      var port := if portText != "" then Given(portText)
                  else DefaultPort(if protocol == Http then HttpDefaultPort else HttpsDefaultPort);
      var auth := if username.Some? && password.Some? then Some(Basic(username.value, password.value)) else None;
      Success(Client(uri, host, port, protocol, path, auth,
                     if headers.Some? then headers.value else map[],
                     if plurals.Some? then plurals.value else map[], isProxy))
  }

  /** A client built from `scheme://host:port/path` has exactly that host and port. */
  lemma HostPortRoundTrip(uri: string, scheme: string, host: string, port: string, path: string,
                          username: Option<string>, password: Option<string>)
    requires uri != "" && Lower(scheme) in {"http", "https"}
    requires ':' !in host && ':' !in port && port != ""
    ensures var r := Init(Some(uri), UriParts(scheme, host + ":" + port, path), false, username, password, None, None, false);
      r.Success? && r.value.host == host && r.value.port == Given(port) && r.value.servicePath == path
  {
    SplitJoin([host, port], ':');
    assert Join([host, port], ':') == host + ":" + port by {
      assert [host, port][1..] == [port];
    }
  }

  /** Splitting text that starts with a separator-free piece and a separator yields that piece first. */
  lemma SplitAfterPiece(a: string, rest: string, sep: char)
    requires sep !in a
    ensures Split(a + [sep] + rest, sep) == [a] + Split(rest, sep)
  {
    var s := a + [sep] + rest;
    assert s[..|a|] == a && s[|a|] == sep && s[|a| + 1..] == rest;
    IndexOfFirst(s, sep, |a|);
    SplitAtFirst(s, sep, |a|);
  }

  /** A netloc with more than one colon gives its first two pieces as host and port; the rest is dropped. */
  lemma ExtraColonPiecesDropped(uri: string, scheme: string, host: string, port: string, rest: string, path: string)
    requires uri != "" && Lower(scheme) in {"http", "https"}
    requires ':' !in host && ':' !in port && port != ""
    ensures var r := Init(Some(uri), UriParts(scheme, host + ":" + port + ":" + rest, path), false,
                          None, None, None, None, false);
      r.Success? && r.value.host == host && r.value.port == Given(port)
  {
    assert host + ":" + port + ":" + rest == host + [':'] + (port + [':'] + rest);
    SplitAfterPiece(host, port + [':'] + rest, ':');
    SplitAfterPiece(port, rest, ':');
  }

  /** For a unicode URI, the non-ASCII characters of the host are dropped and the others kept in order. */
  lemma UnicodeHostNarrowed(uri: string, scheme: string, host: string, path: string)
    requires uri != "" && Lower(scheme) in {"http", "https"}
    requires ':' !in host
    ensures var r := Init(Some(uri), UriParts(scheme, host, path), true, None, None, None, None, false);
      r.Success? && r.value.host == AsciiOnly(host)
  {
  }

  /** Without a port in the URI the client uses the scheme's default. */
  lemma DefaultPortBySchemes(uri: string, scheme: string, host: string, path: string)
    requires uri != "" && Lower(scheme) in {"http", "https"}
    requires ':' !in host
    ensures var r := Init(Some(uri), UriParts(scheme, host, path), false, None, None, None, None, false);
      && r.Success? && r.value.host == host
      && r.value.port == DefaultPort(if Lower(scheme) == "http" then 80 else 443)
  {
  }

  /** The scheme is matched without regard to case. */
  lemma LowerIdempotent(s: string)
    ensures Lower(Lower(s)) == Lower(s)
  {
    var once := Lower(s);
    var twice := Lower(once);
    forall i | 0 <= i < |s|
      ensures twice[i] == once[i]
    {
      if 'A' <= s[i] <= 'Z' {
        assert once[i] as int == s[i] as int + 32;
      }
    }
  }

  lemma SchemeCaseInsensitive(uri: Option<string>, parts: UriParts, unicodeUri: bool, username: Option<string>,
                              password: Option<string>, plurals: Option<map<string, string>>,
                              headers: Option<map<string, string>>, isProxy: bool)
    ensures Init(uri, parts, unicodeUri, username, password, plurals, headers, isProxy)
      == Init(uri, parts.(scheme := Lower(parts.scheme)), unicodeUri, username, password, plurals, headers, isProxy)
  {
    LowerIdempotent(parts.scheme);
  }

  /** `update_headers`: new headers override the client's, and a falsy update changes nothing. */
  function UpdateHeaders(c: Client, headers: map<string, string>): (r: Client)
    ensures r.(headers := c.headers) == c
    ensures forall k :: k in r.headers <==> k in c.headers || k in headers
    ensures forall k :: k in headers ==> r.headers[k] == headers[k]
    ensures forall k :: k in c.headers && k !in headers ==> r.headers[k] == c.headers[k]
  {
    if |headers| == 0 then c else c.(headers := c.headers + headers)
  }

  /** Applying the same header update twice is applying it once. */
  lemma UpdateHeadersIdempotent(c: Client, headers: map<string, string>)
    ensures UpdateHeaders(UpdateHeaders(c, headers), headers) == UpdateHeaders(c, headers)
  {
  }

  /** A header map is empty exactly when it has no entries. */
  lemma EmptyHeaders(m: map<string, string>)
    ensures |m| == 0 <==> m == map[]
  {
    if |m| != 0 {
      var k :| k in m;
    }
  }

  /** Two header updates in a row are one update with the later one's values winning. */
  lemma UpdateHeadersCompose(c: Client, first: map<string, string>, second: map<string, string>)
    ensures UpdateHeaders(UpdateHeaders(c, first), second) == UpdateHeaders(c, first + second)
  {
    EmptyHeaders(first);
    EmptyHeaders(second);
    EmptyHeaders(first + second);
    if first == map[] {
      assert first + second == second;
    } else if second == map[] {
      assert first + second == first;
    } else {
      assert first + second != map[] by {
        var k :| k in first;
        assert k in first + second;
      }
      MergeAssociative(c.headers, first, second);
    }
  }

  /** Map override is associative. */
  lemma MergeAssociative(a: map<string, string>, b: map<string, string>, c: map<string, string>)
    ensures a + b + c == a + (b + c)
  {
  }

  // ---------------------------------------------------------------- replies

  /** A status is good when it is below 400 (Bad Request). */
  function IsValidResponse(status: int): (ok: bool)
    ensures ok <==> status < 400
  {
    status < 400
  }

  /**
   Good statuses are exactly the informational, successful and redirection classes of
   section 6 of RFC 7231; the client and server error classes are not.
   */
  lemma ValidResponseClasses(status: int)
    requires 100 <= status <= 599
    ensures IsValidResponse(status) <==> status / 100 in {1, 2, 3}
    ensures !IsValidResponse(status) <==> status / 100 in {4, 5}
  {
  }

  datatype Response = Response(status: int, body: string, headers: seq<(string, string)>)

  /** The parsed form of a reply body: raw text, or the serializer's reading under its plurals. */
  datatype Parsed = RawBody(text: string) | Deserialized(text: string, plurals: map<string, string>)

  datatype ResponseDict = ResponseDict(status: int, body: string, headers: seq<(string, string)>, parsed: Option<Parsed>)

  /**
   The response record: status, body and headers copied, plus a parsed body for good,
   non-empty replies (deserialized when a serializer with its plurals is given).
   */
  function GetResponseDict(response: Response, serializer: Option<map<string, string>>): (d: ResponseDict)
    ensures d.status == response.status && d.body == response.body && d.headers == response.headers
    ensures d.parsed.Some? <==> IsValidResponse(response.status) && |response.body| > 0
    ensures d.parsed.Some? ==> d.parsed.value.text == response.body
    ensures d.parsed.Some? ==> (d.parsed.value.Deserialized? <==> serializer.Some?)
    ensures d.parsed.Some? && serializer.Some? ==> d.parsed.value.plurals == serializer.value
  {
    var parsed :=
      if IsValidResponse(response.status) && |response.body| > 0 then
        if serializer.Some? then Some(Deserialized(response.body, serializer.value)) else Some(RawBody(response.body))
      else None;
    ResponseDict(response.status, response.body, response.headers, parsed)
  }

  // ---------------------------------------------------------------- requests

  /** A header value: text, the basic-auth value of some credentials, or none at all. */
  datatype HeaderValue = Text(text: string) | BasicAuth(credentials: Credentials) | NoValue

  /** What an object to send is: text, a structure for the serializer (empty is falsy), or nothing. */
  datatype ObjectData = Str(text: string) | Structured(fields: map<string, string>) | NoData

  datatype Body = RawText(text: string) | SerializedBody(objectName: string, fields: map<string, string>, plurals: map<string, string>)

  datatype Request = Request(verb: string, path: string, headers: map<string, HeaderValue>, body: Option<Body>)

  /** How the exchange with the appliance went: a reply, or a lookup error while reading it. */
  datatype Exchange = Answered(response: Response) | LookupFailed

  /** A verb's effect: the request it sent, if it got that far, and what it returned or raised. */
  datatype Call = Call(request: Option<Request>, result: Result<(int, ResponseDict), RestError>)

  /** The path of a resource below the service path. */
  function RequestPath(c: Client, resourcePath: string): (path: string)
    ensures |path| == |c.servicePath| + 1 + |resourcePath|
    ensures path[..|c.servicePath|] == c.servicePath
    ensures path[|c.servicePath|] == '/'
    ensures path[|c.servicePath| + 1..] == resourcePath
  {
    c.servicePath + "/" + resourcePath
  }

  /** The request headers: XML content, the authorization value, then the client's own headers on top. */
  function RequestHeaders(c: Client): (h: map<string, HeaderValue>)
    ensures forall k :: k in c.headers ==> k in h && h[k] == Text(c.headers[k])
    ensures forall k :: k in h <==> k in c.headers || k in {"Content-Type", "Accept", "Authorization"}
    ensures "Authorization" !in c.headers ==>
      h["Authorization"] == (if c.auth.Some? then BasicAuth(c.auth.value) else NoValue)
    ensures "Content-Type" !in c.headers ==> h["Content-Type"] == Text("application/xml")
    ensures "Accept" !in c.headers ==> h["Accept"] == Text("application/xml")
  {
    var defaults := map["Content-Type" := Text("application/xml"), "Accept" := Text("application/xml"),
                        "Authorization" := if c.auth.Some? then BasicAuth(c.auth.value) else NoValue];
    defaults + map k | k in c.headers :: Text(c.headers[k])
  }

  /**
   The body to send and the serializer to read the reply with: text goes as it is, a
   non-empty structure is serialized, and anything falsy is sent as an empty body.
   */
  function RequestBody(c: Client, objectName: string, data: ObjectData): (r: (Body, Option<map<string, string>>))
    ensures r.1.Some? <==> data.Structured? && |data.fields| > 0
    ensures r.1.Some? ==> r == (SerializedBody(objectName, data.fields, c.plurals), Some(c.plurals))
    ensures data.Str? ==> r.0 == RawText(data.text)
    ensures data.NoData? || data == Structured(map[]) ==> r.0 == RawText("")
  {
    match data
    case Str(text) => (RawText(text), None)
    case Structured(fields) =>
      if |fields| > 0 then (SerializedBody(objectName, fields, c.plurals), Some(c.plurals)) else (RawText(""), None)
    case NoData => (RawText(""), None)
  }

  /**
   The status handling after a reply: a proxy client returns every reply; otherwise 401 is a
   failed login, and when `strict` any other bad status fails as well.
   */
  function CheckStatus(c: Client, d: ResponseDict, strict: bool): (r: Result<(int, ResponseDict), RestError>)
    ensures r.Success? ==> r.value == (d.status, d)
    ensures r.Failure? ==> r.error == ServiceUnavailable
    ensures c.isProxy ==> r.Success?
    ensures !c.isProxy && strict ==> (r.Success? <==> IsValidResponse(d.status))
    ensures !c.isProxy && !strict ==> (r.Success? <==> d.status != 401)
  {
    if c.isProxy then Success((d.status, d))
    else if d.status == 401 then Failure(ServiceUnavailable)
    else if strict && !IsValidResponse(d.status) then Failure(ServiceUnavailable)
    else Success((d.status, d))
  }

  /** A request carrying the object as its body, checked strictly; a lookup error means the service is unavailable. */
  function SendWithBody(c: Client, verb: string, resourcePath: string, objectName: string, data: ObjectData,
                        reply: Exchange): (r: Call)
    ensures r.request.Some?
    ensures r.request.value.verb == verb && r.request.value.path == RequestPath(c, resourcePath)
    ensures r.request.value.headers == RequestHeaders(c)
    ensures r.request.value.body == Some(RequestBody(c, objectName, data).0)
    ensures reply.LookupFailed? ==> r.result == Failure(ServiceUnavailable)
    ensures reply.Answered? && !c.isProxy ==>
      (r.result.Success? <==> IsValidResponse(reply.response.status))
    ensures reply.Answered? ==>
      r.result == CheckStatus(c, GetResponseDict(reply.response, RequestBody(c, objectName, data).1), true)
  {
    var (body, serializer) := RequestBody(c, objectName, data);
    var request := Request(verb, RequestPath(c, resourcePath), RequestHeaders(c), Some(body));
    match reply
    case LookupFailed => Call(Some(request), Failure(ServiceUnavailable))
    case Answered(response) => Call(Some(request), CheckStatus(c, GetResponseDict(response, serializer), true))
  }

  /** POST: a lookup error is reported as the service being unavailable. */
  function CreateResource(c: Client, resourcePath: string, objectName: string, data: ObjectData,
                          reply: Exchange): (r: Call)
    ensures r.request.Some?
    ensures r.request.value.verb == "POST" && r.request.value.path == RequestPath(c, resourcePath)
    ensures r.request.value.headers == RequestHeaders(c)
    ensures r.request.value.body == Some(RequestBody(c, objectName, data).0)
    ensures reply.LookupFailed? ==> r.result == Failure(ServiceUnavailable)
    ensures reply.Answered? ==>
      r.result == CheckStatus(c, GetResponseDict(reply.response, RequestBody(c, objectName, data).1), true)
  {
    SendWithBody(c, "POST", resourcePath, objectName, data, reply)
  }

  /** GET: only a failed login is an error; the reply is parsed when asked for. */
  function RetrieveResource(c: Client, resourcePath: string, parseResponse: bool, reply: Exchange): (r: Call)
    ensures r.request == Some(Request("GET", RequestPath(c, resourcePath), RequestHeaders(c), None))
    ensures reply.LookupFailed? ==> r.result == Failure(ServiceUnavailable)
    ensures reply.Answered? ==>
      r.result == CheckStatus(c, GetResponseDict(reply.response, if parseResponse then Some(c.plurals) else None), false)
  {
    var request := Request("GET", RequestPath(c, resourcePath), RequestHeaders(c), None);
    var serializer := if parseResponse then Some(c.plurals) else None;
    match reply
    case LookupFailed => Call(Some(request), Failure(ServiceUnavailable))
    case Answered(response) => Call(Some(request), CheckStatus(c, GetResponseDict(response, serializer), false))
  }

  /**
   PUT as written: when the data is neither text nor a non-empty structure, the request body
   is never assigned, and logging it fails before any request is sent.
   */
  function UpdateResourceAsWritten(c: Client, resourcePath: string, objectName: string, data: ObjectData,
                                   reply: Exchange): (r: Call)
    ensures data.Str? || (data.Structured? && |data.fields| > 0) ==> r == UpdateResource(c, resourcePath, objectName, data, reply)
    ensures data.NoData? || data == Structured(map[]) ==> r == Call(None, Failure(UnboundRequestBody))
  {
    if data.Str? || (data.Structured? && |data.fields| > 0) then UpdateResource(c, resourcePath, objectName, data, reply)
    else Call(None, Failure(UnboundRequestBody))
  }

  /**
   PUT, with a falsy object sent as an empty body as POST does: the same request as POST
   but for its verb, and the same outcome for every reply.
   */
  function UpdateResource(c: Client, resourcePath: string, objectName: string, data: ObjectData,
                          reply: Exchange): (r: Call)
    ensures var post := CreateResource(c, resourcePath, objectName, data, reply);
      && r.request == Some(post.request.value.(verb := "PUT"))
      && r.result == post.result
  {
    SendWithBody(c, "PUT", resourcePath, objectName, data, reply)
  }

  /** DELETE: bad statuses fail, and a lookup error is not translated. */
  function RemoveResource(c: Client, resourcePath: string, parseResponse: bool, reply: Exchange): (r: Call)
    ensures r.request == Some(Request("DELETE", RequestPath(c, resourcePath), RequestHeaders(c), None))
    ensures reply.LookupFailed? ==> r.result == Failure(LookupFailure)
    ensures reply.Answered? ==>
      r.result == CheckStatus(c, GetResponseDict(reply.response, if parseResponse then Some(c.plurals) else None), true)
  {
    var request := Request("DELETE", RequestPath(c, resourcePath), RequestHeaders(c), None);
    var serializer := if parseResponse then Some(c.plurals) else None;
    match reply
    case LookupFailed => Call(Some(request), Failure(LookupFailure))
    case Answered(response) => Call(Some(request), CheckStatus(c, GetResponseDict(response, serializer), true))
  }

  // ---------------------------------------------------------------- properties of the verbs

  /**
   For a client that is not a proxy, the writing verbs succeed exactly on good statuses and
   GET on everything but 401; so whatever a writing verb accepts, GET accepts too.
   */
  lemma VerbStatusAgreement(c: Client, resourcePath: string, objectName: string, data: ObjectData,
                            parseResponse: bool, response: Response)
    requires !c.isProxy
    ensures CreateResource(c, resourcePath, objectName, data, Answered(response)).result.Success?
      <==> IsValidResponse(response.status)
    ensures UpdateResource(c, resourcePath, objectName, data, Answered(response)).result.Success?
      <==> IsValidResponse(response.status)
    ensures RemoveResource(c, resourcePath, parseResponse, Answered(response)).result.Success?
      <==> IsValidResponse(response.status)
    ensures RetrieveResource(c, resourcePath, parseResponse, Answered(response)).result.Success?
      <==> response.status != 401
    ensures IsValidResponse(response.status) ==>
      RetrieveResource(c, resourcePath, parseResponse, Answered(response)).result.Success?
  {
  }

  /** A proxy client hands every reply back, with the status it carried. */
  lemma ProxyPassesThrough(c: Client, resourcePath: string, objectName: string, data: ObjectData,
                           parseResponse: bool, response: Response)
    requires c.isProxy
    ensures var r := CreateResource(c, resourcePath, objectName, data, Answered(response)).result;
      r.Success? && r.value.0 == response.status
    ensures var r := RemoveResource(c, resourcePath, parseResponse, Answered(response)).result;
      r.Success? && r.value.0 == response.status
    ensures var r := RetrieveResource(c, resourcePath, parseResponse, Answered(response)).result;
      r.Success? && r.value.0 == response.status
  {
  }

  /** The unassigned body: PUT with no data fails as written, while the corrected PUT sends an empty body. */
  lemma UpdateWithoutDataDiverges(c: Client, resourcePath: string, objectName: string, response: Response)
    ensures UpdateResourceAsWritten(c, resourcePath, objectName, NoData, Answered(response)).result
      == Failure(UnboundRequestBody)
    ensures UpdateResourceAsWritten(c, resourcePath, objectName, NoData, Answered(response)).request.None?
    ensures var fixed := UpdateResource(c, resourcePath, objectName, NoData, Answered(response));
      fixed.request.Some? && fixed.request.value.body == Some(RawText(""))
    ensures !c.isProxy && IsValidResponse(response.status) ==>
      UpdateResource(c, resourcePath, objectName, NoData, Answered(response)).result.Success?
  {
  }

  /** The corrected PUT sends the same body POST would for the same data. */
  lemma UpdateBodyMatchesCreate(c: Client, resourcePath: string, objectName: string, data: ObjectData, reply: Exchange)
    ensures UpdateResource(c, resourcePath, objectName, data, reply).request.value.body
      == CreateResource(c, resourcePath, objectName, data, reply).request.value.body
  {
  }
}

=== FILE: snat_ports.dfy ===
/**
 The shared SNAT port of a (tenant, subnet): one port, named after the subnet, created
 lazily when a pool attaches and deleted once no pool of the tenant uses the subnet. The
 reference count is not stored; it is recomputed from the pool records each time.
 */
module SnatPorts {
  import opened Wrappers
  import opened NetScalerState

  const SnatPortPrefix := "_lb-snatport-"

  /** The deterministic name of a subnet's SNAT port. */
  function SnatPortName(subnetId: string): (name: string)
    ensures |name| == |SnatPortPrefix| + |subnetId| && name[|SnatPortPrefix|..] == subnetId
  {
    SnatPortPrefix + subnetId
  }

  /** Distinct subnets never share a SNAT port name. */
  lemma SnatPortNameInjective(s1: string, s2: string)
    requires SnatPortName(s1) == SnatPortName(s2)
    ensures s1 == s2
  {
    assert s1 == SnatPortName(s1)[|SnatPortPrefix|..];
  }

  /** The filter the driver hands to the port list. */
  predicate IsSnatPort(p: Port, networkId: string, tenantId: string, subnetId: string) {
    p.networkId == networkId && p.tenantId == tenantId && p.name == SnatPortName(subnetId)
  }

  /** The ports matching the filter, in provider order. */
  function SnatCandidates(ports: seq<Port>, networkId: string, tenantId: string, subnetId: string): (r: seq<Port>)
    ensures forall p :: p in r <==> p in ports && IsSnatPort(p, networkId, tenantId, subnetId)
    ensures |r| <= |ports|
  {
    if |ports| == 0 then []
    else
      (if IsSnatPort(ports[0], networkId, tenantId, subnetId) then [ports[0]] else [])
      + SnatCandidates(ports[1..], networkId, tenantId, subnetId)
  }

  /** The SNAT ports of (tenant, subnet) in a platform; none when the subnet is unknown. */
  function SnatPortsOf(st: Platform, tenantId: string, subnetId: string): (r: seq<Port>)
    ensures subnetId !in st.subnets ==> r == []
    ensures subnetId in st.subnets ==>
      forall p :: p in r <==> p in st.ports && IsSnatPort(p, st.subnets[subnetId].networkId, tenantId, subnetId)
    ensures forall p :: p in r ==> p.tenantId == tenantId && p.name == SnatPortName(subnetId)
  {
    if subnetId in st.subnets
    then SnatCandidates(st.ports, st.subnets[subnetId].networkId, tenantId, subnetId)
    else []
  }

  /** The pools of a tenant on a subnet (`_get_pools_on_subnet`). */
  function PoolsOnSubnet(st: Platform, tenantId: string, subnetId: string): (r: set<string>)
    ensures forall id :: id in r <==>
      (id in st.pools && st.pools[id].tenantId == tenantId && st.pools[id].subnetId == subnetId)
  {
    set id | id in st.pools && st.pools[id].tenantId == tenantId && st.pools[id].subnetId == subnetId
  }

  /** The port list after deleting the port with the given id. */
  function RemovePort(ports: seq<Port>, portId: string): (r: seq<Port>)
    ensures forall p :: p in r <==> p in ports && p.id != portId
    ensures |r| <= |ports|
  {
    if |ports| == 0 then []
    else (if ports[0].id == portId then [] else [ports[0]]) + RemovePort(ports[1..], portId)
  }

  /** Appending a port adds it to the candidates exactly when it matches. */
  lemma {:induction false} CandidatesOfAppend(ports: seq<Port>, p: Port, networkId: string,
                                              tenantId: string, subnetId: string)
    ensures SnatCandidates(ports + [p], networkId, tenantId, subnetId)
      == SnatCandidates(ports, networkId, tenantId, subnetId)
         + (if IsSnatPort(p, networkId, tenantId, subnetId) then [p] else [])
  {
    var extended := ports + [p];
    if |ports| == 0 {
      assert extended == [p];
    } else {
      var head := if IsSnatPort(ports[0], networkId, tenantId, subnetId) then [ports[0]] else [];
      var last := if IsSnatPort(p, networkId, tenantId, subnetId) then [p] else [];
      var rest := SnatCandidates(ports[1..], networkId, tenantId, subnetId);
      assert extended[0] == ports[0];
      assert extended[1..] == ports[1..] + [p];
      assert SnatCandidates(extended, networkId, tenantId, subnetId)
        == head + SnatCandidates(ports[1..] + [p], networkId, tenantId, subnetId);
      CandidatesOfAppend(ports[1..], p, networkId, tenantId, subnetId);
      assert head + (rest + last) == (head + rest) + last;
    }
  }

  /** Deleting a port by id and filtering for SNAT ports commute. */
  lemma {:induction false} CandidatesOfRemove(ports: seq<Port>, portId: string, networkId: string,
                                              tenantId: string, subnetId: string)
    ensures SnatCandidates(RemovePort(ports, portId), networkId, tenantId, subnetId)
      == RemovePort(SnatCandidates(ports, networkId, tenantId, subnetId), portId)
  {
    if |ports| == 0 {
    } else {
      CandidatesOfRemove(ports[1..], portId, networkId, tenantId, subnetId);
      var head := if ports[0].id == portId then [] else [ports[0]];
      assert RemovePort(ports, portId) == head + RemovePort(ports[1..], portId);
      CandidatesOfConcat(head, RemovePort(ports[1..], portId), networkId, tenantId, subnetId);
      var c := if IsSnatPort(ports[0], networkId, tenantId, subnetId) then [ports[0]] else [];
      RemoveOfConcat(c, SnatCandidates(ports[1..], networkId, tenantId, subnetId), portId);
      if |head| == 1 {
        assert head[1..] == [];
        assert SnatCandidates(head, networkId, tenantId, subnetId) == c;
      }
      if |c| == 1 {
        assert c[1..] == [];
        assert RemovePort(c, portId) == if ports[0].id == portId then [] else c;
      }
    }
  }

  lemma {:induction false} CandidatesOfConcat(a: seq<Port>, b: seq<Port>, networkId: string,
                                              tenantId: string, subnetId: string)
    ensures SnatCandidates(a + b, networkId, tenantId, subnetId)
      == SnatCandidates(a, networkId, tenantId, subnetId) + SnatCandidates(b, networkId, tenantId, subnetId)
  {
    if |a| == 0 {
      assert a + b == b;
    } else {
      assert (a + b)[1..] == a[1..] + b;
      CandidatesOfConcat(a[1..], b, networkId, tenantId, subnetId);
    }
  }

  lemma {:induction false} RemoveOfConcat(a: seq<Port>, b: seq<Port>, portId: string)
    ensures RemovePort(a + b, portId) == RemovePort(a, portId) + RemovePort(b, portId)
  {
    if |a| == 0 {
      assert a + b == b;
    } else {
      assert (a + b)[1..] == a[1..] + b;
      RemoveOfConcat(a[1..], b, portId);
    }
  }

  /** What the driver asks the provider for: a down, unowned port on the subnet, address left to the provider. */
  function SnatPortRequest(tenantId: string, subnetId: string, subnet: Subnet): (req: PortRequest)
    ensures !req.adminStateUp && req.deviceId == "" && req.deviceOwner == ""
    ensures req.fixedIps == [FixedIpRequest(subnet.id, None)]
    ensures req.name == SnatPortName(subnetId) && req.networkId == subnet.networkId
    ensures req.tenantId == tenantId
  {
    PortRequest(tenantId, SnatPortName(subnetId), subnet.networkId, false, "", "",
                [FixedIpRequest(subnet.id, None)])
  }

  /** The port the provider creates for a request: its fields, the allocated id and address. */
  function Provision(req: PortRequest, alloc: Allocation): (p: Port)
    requires |req.fixedIps| == 1
    ensures p.id == alloc.portId && p.fixedIps == [FixedIp(req.fixedIps[0].subnetId, alloc.ipAddress)]
    ensures p.name == req.name && p.networkId == req.networkId && p.tenantId == req.tenantId
    ensures p.adminStateUp == req.adminStateUp && p.deviceId == req.deviceId && p.deviceOwner == req.deviceOwner
  {
    Port(alloc.portId, req.tenantId, req.name, req.networkId, req.adminStateUp, req.deviceOwner,
         req.deviceId, [FixedIp(req.fixedIps[0].subnetId, alloc.ipAddress)])
  }

  /** The effect of ensuring a SNAT port: new platform, events, and network info completed with the port. */
  datatype Ensured = Ensured(st: Platform, events: seq<Event>, netinfo: NetworkInfo)

  /** The first SNAT port of (tenant, subnet) exists but carries no address, so it cannot be used. */
  predicate SnatPortLacksAddress(st: Platform, tenantId: string, subnetId: string) {
    |SnatPortsOf(st, tenantId, subnetId)| > 0 && |SnatPortsOf(st, tenantId, subnetId)[0].fixedIps| == 0
  }

  /**
   `netinfo` is `net` completed with the SNAT port (tenant, subnet) has in `st`, or with the
   allocated port and address when it has none yet.
   */
  predicate CompletedWithSnatPort(st: Platform, tenantId: string, subnetId: string, net: NetworkInfo,
                                  alloc: Allocation, netinfo: NetworkInfo) {
    var ports := SnatPortsOf(st, tenantId, subnetId);
    if |ports| == 0 then netinfo == net.(portId := Some(alloc.portId), snatIp := Some(alloc.ipAddress))
    else |ports[0].fixedIps| > 0
         && netinfo == net.(portId := Some(ports[0].id), snatIp := Some(ports[0].fixedIps[0].ipAddress))
  }

  /**
   Ensures (tenant, subnet) has a SNAT port and records it in the network info: an existing
   port is reused untouched; otherwise exactly one is created.
   */
  function EnsureSnatPort(st: Platform, tenantId: string, subnetId: string, net: NetworkInfo,
                          alloc: Allocation): (r: Result<Ensured, DriverError>)
    ensures subnetId !in st.subnets ==> r == Failure(SubnetNotFound(subnetId))
    ensures r.Failure? && subnetId in st.subnets ==>
      |SnatPortsOf(st, tenantId, subnetId)| > 0 && |SnatPortsOf(st, tenantId, subnetId)[0].fixedIps| == 0
    ensures r.Success? ==>
      var ports := SnatPortsOf(r.value.st, tenantId, subnetId);
      && SameExceptPorts(r.value.st, st)
      && |ports| > 0 && |ports[0].fixedIps| > 0
      && r.value.netinfo == net.(portId := Some(ports[0].id), snatIp := Some(ports[0].fixedIps[0].ipAddress))
    ensures r.Success? ==> (r.value.events == [] ||
      (|r.value.events| == 1 && r.value.events[0].PortCreated? && r.value.events[0].port.id == alloc.portId))
    ensures r.Success? && |SnatPortsOf(st, tenantId, subnetId)| > 0 ==>
      r.value.st == st && r.value.events == []
    ensures r.Success? && |SnatPortsOf(st, tenantId, subnetId)| == 0 ==>
      && |r.value.events| == 1 && r.value.events[0].PortCreated?
      && r.value.events[0].request == SnatPortRequest(tenantId, subnetId, st.subnets[subnetId])
      && r.value.events[0].port.id == alloc.portId
      && r.value.st.ports == st.ports + [r.value.events[0].port]
      && |SnatPortsOf(r.value.st, tenantId, subnetId)| == 1
      && r.value.netinfo.snatIp == Some(alloc.ipAddress)
    ensures subnetId in st.subnets && |SnatPortsOf(st, tenantId, subnetId)| == 0 ==> r.Success?
    ensures r.Success? <==> subnetId in st.subnets && !SnatPortLacksAddress(st, tenantId, subnetId)
    ensures r.Success? ==> CompletedWithSnatPort(st, tenantId, subnetId, net, alloc, r.value.netinfo)
  {
    if subnetId !in st.subnets then Failure(SubnetNotFound(subnetId))
    else
      var subnet := st.subnets[subnetId];
      var found := SnatCandidates(st.ports, subnet.networkId, tenantId, subnetId);
      if |found| > 0 then
        var port := found[0];
        if |port.fixedIps| == 0 then Failure(NoFixedIp(port.id))
        else Success(Ensured(st, [], net.(portId := Some(port.id), snatIp := Some(port.fixedIps[0].ipAddress))))
      else
        var req := SnatPortRequest(tenantId, subnetId, subnet);
        var port := Provision(req, alloc);
        CandidatesOfAppend(st.ports, port, subnet.networkId, tenantId, subnetId);
        Success(Ensured(st.(ports := st.ports + [port]), [PortCreated(req, port)],
                        net.(portId := Some(port.id), snatIp := Some(port.fixedIps[0].ipAddress))))
  }

  /** The effect of a release: new platform and events. */
  datatype Released = Released(st: Platform, events: seq<Event>)

  /**
   Deletes the SNAT port of (tenant, subnet) when no pool of the tenant is left on the
   subnet; while pools remain, or when there is no port, nothing changes.
   */
  function ReleaseSnatPortIfUnused(st: Platform, tenantId: string, subnetId: string): (r: Result<Released, DriverError>)
    ensures PoolsOnSubnet(st, tenantId, subnetId) != {} ==> r == Success(Released(st, []))
    ensures r.Failure? <==> PoolsOnSubnet(st, tenantId, subnetId) == {} && subnetId !in st.subnets
    ensures r.Failure? ==> r.error == SubnetNotFound(subnetId)
    ensures r.Success? ==> SameExceptPorts(r.value.st, st)
    ensures r.Success? ==> r.value.events == [] || (|r.value.events| == 1 && r.value.events[0].PortDeleted?)
    ensures r.Success? && |SnatPortsOf(st, tenantId, subnetId)| == 0 ==> r.value == Released(st, [])
    ensures r.Success? && PoolsOnSubnet(st, tenantId, subnetId) == {} && |SnatPortsOf(st, tenantId, subnetId)| > 0 ==>
      var victim := SnatPortsOf(st, tenantId, subnetId)[0];
      && r.value.events == [PortDeleted(victim.id)]
      && r.value.st.ports == RemovePort(st.ports, victim.id)
      && SnatPortsOf(r.value.st, tenantId, subnetId) == RemovePort(SnatPortsOf(st, tenantId, subnetId), victim.id)
  {
    if PoolsOnSubnet(st, tenantId, subnetId) != {} then Success(Released(st, []))
    else if subnetId !in st.subnets then Failure(SubnetNotFound(subnetId))
    else
      var subnet := st.subnets[subnetId];
      var found := SnatCandidates(st.ports, subnet.networkId, tenantId, subnetId);
      if |found| == 0 then Success(Released(st, []))
      else
        CandidatesOfRemove(st.ports, found[0].id, subnet.networkId, tenantId, subnetId);
        Success(Released(st.(ports := RemovePort(st.ports, found[0].id)), [PortDeleted(found[0].id)]))
  }

  /** Releasing the only SNAT port of an unused subnet leaves the subnet without one. */
  lemma ReleaseLastPortEmpties(st: Platform, tenantId: string, subnetId: string)
    requires subnetId in st.subnets
    requires PoolsOnSubnet(st, tenantId, subnetId) == {}
    requires |SnatPortsOf(st, tenantId, subnetId)| == 1
    ensures var r := ReleaseSnatPortIfUnused(st, tenantId, subnetId);
      r.Success? && SnatPortsOf(r.value.st, tenantId, subnetId) == []
  {
    var only := SnatPortsOf(st, tenantId, subnetId);
    assert only == [only[0]];
    assert RemovePort(only, only[0].id) == [] by {
      assert only[1..] == [];
    }
  }
}

=== FILE: wrappers.dfy ===
/** Failure-compatible wrappers shared by every module of the model. */
module Wrappers {

  /** A value that may be absent (Python's `None`). */
  datatype Option<+T> = None | Some(value: T)

  /** The outcome of an operation that either returns a value or raises an error. */
  datatype Result<+T, +E> = Success(value: T) | Failure(error: E) {

    predicate IsFailure() {
      Failure?
    }

    function PropagateFailure<U>(): Result<U, E>
      requires Failure?
    {
      Failure(error)
    }

    function Extract(): T
      requires Success?
    {
      value
    }
  }
}
